=== FILE: README.md ===
# SafeStep core in Dafny

SafeStep is a Next.js application in which people report street-safety
events (danger, blocked paths, protests, public events, crime alerts) on a
map, verify each other's reports, chat about an event and ask an AI safety
advisor about an area.  This project models the deterministic cores of its
front end and server routes as pure Dafny functions over immutable data,
and proves what those cores promise:

- the reporter reputation and moderation state machine (score, counts,
  level, escalating ban tiers, premium extension, and the guard-first
  status-update service over two in-memory tables);
- pickpocket hotspot clustering (a flood fill over a precomputed
  neighbour graph, average centre, cover radius, cluster id);
- filter normalisation, event filtering, grouping and sorting, and the
  assembly of the advisor's system prompt and chat request;
- the e-mail, password, form and report validators;
- the client-side stores and state machines: the sorted events store with
  optimistic verification, the chat's optimistic-message queue, keyboard
  navigation and latest-request-wins search, the advisor chat panel, the
  development mock API and the row-to-event mapping;
- the gating rules of the report, account, sign-in and header views.

The clock (`now`, milliseconds), date parsing, the distance between two
points, JSON parsing and schema checks, the language model, the database's
failures and all text formatting of numbers and dates are parameters of
the functions that need them.  JavaScript numbers that can be `NaN` or
infinite are `JsNumbers.JsNumber`; other numbers are `int` or `real`.

Shared modules: `Wrappers` (`Option`, `Result`), `Text` (ECMAScript
`trim`, `split`, `join`, `startsWith`, and `length` in UTF-16 code units), `Seqs` (filter, subsequence,
duplicates), `Sorting` (stable sort by an integer key, string sort),
`JsNumbers` and `Domain` (`Event`, `Location`, lookup by id).

## Model

| member | source | states |
|---|---|---|
| Reporting.CoerceStatus | frontend/lib/reporting-service.ts:110-115 | A stored status that is one of the four names is kept; anything else reads as pending. |
| Reporting.LaterOfNow | frontend/lib/reporting-service.ts:69-76 | The start of a stacked period is now, or the stored expiry when it is a later parseable moment. |
| Reporting.ClampNonNegative | frontend/lib/reporting-service.ts:108 | Negative counts become 0; other values are kept. |
| Reporting.BanDurationDays | frontend/lib/reporting-service.ts:73-75 | Tier 1 bans for 1 day, tier 2 for 2, tier 3 and above for 7; a tier of 0 or below reads `undefined` at index -1 and falls back to 7. |
| Reporting.CalculateBanUntil | frontend/lib/reporting-service.ts:64-89 | An escalated tier is stored and the ban ends its duration after the later of now and the current ban; otherwise tier 0 clears the ban and a positive tier keeps it. |
| Reporting.ExtendPremium | frontend/lib/reporting-service.ts:91-106 | A level gain extends premium by seven days per level from the later of now and the current expiry; no gain leaves it untouched. |
| Reporting.ApplyMetrics | frontend/lib/reporting-service.ts:117-147 | A transition yields a fully populated row for the same reporter; its columns are stated by the lemmas below. |
| Reporting.ScoreDelta | frontend/lib/reporting-service.ts:131-136 | The score change is points(next) minus points(previous): pending 0, valid +1, spam and false -1. |
| Reporting.CountDeltas | frontend/lib/reporting-service.ts:132-138 | The valid and invalid counts change by the difference of the is-valid and is-spam-or-false indicators. |
| Reporting.LevelFromScore | frontend/lib/reporting-service.ts:139 | The level is one per 20 points of non-negative score: 19 gives 0, 20 gives 1, a negative score 0. |
| Reporting.DerivedColumns | frontend/lib/reporting-service.ts:139-145 | After a transition the level is recomputed from the score and the ban tier is the invalid count divided by 3. |
| Reporting.EscalationNeverShortensBan | frontend/lib/reporting-service.ts:64-79 | An escalation never ends an unexpired ban earlier than before. |
| Reporting.NonEscalationBan | frontend/lib/reporting-service.ts:81-88 | Without escalation a non-positive tier gives no ban and a positive tier keeps the stored expiry. |
| Reporting.PremiumOnlyOnLevelGain | frontend/lib/reporting-service.ts:91-106 | Premium changes exactly when the level rises. |
| Reporting.SameStatusKeepsCounters | frontend/lib/reporting-service.ts:131-138 | A transition to the same status changes neither score nor counts. |
| Reporting.RoundTripRestores | frontend/lib/reporting-service.ts:131-139 | Going a to b and back restores the score exactly, and the counts when no clamp fired. |
| Reporting.TransitionKeepsConsistency | frontend/lib/reporting-service.ts:125-145 | Score and counts stay equal to the totals over the reporter's event statuses after any status change. |
| Reporting.EmptyHistoryIsDefault | frontend/lib/reporting-service.ts:125-129 | A reporter with no judged events has the default profile, whose null columns read as zero. |
| Reporting.ValidStreak | frontend/lib/reporting-service.ts:131-147 | k events judged valid from a fresh profile give score k and level k/20, no ban, and a week of premium from 20 on. |
| Reporting.SpamThenCorrection | frontend/lib/reporting-service.ts:131-145 | Three events marked spam give tier 1 and a one-day ban; correcting one to valid drops the tier to 0 and lifts the ban. |
| Reporting.EnsureProfileRow | frontend/lib/reporting-service.ts:27-62 | The reporter's profile row is read, or a default row is inserted when none exists; a failed read or insert is an error. |
| Reporting.ApplyReporterMetrics | frontend/lib/reporting-service.ts:117-166 | The metrics of the reporter's profile are updated from its row or its default, and only that row changes. |
| Reporting.ApplyEventStatusUpdate | frontend/lib/reporting-service.ts:168-212 | A failed fetch or a missing event fails without writes, an unchanged status returns the row, otherwise the status is stored and the reporter's metrics applied. |
| Reporting.ServiceAppliesMetricsOnce | frontend/lib/reporting-service.ts:188-209 | A successful update applies the metrics of exactly the stored transition to exactly the reporter's row. |
| Reporting.UnknownStatusCountsAsPending | frontend/lib/reporting-service.ts:188-192 | An event with an unknown stored status is updated as though it were pending. |
| Reporting.ProfileFailureIsNotRolledBack | frontend/lib/reporting-service.ts:194-209 | A failing profile write leaves the event's new status in place. |
| Geospatial.RecentReports | frontend/lib/utils/geospatial.ts:54-63 | The pickpocket alerts whose time parses and is inside the window, in input order, with every copy of such a report kept and no other report. |
| Geospatial.Neighbors | frontend/lib/utils/geospatial.ts:72-77 | The neighbours of a report are the other reports, by id, within the proximity distance. |
| Geospatial.ShapeMeetsMinimum | frontend/lib/utils/geospatial.ts:88-92 | A cluster started from a core seed holds at least the minimum number of reports. |
| Geospatial.AddNeighbors | frontend/lib/utils/geospatial.ts:106-112 | Every neighbour of the expanded dense member ends in the cluster; the ones added are new and each records that member as its parent. |
| Geospatial.ExpandCluster | frontend/lib/utils/geospatial.ts:92-114 | The finished cluster holds its seed, each report once, all visited; every member is a neighbour of an earlier dense member; every dense report this fill expands has all its neighbours in the cluster. |
| Geospatial.AverageLocation | frontend/lib/utils/geospatial.ts:140-154 | The centre times the number of points is the coordinate sums. |
| Geospatial.AverageWithinRange | frontend/lib/utils/geospatial.ts:140-154 | The centre lies between the smallest and largest latitude, and likewise for longitude. |
| Geospatial.AverageOfEqualPoints | frontend/lib/utils/geospatial.ts:140-154 | The centre of copies of one point is that point. |
| Geospatial.MaxDistance | frontend/lib/utils/geospatial.ts:157-160 | The largest distance from the centre to a member, zero for no member. |
| Geospatial.CoverRadius | frontend/lib/utils/geospatial.ts:156-165 | The farthest member distance m plus a padding of a fifth of m held within 75..250, and at least 200: max(m + 75, 200) up to m = 375, 1.2·m up to 1250, and m + 250 beyond. |
| Geospatial.ClusterIdIgnoresOrder | frontend/lib/utils/geospatial.ts:124-127 | Two clusters with the same member ids get the same id, whatever the order. |
| Geospatial.ClusterIdSplits | frontend/lib/utils/geospatial.ts:124-127 | Splitting the id at its bars gives the sorted member ids, when no id holds a bar. |
| Sorting.SortStrings | frontend/lib/utils/geospatial.ts:124-126 | The default sort returns the same ids in UTF-16 code-unit order. |
| Sorting.AstralBeforePrivateUse | frontend/lib/utils/geospatial.ts:126 | Code-unit order is not code-point order: U+10000 sorts before U+E000. |
| Geospatial.BuildCluster | frontend/lib/utils/geospatial.ts:120-134 | The members' events, their average location as the centre, `CoverRadius` of that centre as the radius, and the sorted-id cluster id. |
| Geospatial.VisitReport | frontend/lib/utils/geospatial.ts:79-135 | A visited report changes nothing; a non-dense report starts no cluster; an unvisited dense report appends exactly one cluster seeded by it; every dense report expanded so far lies in some cluster. |
| Geospatial.DerivePickpocketClusters | frontend/lib/utils/geospatial.ts:45-138 | No qualifying report gives no cluster; every cluster has the minimum size and the shape of a flood fill from its seed; seeds are distinct and in input order; every report is expanded once; with distinct ids every dense report lies in some cluster, and each cluster holds every neighbour of a dense member that no earlier cluster took. |
| Geospatial.ClosedEmit | frontend/lib/utils/geospatial.ts:92-113 | With distinct ids, a dense member a new cluster takes first is its seed or was expanded by its fill, so its neighbours are all members; earlier clusters keep their closure. |
| ExtractQuery.NormalizeTimeframe | frontend/lib/ai/extract-safety-query.ts:190-196 | A non-number or NaN is null; otherwise the rounded value clamped to 1..24. |
| ExtractQuery.NormalizeTimeframeIdempotent | frontend/lib/ai/extract-safety-query.ts:190-196 | Normalising a normalised timeframe changes nothing. |
| ExtractQuery.NormalizeWholeMonths | frontend/lib/ai/extract-safety-query.ts:190-196 | A whole number of months is clamped to 1..24. |
| ExtractQuery.DedupeCategories | frontend/lib/ai/extract-safety-query.ts:198-203 | Only the five allowed categories, each once, in first-occurrence order. |
| ExtractQuery.DedupeCategoriesOfValid | frontend/lib/ai/extract-safety-query.ts:198-203 | Distinct allowed categories pass unchanged. |
| ExtractQuery.DedupeStrings | frontend/lib/ai/extract-safety-query.ts:205-213 | Exactly the trimmed values of 2 to 60 UTF-16 code units, each once, in the order of their first occurrence. |
| ExtractQuery.ClampRadius | frontend/lib/ai/extract-safety-query.ts:118-121 | A radius is clamped to 50..25000 m and an in-range one is kept; none stays none. |
| ExtractQuery.DropLangTag | frontend/lib/ai/extract-safety-query.ts:218 | The leading run of language-tag characters is removed and nothing else. |
| ExtractQuery.DropClosingFence | frontend/lib/ai/extract-safety-query.ts:218 | A trailing fence is removed. |
| ExtractQuery.CoerceJsonString | frontend/lib/ai/extract-safety-query.ts:215-222 | The output is trimmed; unfenced input comes back trimmed. |
| ExtractQuery.FencedAnswerRoundTrip | frontend/lib/ai/extract-safety-query.ts:215-222 | A JSON text wrapped in a tagged code fence comes back as the text. |
| ExtractQuery.JoinOrDefault | frontend/lib/ai/extract-safety-query.ts:232 | The parts joined by the separator, or the default when there are none. |
| ExtractQuery.BuildFallbackSummary | frontend/lib/ai/extract-safety-query.ts:224-233 | The timeframe sentence, then the coordinates sentence, each only when its value is set, joined by a space; the default text exactly when neither is. |
| ExtractQuery.BuildSummaryFromFilters | frontend/lib/ai/extract-safety-query.ts:235-266 | The default text exactly when no filter is set; otherwise the sentences of the set filters joined by spaces. |
| ExtractQuery.SummaryPhrases | frontend/lib/ai/extract-safety-query.ts:246-263 | One sentence per set filter, in the order months, categories, keywords, radius. |
| ExtractQuery.AllFiltersSummary | frontend/lib/ai/extract-safety-query.ts:246-265 | With every filter set the summary is the four sentences in order, separated by spaces. |
| ExtractQuery.MonthPhrasePlural | frontend/lib/ai/extract-safety-query.ts:249 | "month" for one, "months" above one. |
| ExtractQuery.Fallback | frontend/lib/ai/extract-safety-query.ts:57-65 | Without a key: the payload's timeframe normalised, its coordinates, no categories, no keywords, no radius. |
| ExtractQuery.FromData | frontend/lib/ai/extract-safety-query.ts:105-136 | A parsed answer becomes clamped timeframe and radius, deduplicated categories, keywords with the area appended, and its summary or a built one. |
| ExtractQuery.ExtractFilters | frontend/lib/ai/extract-safety-query.ts:51-141 | No key or a failed call or parse gives the fallback; a valid answer gives its normalised filters. |
| ExtractQuery.ExtractFiltersInRange | frontend/lib/ai/extract-safety-query.ts:51-141 | Every result has its timeframe, radius and keywords within the normalised ranges. |
| ExtractQuery.FallbackInRange | frontend/lib/ai/extract-safety-query.ts:57-65 | The fallback is within the normalised ranges. |
| ExtractQuery.FromDataInRange | frontend/lib/ai/extract-safety-query.ts:105-136 | Filters built from an answer are within the normalised ranges. |
| ExtractQuery.BuildFallbackSummaryNonEmpty | frontend/lib/ai/extract-safety-query.ts:224-233 | The fallback summary is never empty. |
| ExtractQuery.ValidAnswerPassesThrough | frontend/lib/ai/extract-safety-query.ts:107-121 | Schema-valid timeframes and distinct categories are kept; a radius below 50 rises to 50. |
| ExtractQuery.FallbackSummaryGuardRedundant | frontend/lib/ai/extract-safety-query.ts:61-64 | The guard for an empty fallback summary never fires. |
| ExtractQuery.LastUserIndex | frontend/lib/ai/extract-safety-query.ts:144-148 | The position of the last user message, if any. |
| ExtractQuery.LatestUserMessage | frontend/lib/ai/extract-safety-query.ts:144-148 | The latest user message, or the payload's query when there is none. |
| EventFilter.RequestedCategories | frontend/lib/prompt/event-filter.ts:11 | Only the non-empty listed categories are requested. |
| EventFilter.Cutoff | frontend/lib/prompt/event-filter.ts:12-15 | A cutoff exists only for a positive number of hours, and lies that many hours before now. |
| EventFilter.FilterEvents | frontend/lib/prompt/event-filter.ts:17-36 | An order-preserving subsequence of exactly the events that match category, window and activity, keeping every copy of a matching event and none of the others. |
| EventFilter.FilterWithoutOptions | frontend/lib/prompt/event-filter.ts:9-37 | Empty options return the input. |
| EventFilter.FilterEventsIdempotent | frontend/lib/prompt/event-filter.ts:17-36 | Filtering twice with the same options is filtering once. |
| EventFilter.WiderWindowKeepsMore | frontend/lib/prompt/event-filter.ts:12-29 | A longer window keeps every event a shorter one keeps. |
| EventFilter.EventsInIsFilter | frontend/lib/prompt/event-filter.ts:39-45 | A bucket is the input filtered by its category, in order. |
| EventFilter.GroupEventsByCategory | frontend/lib/prompt/event-filter.ts:39-45 | Each event is in its own category's bucket and no other, in input order. |
| EventFilter.GroupedEventsPartition | frontend/lib/prompt/event-filter.ts:39-45 | Every event is in the bucket of its own category. |
| EventFilter.BucketSizesAddUp | frontend/lib/prompt/event-filter.ts:39-45 | The bucket sizes sum to the number of events. |
| EventFilter.SortEventsByRecency | frontend/lib/prompt/event-filter.ts:47-51 | A stable permutation of the input with non-increasing times. |
| EventsStore.SortNewestFirst | frontend/store/events-store.ts:211 | The list reordered newest first, stably, same events. |
| EventsStore.UpsertEvent | frontend/store/events-store.ts:206-220 | A new id adds the event and grows the list by one; a known id replaces the first copy and keeps the length; the list stays newest first. |
| EventsStore.UpsertIdempotent | frontend/store/events-store.ts:206-220 | Upserting the same event twice is upserting it once. |
| EventsStore.UpsertOnlyCopy | frontend/store/events-store.ts:215-218 | With distinct ids, the upserted event is the only one with its id. |
| EventsStore.RemoveEvent | frontend/store/events-store.ts:221-225 | Every event with the id goes; the rest keep their order and every copy. |
| EventsStore.RemoveAbsent | frontend/store/events-store.ts:221-225 | Removing an unknown id changes nothing. |
| EventsStore.SetCount | frontend/store/events-store.ts:236-240 | Only the events with the id get the count. |
| EventsStore.OptimisticVerify | frontend/store/events-store.ts:226-240 | An unknown id changes nothing; otherwise that id's count becomes old plus one. |
| EventsStore.RollbackVerify | frontend/store/events-store.ts:247-254 | A failed write sets the count back to one less and records the error. |
| EventsStore.VerifyEvent | frontend/store/events-store.ts:226-256 | An unknown id changes nothing; otherwise the error records whether the write failed, and the length is kept. |
| EventsStore.VerifySucceeds | frontend/store/events-store.ts:226-245 | A successful write raises that id's count by one and leaves the other events. |
| EventsStore.FailedVerifyRestores | frontend/store/events-store.ts:247-254 | A failed write restores the list as it was. |
| EventsStore.ScheduleRetry | frontend/store/events-store.ts:62-80 | No retry when retries are off; otherwise the capped delay of the current attempt, and one more attempt. |
| EventsStore.OnSubscribed | frontend/store/events-store.ts:130-136 | A successful subscription resets the attempts to zero. |
| EventsStore.Subscribe | frontend/store/events-store.ts:159-170 | An existing subscription does nothing; otherwise retries are enabled and a new channel starts from zero attempts. |
| EventsStore.Unsubscribe | frontend/store/events-store.ts:172-205 | Retries stop, and closing an open channel resets the attempts. |
| EventsStore.NoRetryAfterUnsubscribe | frontend/store/events-store.ts:194-201 | After unsubscribing no retry is pending. |
| EventsStore.RetrySchedule | frontend/store/events-store.ts:67-68 | The n-th retry waits 1000 * 2^n ms up to the fourth and 30000 ms from the fifth. |
| EventsStore.RetryNeverShrinks | frontend/store/events-store.ts:67-68 | Consecutive retries never wait less. |
| Backoff.Delay | frontend/store/events-store.ts:67 | The delay is base * 2^attempt or the cap, whichever is smaller. |
| Backoff.DelayMonotone | frontend/store/events-store.ts:67 | More attempts never give a shorter delay. |
| Backoff.DelayDoubles | frontend/store/events-store.ts:67 | Below the cap each attempt doubles the delay. |
| EventChat.PendingKey | frontend/components/event-chat.tsx:26-28 | The key starts with the user id (or "anon") and a bar, and ends with a bar and the content. |
| EventChat.PendingKeySplits | frontend/components/event-chat.tsx:26-28 | Without bars in the parts, the key splits back into them. |
| EventChat.PendingKeyAmbiguous | frontend/components/event-chat.tsx:26-28 | Different e-mail and content split at a bar give the same key. |
| EventChat.PutQueue | frontend/components/event-chat.tsx:129-133 | An empty queue deletes the key; a non-empty one is stored. |
| EventChat.BeginSend | frontend/components/event-chat.tsx:230-254 | Blank input or a send in flight does nothing; otherwise the trimmed message is appended and its id queued last under its key. |
| EventChat.FinishSend | frontend/components/event-chat.tsx:256-282 | Success clears the input; failure removes every message with the id, keeping the others' order and copies, drops the id from its queue and shows the error; the send ends either way. |
| EventChat.Dismiss | frontend/components/event-chat.tsx:135-139 | With a queued id, the messages with that id go and the rest keep their order and copies; an empty queue leaves the messages. |
| EventChat.RealtimeInsert | frontend/components/event-chat.tsx:115-147 | An insert dequeues the oldest pending id of its key, drops that message, and adds itself unless present. |
| EventChat.RealtimeDequeuesOldest | frontend/components/event-chat.tsx:125-140 | An insert takes the oldest pending id off its key's queue and that message leaves the list. |
| EventChat.RealtimeNeverDuplicates | frontend/components/event-chat.tsx:141-145 | An insert for a message already shown, with nothing pending, leaves the list as it is. |
| EventChat.FailedSendLeavesNoTrace | frontend/components/event-chat.tsx:263-277 | A send that fails leaves the messages and the queues as they were. |
| EventChat.RequeueThenDrop | frontend/components/event-chat.tsx:269-276 | Queuing an id and dropping it again restores the queues. |
| EventChat.SortedMessages | frontend/components/event-chat.tsx:290-294 | The displayed messages are a stable permutation in ascending time. |
| EventChat.ScheduleRetry | frontend/components/event-chat.tsx:192-204 | Nothing after unmount or while a retry waits; otherwise the capped delay and one more attempt. |
| EventChat.OnSubscribed | frontend/components/event-chat.tsx:172-176 | A successful subscription resets the attempts and clears the pending timer. |
| EventChat.NoRetryWhilePending | frontend/components/event-chat.tsx:192-195 | A second request while a retry is pending changes nothing. |
| EventChat.ChatRetrySchedule | frontend/components/event-chat.tsx:197-198 | The n-th retry waits 1000 * 2^n ms up to the third and 12000 ms from the fourth. |
| EventSearch.ShowDropdown | frontend/components/event-search.tsx:41-42 | Shown exactly when open and loading, failed or with results. |
| EventSearch.KeyDown | frontend/components/event-search.tsx:94-123 | Hidden dropdowns ignore keys; arrows move the index modulo the result count; Enter picks an existing result; Escape closes. |
| EventSearch.ArrowsStayInRange | frontend/components/event-search.tsx:100-108 | Arrow keys keep the index in range. |
| EventSearch.DownThenUp | frontend/components/event-search.tsx:100-108 | Down then up, or up then down, returns to the same in-range index. |
| EventSearch.DownCycles | frontend/components/event-search.tsx:100-103 | Down from the last result wraps to the first. |
| EventSearch.ResultsArrive | frontend/components/event-search.tsx:46-51 | A changed result count resets the index to 0; the same count keeps it. |
| EventSearch.ClearHighlight | frontend/components/event-search.tsx:125-129 | Clearing resets the index to 0. |
| EventSearch.HighlightStaysInRange | frontend/components/event-search.tsx:94-129 | Key presses and new results keep the index in range. |
| EventSearchHook.CollapseRuns | frontend/hooks/events/use-event-search.ts:60 | No whitespace remains and the text never grows. |
| EventSearchHook.Pattern | frontend/hooks/events/use-event-search.ts:60 | The pattern starts and ends with a wildcard and holds no whitespace. |
| EventSearchHook.CollapseKeepsText | frontend/hooks/events/use-event-search.ts:60 | Dropping the wildcards gives the query without its whitespace. |
| EventSearchHook.PatternOfWord | frontend/hooks/events/use-event-search.ts:60 | A single word is wrapped in wildcards. |
| EventSearchHook.SetQueryAsWritten | frontend/hooks/events/use-event-search.ts:38-56 | A blank query resets results, error, loading and dropdown without retiring the request; otherwise a search is armed with the trimmed query. |
| EventSearchHook.TimerFires | frontend/hooks/events/use-event-search.ts:56-60 | The debounced search issues a fresh request id with the pattern. |
| EventSearchHook.Respond | frontend/hooks/events/use-event-search.ts:75-105 | A response or error is applied only for the latest request id; errors give no results, a message and an open dropdown. |
| EventSearchHook.ClearAsWritten | frontend/hooks/events/use-event-search.ts:116-125 | Clear empties query, results and error and closes the dropdown, without a new request id. |
| EventSearchHook.CloseDropdown | frontend/hooks/events/use-event-search.ts:127-129 | Only the dropdown flag changes. |
| EventSearchHook.StaleResponseAfterClear | frontend/hooks/events/use-event-search.ts:116-125 | As written, a response to a search started before a clear reopens the dropdown with old results. |
| EventSearchHook.StaleResponseAfterErase | frontend/hooks/events/use-event-search.ts:43-51 | As written, a response arriving after the query was erased reopens the dropdown. |
| EventSearchHook.ErasedResponseLands | frontend/hooks/events/use-event-search.ts:43-91 | As written, whatever search was armed, its response still lands after the query is erased. |
| EventSearchHook.SetQuery | frontend/hooks/events/use-event-search.ts:38-57 | As written, except that every query change also retires the outstanding request. |
| EventSearchHook.Clear | frontend/hooks/events/use-event-search.ts:116-125 | As written, except that clearing also retires the outstanding request. |
| EventSearchHook.EarlierRequestsIgnored | frontend/hooks/events/use-event-search.ts:75-77 | A response to any earlier request changes nothing. |
| EventSearchHook.ClearedStaysClosed | frontend/hooks/events/use-event-search.ts:116-125 | After a clear, no response to an earlier request reopens the dropdown. |
| EventSearchHook.LaterRequestApplied | frontend/hooks/events/use-event-search.ts:57-91 | The response to the latest request opens the dropdown and ends loading. |
| AuthValidation.ValidateEmail | frontend/lib/validation/auth.ts:4-13 | Blank is "Email is required"; otherwise null exactly when the trimmed text is an address. |
| AuthValidation.EmailHasOneAt | frontend/lib/validation/auth.ts:1-2 | An accepted address has exactly one "@". |
| AuthValidation.BuiltAddressIsAccepted | frontend/lib/validation/auth.ts:1-2 | A valid local part, "@" and two or more valid labels joined by dots are accepted. |
| AuthValidation.ValidatePassword | frontend/lib/validation/auth.ts:15-31 | Required, then at least 8 UTF-16 code units, then letters and digits, in that order; null exactly when all hold of the trimmed text. |
| AuthValidation.AstralCharacterCountsTwice | frontend/lib/validation/auth.ts:22 | Six letters and digits plus one character outside the Basic Multilingual Plane make an accepted password. |
| AuthValidation.ValidatePasswordIgnoresPadding | frontend/lib/validation/auth.ts:15-18 | Surrounding whitespace does not change the verdict. |
| AuthValidation.ValidateConfirmPassword | frontend/lib/validation/auth.ts:33-41 | A blank confirmation is asked for; different strings do not match; otherwise null. |
| AuthValidation.ConfirmComparesUntrimmed | frontend/lib/validation/auth.ts:37 | A confirmation that differs only by padding is rejected. |
| AuthForm.DefaultValidationMessage | frontend/hooks/auth/use-auth-form.ts:28-30 | The field name with its first letter upper-cased, then " is required". |
| AuthForm.ValidateField | frontend/hooks/auth/use-auth-form.ts:58-74 | Blank gives the required message; otherwise the validator's verdict on the trimmed value, or valid without one. |
| AuthForm.ValidateFieldIgnoresPadding | frontend/hooks/auth/use-auth-form.ts:61-69 | The validator sees the trimmed value, so padding does not matter. |
| AuthForm.BlankSkipsValidation | frontend/hooks/auth/use-auth-form.ts:63-65 | A blank value never reaches the validator and always fails. |
| AuthForm.Init | frontend/hooks/auth/use-auth-form.ts:36-49 | Every field starts empty with no error. |
| AuthForm.InitWellFormed | frontend/hooks/auth/use-auth-form.ts:36-47 | The initial form has exactly the configured fields. |
| AuthForm.SetValue | frontend/hooks/auth/use-auth-form.ts:76-83 | Only that field's value changes; its error and the form error clear. |
| AuthForm.HandleBlur | frontend/hooks/auth/use-auth-form.ts:138-141 | Only that field's error is set. |
| AuthForm.RevalidateAll | frontend/hooks/auth/use-auth-form.ts:99-110 | Every field gets its current verdict. |
| AuthForm.HandleSubmit | frontend/hooks/auth/use-auth-form.ts:94-130 | Any failing field throws without running the callback; a rejected callback sets the form error and rethrows; loading ends either way. |
| AuthForm.TransitionsPreserveWellFormed | frontend/hooks/auth/use-auth-form.ts:76-141 | Every transition keeps exactly the configured fields. |
| AuthForm.SubmitAgreesWithBlur | frontend/hooks/auth/use-auth-form.ts:102-108 | The errors shown after submit are those a blur of each field would show. |
| AuthForm.SetThenBlur | frontend/hooks/auth/use-auth-form.ts:76-83 | Typing then leaving a field shows that value's verdict. |
| AuthForm.BlankFieldBlocksSubmit | frontend/hooks/auth/use-auth-form.ts:102-115 | A blank field keeps the callback from running. |
| AuthForm.EmptyMessageDoesNotBlock | frontend/hooks/auth/use-auth-form.ts:105-107 | A validator returning the empty string does not block submission. |
| ReportForm.Validate | frontend/components/report-form.tsx:30-50 | Each field has an error exactly when it breaks its rule, lengths counted in UTF-16 code units, with the stated messages. |
| ReportForm.AstralTitleIsLongEnough | frontend/components/report-form.tsx:31 | A title of one letter and one character outside the Basic Multilingual Plane meets the three-unit minimum. |
| ReportForm.ValidateAcceptsExactly | frontend/components/report-form.tsx:30-50 | No error exactly when the form is acceptable. |
| ReportForm.OtherCategoriesNeedNoSubcategory | frontend/components/report-form.tsx:39-45 | Only crime alerts require a subcategory. |
| ReportForm.ChangeCategory | frontend/components/report-form.tsx:83-91 | The category is set; crime alerts take the first subcategory, other categories clear it; the rest is kept. |
| ReportForm.ChangeCategorySatisfiesRefinement | frontend/components/report-form.tsx:83-91 | After a category change the subcategory rule holds. |
| ReportForm.BuildPayload | frontend/components/report-form.tsx:93-99 | The payload keeps the image and includes the radius only when positive. |
| ReportForm.NonPositiveRadiusDropped | frontend/components/report-form.tsx:97 | A zero or negative radius is left out. |
| SafetyAdvisor.EscapeQuotes | frontend/lib/prompt/safety-advisor.ts:176-178 | The length grows by the number of quotes and every quote of the result is escaped. |
| SafetyAdvisor.EscapeRoundTrip | frontend/lib/prompt/safety-advisor.ts:176-178 | Reading the escaped text back gives the input. |
| SafetyAdvisor.ReplaceFirst | frontend/lib/prompt/safety-advisor.ts:156-163 | Only the first occurrence is replaced, with dollar patterns expanded; no occurrence leaves the text. |
| SafetyAdvisor.ReplaceFirstLiteral | frontend/lib/prompt/safety-advisor.ts:156-163 | Only the first occurrence is replaced, by the value verbatim. |
| SafetyAdvisor.ReplaceAgreesWithoutDollar | frontend/lib/prompt/safety-advisor.ts:156-163 | Without a dollar sign in the value the two replacements agree. |
| SafetyAdvisor.FillInterleaved | frontend/lib/prompt/safety-advisor.ts:156-163 | Filling the slots in order puts each value in its own slot. |
| SafetyAdvisor.SystemPromptFillsSlots | frontend/lib/prompt/safety-advisor.ts:156-163 | The prompt is the template with the context's values in its slots. |
| SafetyAdvisor.AsWrittenFillsSlotsWithoutDollar | frontend/lib/prompt/safety-advisor.ts:156-163 | As written, the same holds when no value has a dollar sign. |
| SafetyAdvisor.DollarValueIsExpanded | frontend/lib/prompt/safety-advisor.ts:156-163 | As written, a value "$&" leaves the placeholder in place. |
| SafetyAdvisor.DollarQueryIsExpanded | frontend/lib/prompt/safety-advisor.ts:157 | As written, the user query "$&" leaves "{user_query}" in the prompt. |
| SafetyAdvisor.ValueCapturesLaterSlot | frontend/lib/prompt/safety-advisor.ts:156-163 | A value containing a later placeholder receives that later value instead of the slot. |
| SafetyAdvisor.TimeframeLabel | frontend/lib/prompt/safety-advisor.ts:151-154 | "Last N months" for a positive number, else the whole history. |
| SafetyAdvisor.TimeframeLabelDistinguishes | frontend/lib/prompt/safety-advisor.ts:151-154 | The label names months exactly when the timeframe is positive. |
| SafetyAdvisor.SlotValues | frontend/lib/prompt/safety-advisor.ts:156-174 | The eight values in slot order: the query with its quotes escaped (and unescaping gives it back), and the stated defaults for missing area, coordinates and filters. |
| SafetyAdvisor.Fixed6 | frontend/lib/prompt/safety-advisor.ts:139-140 | A coordinate rounded to six decimals lies within half a millionth of it. |
| SafetyAdvisor.Fixed6Idempotent | frontend/lib/prompt/safety-advisor.ts:139-140 | Rounding a rounded coordinate changes nothing. |
| SafetyAdvisor.EntryOf | frontend/lib/prompt/safety-advisor.ts:131-145 | An entry copies the event's id, texts, category, address, time, count, radius and flag, and rounds its coordinates to six decimals. |
| SafetyAdvisor.EventDataPayload | frontend/lib/prompt/safety-advisor.ts:130-147 | One entry per event, in input order. |
| SafetyAdvisor.PayloadOfConcat | frontend/lib/prompt/safety-advisor.ts:130-147 | The payload of two lists is the two payloads one after the other. |
| EventTransformer.MapRow | frontend/lib/event-transformer.ts:20-36 | Identity, title, category, time and coordinates copied; nulls become "", 0, true or absent. |
| EventTransformer.MapRowOfStored | frontend/lib/event-transformer.ts:20-36 | Storing an event and mapping it back gives the event. |
| EventTransformer.NullsReadAsDefaults | frontend/lib/event-transformer.ts:20-36 | A null column means the same as its default written out. |
| EventTransformer.MapRows | frontend/lib/event-transformer.ts:20-36 | Each row is mapped, in order. |
| MockApi.EventById | frontend/lib/api.ts:151-154 | The first event with the id, or none when no event has it. |
| MockApi.Verified | frontend/lib/api.ts:175 | One more verification, every other field kept. |
| MockApi.CreateEvent | frontend/lib/api.ts:156-169 | Exactly one event is appended, copying the input, unverified and active. |
| MockApi.VerifyEvent | frontend/lib/api.ts:171-177 | The first event with the id gains one verification; an unknown id changes nothing. |
| MockApi.CreatedEventIsFound | frontend/lib/api.ts:151-169 | A created event with a fresh id is found by it. |
| MockApi.VerifyThenLookup | frontend/lib/api.ts:171-177 | After a verification the lookup shows one more, and other ids are unaffected. |
| AiChatRoute.UsedTimeframe | frontend/app/api/ai-chat/route.ts:33-36 | A JSON number above zero is used; anything else is null. |
| AiChatRoute.Validate | frontend/app/api/ai-chat/route.ts:22-43 | Missing key 500, unreadable body 500, missing members 400 "Invalid request payload", then a bad timeframe 400 "Invalid timeframe"; a passing request's plan carries its request type, query, messages, area and coordinates and the used timeframe. |
| AiChatRoute.TruncToZero | frontend/app/api/ai-chat/route.ts:54 | The month argument is truncated toward zero. |
| AiChatRoute.SinceMonth | frontend/app/api/ai-chat/route.ts:53-55 | The month `setMonth(getMonth() - t)` lands on, present only for a finite timeframe and inside the months a `Date` can hold; a whole number of months back is the clock's month minus it. |
| AiChatRoute.QueryFor | frontend/app/api/ai-chat/route.ts:52-60 | A lower bound only for a timeframe, "%area%" only for an area, at most 1000 rows. |
| AiChatRoute.Render | frontend/app/api/ai-chat/route.ts:80-82 | A turn is rendered as "User:" or "Assistant:", a line break and the content. |
| AiChatRoute.RenderRoundTrip | frontend/app/api/ai-chat/route.ts:80-82 | A rendered turn reads back as its content and whether it is the user's. |
| AiChatRoute.Conversation | frontend/app/api/ai-chat/route.ts:80-82 | Empty exactly for no turns. |
| AiChatRoute.ConversationAppend | frontend/app/api/ai-chat/route.ts:80-82 | One more turn adds a blank line and the rendered turn. |
| AiChatRoute.Prompt | frontend/app/api/ai-chat/route.ts:84-89 | The prompt starts with the system prompt and ends with the assistant's cue. |
| AiChatRoute.ModelPrompt | frontend/app/api/ai-chat/route.ts:69-89 | The prompt sent to the model opens with the advisor prompt, as the replace chain builds it, over the loaded events. |
| AiChatRoute.Relay | frontend/app/api/ai-chat/route.ts:102-113 | An exception is "Unexpected error", no text or blank text is "AI did not return a response", otherwise the trimmed text. |
| AiChatRoute.Handle | frontend/app/api/ai-chat/route.ts:20-114 | Validation errors come first; a lower bound a `Date` cannot hold is the catch-all 500 "Unexpected error"; a failed load is 500; otherwise the reply relays the model's answer to the prompt built by the advisor's replace chain as written. |
| AiChatRoute.AnswerIsModelText | frontend/app/api/ai-chat/route.ts:102-110 | An answer is sent exactly when the model returns non-blank text, and it is that text trimmed. |
| AiChatRoute.MissingKeyComesFirst | frontend/app/api/ai-chat/route.ts:22-25 | Without a key the reply is 500 whatever the body, database and model do. |
| AiChatRoute.TextTimeframeIsIgnored | frontend/app/api/ai-chat/route.ts:33-43 | A timeframe sent as text passes the check but is not used. |
| AiChatRoute.InfiniteTimeframeIsUnexpected | frontend/app/api/ai-chat/route.ts:52-55 | A timeframe of `Infinity` passes validation and then gets 500 "Unexpected error" whatever the clock, database and model. |
| AiChatRoute.HugeTimeframeIsUnexpected | frontend/app/api/ai-chat/route.ts:53-55 | Five million months back leave the `Date` range for any clock before year 100000. |
| AiChatRoute.ModerateTimeframeIsInRange | frontend/app/api/ai-chat/route.ts:53-55 | Up to 12000 months back from a clock within 100000 years of year 0 stays in range, at most 12000 months before the clock. |
| SafetyChat.Turns | frontend/components/ai/safety-chat.tsx:106-109 | Role and content of each message, in order. |
| SafetyChat.Submit | frontend/components/ai/safety-chat.tsx:64-93 | Blank input or a running submission does nothing; otherwise the user message and a placeholder are appended, and the request carries the fixed request type, a null timeframe, the trimmed query, the user's location and the history plus the message. |
| SafetyChat.Finish | frontend/components/ai/safety-chat.tsx:124-137 | Only the messages with the id change, to the content and not streaming. |
| SafetyChat.FinishOnlyPlaceholder | frontend/components/ai/safety-chat.tsx:124-137 | Finishing the placeholder after the user message changes nothing before it. |
| SafetyChat.FailureMessage | frontend/components/ai/safety-chat.tsx:113-122 | No failure exactly for an OK response with a non-empty message; otherwise the body's error or "Failed to fetch AI response", "AI response was empty", or the thrown message or "Something went wrong". |
| SafetyChat.Settle | frontend/components/ai/safety-chat.tsx:113-154 | The placeholder becomes the answer, or the apology with the error set; the submission ends. |
| SafetyChat.ExchangeReplacesOnlyPlaceholder | frontend/components/ai/safety-chat.tsx:64-154 | A whole exchange leaves earlier messages untouched and ends with the user message and the answer or apology. |
| SafetyChat.SubmittedRequestIsAccepted | frontend/components/ai/safety-chat.tsx:96-110 | The chat route's checks accept every request the panel sends, and plan the trimmed query and the location with no timeframe. |
| SafetyChat.NoSubmitWhileSubmitting | frontend/components/ai/safety-chat.tsx:67-70 | A second submit while one runs changes nothing. |
| ReportPage.BlockedNotice | frontend/app/report/page.tsx:88-111 | Sign-in, then status check, then ban, then profile error; nothing when open. |
| ReportPage.NoticeIffBlocked | frontend/app/report/page.tsx:81-111 | A notice is shown exactly when reporting is blocked, and the dateless ban notice never. |
| ReportPage.StartLoad | frontend/app/report/page.tsx:28-42 | Without a session everything clears; otherwise loading starts and the error clears. |
| ReportPage.FinishLoad | frontend/app/report/page.tsx:54-62 | A failure sets the error and clears the ban; a row gives its ban; loading ends. |
| ReportPage.FailedLoadStillBlocks | frontend/app/report/page.tsx:54-57 | A failed load keeps the user blocked with the error as the notice. |
| ReportPage.LoadingBlocks | frontend/app/report/page.tsx:81-96 | While loading, the user is blocked with the status check as the notice. |
| ReportPage.Submit | frontend/app/report/page.tsx:113-127 | Nothing without a location or while blocked; otherwise the form's data with only the location and the radius changed, the radius kept only when positive. |
| AccountPage.LoadMetrics | frontend/app/account/page.tsx:43-79 | No session, an error or no row give zeros; a row gives its values with nulls as 0. |
| AccountPage.NullRowIsInitial | frontend/app/account/page.tsx:67-73 | A row of nulls reads as no row. |
| AccountPage.Status | frontend/app/account/page.tsx:88-104 | No expiry is inactive, an unparseable or past one expired, a later one active. |
| AccountPage.PremiumRuleMatchesBanRule | frontend/app/account/page.tsx:88-104 | Premium is active by the same rule the report page uses for a ban. |
| AccountPage.FailedLoadIsInactive | frontend/app/account/page.tsx:44-49 | Any failed load shows premium as inactive. |
| AuthGate.AuthRouteExamples | frontend/components/auth/auth-gate.tsx:21-26 | "/auth" and paths below it are auth routes; "/authx", "/" and a missing path are not. |
| AuthGate.NextTarget | frontend/components/auth/auth-gate.tsx:35 | The path, with "?" and the query only when there is one. |
| AuthGate.Gate | frontend/components/auth/auth-gate.tsx:28-66 | Auth routes show the page; loading shows a spinner; a signed-out visitor is redirected to sign-in with the return target. |
| AuthGate.RedirectLandsOnAuthRoute | frontend/components/auth/auth-gate.tsx:33-42 | The redirect target is an auth route, where the gate redirects no further. |
| AppHeader.DisplayName | frontend/components/app-header.tsx:40-44 | The first non-blank of full name, name, e-mail, then "Your account". |
| AppHeader.Initials | frontend/components/app-header.tsx:46-52 | The upper-cased first letters of the first two words, or "SS". |
| AppHeader.InitialsOfTwoWords | frontend/components/app-header.tsx:46-52 | Two words give their two initials. |
| AppHeader.BlankNameHasDefaultInitials | frontend/components/app-header.tsx:46-52 | A name of spaces gives "SS". |
| AppHeader.BeginSignOut | frontend/components/app-header.tsx:54-59 | A running sign-out ignores the click; otherwise one starts. |
| AppHeader.FinishSignOut | frontend/components/app-header.tsx:61-73 | Success closes the drawer and goes to sign-in; failure shows the error; the flag is released. |
| AppHeader.SignOutIsNotReentrant | frontend/components/app-header.tsx:54-74 | A second click starts nothing, and success lands where the header is hidden. |
| AuthLayout.Layout | frontend/app/auth/layout.tsx:16-39 | Loading shows a spinner; a signed-in user off the reset page is sent home; otherwise the page. |
| AuthLayout.SignedInLandsHome | frontend/app/auth/layout.tsx:18-22 | The home page is not an auth route, so the gate shows it without redirect. |
| AuthLayout.SignedOutLandsOnSignIn | frontend/app/auth/layout.tsx:35-39 | The gate's sign-in target is shown by this layout with no further redirect. |
| PasswordVisibility.Toggle | frontend/hooks/auth/use-password-visibility.ts:6-8 | Toggling flips the flag. |
| PasswordVisibility.Show | frontend/hooks/auth/use-password-visibility.ts:10-12 | Showing makes it visible. |
| PasswordVisibility.Hide | frontend/hooks/auth/use-password-visibility.ts:14-16 | Hiding makes it hidden. |
| PasswordVisibility.VisibilityLaws | frontend/hooks/auth/use-password-visibility.ts:4-16 | Two toggles restore the flag, show and hide are idempotent, and a toggle from the start shows. |

## Left out

- The haversine distance: trigonometry on floating point; clustering takes the distance as a parameter `dist`.
- Floating point: coordinates, centres and radii are `real`; `Number(x.toFixed(6))` is modelled as rounding to six decimals.
- The Supabase client, realtime channels, subscribe and unsubscribe plumbing and timers: tables are in-memory maps and lists, and each database call's failure is an input.
- The moderation service's event write and profile write are two steps that are not atomic; they are modelled one after the other.
- The Gemini calls: the language model is an input that returns text, no text, or throws.
- JSON parsing and the zod schema check of the model's answer: a parameter from text to parsed filters; the zod error wording is not modelled.
- Text formatting of numbers and dates (`toFixed` text, `JSON.stringify`, `toLocaleString`, `formatDistanceToNow`, `encodeURIComponent`): parameters.
- `setMonth` month arithmetic for the chat route's lower bound: the query carries the number of months; the clock is a parameter given to the month.
- AiChatRoute.Handle: the `Date` range is tracked to the month, so a lower bound in April of year -271821 (valid from the 20th) or September of year 275760 (valid to the 13th) counts as representable whatever its day; `getMonth() - t` is taken exactly, not rounded to a double.
- The wall clock and date parsing: `now` in milliseconds and a parse function are parameters; timestamps are `Option<int>`, with none for unparseable text.
- EventFilter.SortEventsByRecency: requires every event's time to parse; with an unparseable time the comparator returns `NaN` and the order is implementation-defined.
- EventsStore.SortNewestFirst: requires every event's time to parse, for the same reason.
- EventsStore.UpsertEvent: requires the stored events and the new one to have parseable times, because it sorts with the same comparator.
- The safety advisor's template prose: a parameter holding the text between the eight placeholders.
- UI rendering, focus handling, scrolling, toasts and the mock API's simulated delays.
- Message creation times in the safety chat panel and the intermediate loading flags of the account page.
- `getAllEvents` of the mock API: it returns the store itself, so the store is the model.
- The report form's crime-alert subcategory list lives in a constants file that is not part of this model; it is the parameter `subs`, a non-empty list.
- AuthForm.DefaultValidationMessage: requires a non-empty field name, because `fieldName[0]` of an empty name is `undefined` and the application's `.toUpperCase()` call on it would throw.
- AuthForm.ValidateField: requires a non-empty field name, because field names are the form configuration's keys and are never empty.
- EventChat.SortedMessages: message times are taken to parse; `createdAt` is an integer.
- Text.UpperChar: upper-cases ASCII letters only; other scripts' case mapping is not modelled.
- AppHeader.Initials: a word that starts with a character outside the Basic Multilingual Plane gives that whole character, where `part[0]` gives its lone high surrogate, which a Dafny `char` cannot hold.
- Geospatial.DerivePickpocketClusters: cluster members are report positions, while `new Set<Event>` deduplicates event objects by identity, so one event object listed twice counts twice here and once in the application; the promise that every dense report lies in a cluster is made only when report ids are distinct, because `visited` is keyed by id.
- AuthGate.Gate: the spinner shown to a signed-out visitor whose path is missing (no redirect) is modelled, but the router's behaviour afterwards is not.

## Findings

| source | as written | input that shows it | evidently intended | confidence | as-written member | corrected member |
|---|---|---|---|---|---|---|
| frontend/hooks/events/use-event-search.ts:43-51 | Blank-query reset and `clear` (116-125) do not advance the request id checked at 75-77 | Type "abc", let the debounce fire, then clear or erase the query before the response arrives: the response reopens the dropdown with the old results | A reset retires the outstanding request so its response is ignored | not executed | EventSearchHook.StaleResponseAfterClear | EventSearchHook.ClearedStaysClosed |
| frontend/lib/prompt/safety-advisor.ts:156-163 | Each placeholder is filled by `String.prototype.replace` with a string value, which expands `$&`, `$$`, `` $` `` and `$'` in the value | A user query "$&" leaves "{user_query}" in the prompt instead of the query | Values are inserted verbatim | not executed | SafetyAdvisor.DollarQueryIsExpanded | SafetyAdvisor.SystemPromptFillsSlots |

The corrected search hook is `EventSearchHook.SetQuery` and `EventSearchHook.Clear`, with `EventSearchHook.EarlierRequestsIgnored`; the as-written one is `EventSearchHook.SetQueryAsWritten` and `EventSearchHook.ClearAsWritten`, with `EventSearchHook.StaleResponseAfterErase` for the erased query.  The corrected prompt is `SafetyAdvisor.SystemPrompt` over `SafetyAdvisor.ReplaceFirstLiteral`; the as-written chain is `SafetyAdvisor.SystemPromptAsWritten` over `SafetyAdvisor.ReplaceFirst`.  The chat route's handler builds its prompt with the as-written chain (`AiChatRoute.ModelPrompt`), as the route does; `SafetyAdvisor.AsWrittenFillsSlotsWithoutDollar` shows that it agrees with the corrected prompt when no value holds a dollar sign.

Other behaviour the model makes visible, kept as the application has it:

- The report page's dateless ban notice can never be shown, because an active ban always has a parseable date (`ReportPage.NoticeIffBlocked`).
- A timeframe sent to the chat route as text passes validation but is not used (`AiChatRoute.TextTimeframeIsIgnored`).
- A value filled into the advisor's prompt that contains a later placeholder receives that later value (`SafetyAdvisor.ValueCapturesLaterSlot`).
- The confirm-password check compares the untrimmed texts while the password check trims (`AuthValidation.ConfirmComparesUntrimmed`).
- A field validator returning the empty string does not block submission (`AuthForm.EmptyMessageDoesNotBlock`).
- Pending keys are ambiguous when an e-mail or a message contains a bar: two different senders or contents can share a queue (`EventChat.PendingKeyAmbiguous`).

=== FILE: account_page.dfy ===
/** The account page's reporter metrics: the profile row read with its
    null columns defaulted, and the premium status derived from the
    premium expiry.  The clock and date parsing are parameters. */
module AccountPage {

  import opened Wrappers
  import ReportPage

  datatype Metrics = Metrics(score: int, level: int, valid: int, invalid: int, premiumUntil: Option<string>)

  const InitialMetrics := Metrics(0, 0, 0, 0, None)

  /** The profile columns the page selects; each may be null. */
  datatype ProfileRow = ProfileRow(
    reportScore: Option<int>,
    reportLevel: Option<int>,
    totalValid: Option<int>,
    totalInvalid: Option<int>,
    premiumUntil: Option<string>)

  /** How loading ends: no session, a failed query, no row, or a row. */
  datatype MetricsLoad = NoSession | Failed | Missing | Row(row: ProfileRow)

  /** The metrics shown: zeros without a row, otherwise the row's values
      with nulls read as 0 (premium stays null). */
  function LoadMetrics(o: MetricsLoad): (r: Metrics)
    ensures !o.Row? ==> r == InitialMetrics
    ensures o.Row? ==> r.premiumUntil == o.row.premiumUntil
    ensures o.Row? ==> r.score == (if o.row.reportScore.Some? then o.row.reportScore.value else 0)
    ensures o.Row? ==> r.level == (if o.row.reportLevel.Some? then o.row.reportLevel.value else 0)
    ensures o.Row? ==> r.valid == (if o.row.totalValid.Some? then o.row.totalValid.value else 0)
    ensures o.Row? ==> r.invalid == (if o.row.totalInvalid.Some? then o.row.totalInvalid.value else 0)
  {
    match o
    case Row(row) =>
      Metrics(row.reportScore.GetOr(0), row.reportLevel.GetOr(0), row.totalValid.GetOr(0),
              row.totalInvalid.GetOr(0), row.premiumUntil)
    case _ => InitialMetrics
  }

  /** A row of nulls reads the same as no row at all. */
  lemma NullRowIsInitial()
    ensures LoadMetrics(Row(ProfileRow(None, None, None, None, None))) == LoadMetrics(Missing)
  {
  }

  datatype PremiumStatus = Inactive | Expired | Active(until: int)

  const InactiveLabel := "Inactive"
  const ExpiredLabel := "Expired"
  const ActiveLabel := "Active"

  function Label(s: PremiumStatus): string {
    match s
    case Inactive => InactiveLabel
    case Expired => ExpiredLabel
    case Active(_) => ActiveLabel
  }

  predicate IsActive(s: PremiumStatus) {
    s.Active?
  }

  /** `premiumStatus`: inactive without an expiry, expired when it does
      not parse or is not after now, otherwise active until then. */
  function Status(premiumUntil: Option<string>, parse: string -> Option<int>, now: int): (r: PremiumStatus)
    ensures r.Inactive? <==> !ReportPage.Present(premiumUntil)
    ensures r.Active? ==> parse(premiumUntil.value) == Some(r.until) && r.until > now
    ensures r.Expired? <==>
              ReportPage.Present(premiumUntil)
              && (parse(premiumUntil.value).None? || parse(premiumUntil.value).value <= now)
  {
    if !ReportPage.Present(premiumUntil) then Inactive
    else
      match parse(premiumUntil.value)
      case None => Expired
      case Some(t) => if t <= now then Expired else Active(t)
  }

  /** Premium is active by the same rule the report page applies to a ban:
      a stored time that parses to a moment after now. */
  lemma PremiumRuleMatchesBanRule(premiumUntil: Option<string>, parse: string -> Option<int>, now: int)
    ensures IsActive(Status(premiumUntil, parse, now)) <==> ReportPage.BanActive(premiumUntil, parse, now)
  {
  }

  /** Whatever goes wrong while loading, the status shown is inactive. */
  lemma FailedLoadIsInactive(o: MetricsLoad, parse: string -> Option<int>, now: int)
    requires !o.Row?
    ensures Status(LoadMetrics(o).premiumUntil, parse, now) == Inactive
    ensures Label(Status(LoadMetrics(o).premiumUntil, parse, now)) == InactiveLabel
  {
  }
}

=== FILE: ai_chat_route.dfy ===
/** The safety-advisor chat endpoint: it checks its credentials and the
    request body, selects the events to ground the answer on, renders the
    conversation after the system prompt and relays the model's reply.
    The environment's API key, the parsed JSON body, the database and the
    language model are inputs: the database as a function from the query
    to its rows (or a failure), the model as a function from the prompt to
    its outcome. */
module AiChatRoute {

  import opened Wrappers
  import opened Text
  import opened JsNumbers
  import opened Domain
  import EventTransformer
  import SafetyAdvisor

  const MaxEvents: nat := 1000

  const MissingCredentials := "Missing Google AI Studio credentials"
  const InvalidPayload := "Invalid request payload"
  const InvalidTimeframe := "Invalid timeframe"
  const LoadFailed := "Failed to load events"
  const NoResponse := "AI did not return a response"
  const Unexpected := "Unexpected error"

  datatype ChatMessage = ChatMessage(role: string, content: string)

  /** The `timeframeMonths` member of the body: absent, `null`, a JSON
      number, or some other JSON value together with what `Number(...)`
      makes of it. */
  datatype Field = Absent | Null | Number(n: JsNumber) | NonNumber(asNumber: JsNumber)

  datatype Body = Body(
    userQuery: Option<string>,
    messages: Option<seq<ChatMessage>>,
    requestType: Option<string>,
    timeframeMonths: Field,
    areaName: Option<string>,
    coordinates: Option<Location>)

  /** The environment's key, and the body when it parsed as JSON. */
  datatype Request = Request(apiKey: Option<string>, body: Option<Body>)

  datatype Reply = ErrorReply(status: nat, error: string) | Answer(message: string)

  /** What the language model does with a prompt: returns text, returns
      no text, or throws. */
  datatype Generation = Text(text: string) | NoText | Threw

  /** The events query: newest first, at most `MaxEvents` rows, with a
      lower bound `since` months back and an address pattern when set. */
  datatype EventsQuery = EventsQuery(since: Option<JsNumber>, addressPattern: Option<string>, limit: nat)

  /** A validated request. */
  datatype Plan = Plan(
    requestType: string,
    userQuery: string,
    messages: seq<ChatMessage>,
    timeframeMonths: Option<JsNumber>,
    areaName: Option<string>,
    coordinates: Option<Location>)

  predicate Truthy(s: Option<string>) {
    s.Some? && s.value != ""
  }

  /** The timeframe the handler uses: a JSON number above zero, else null. */
  function UsedTimeframe(f: Field): (r: Option<JsNumber>)
    ensures r.Some? <==> f.Number? && Positive(f.n)
    ensures r.Some? ==> r.value == f.n
  {
    if f.Number? && Positive(f.n) then Some(f.n) else None
  }

  /** The timeframe check: a present value must convert to a number above
      zero. */
  predicate TimeframeRejected(f: Field) {
    match f
    case Absent => false
    case Null => false
    case Number(n) => !Positive(n)
    case NonNumber(n) => !Positive(n)
  }

  /** The checks before any query: credentials, then a readable body, then
      the required members, then the timeframe. */
  function Validate(req: Request): (r: Result<Plan, Reply>)
    ensures !Truthy(req.apiKey) ==> r == Failure(ErrorReply(500, MissingCredentials))
    ensures Truthy(req.apiKey) && req.body.None? ==> r == Failure(ErrorReply(500, Unexpected))
    ensures r.Failure? ==> r.error.ErrorReply?
    ensures r.Failure? && r.error.ErrorReply? && r.error.status == 400 <==>
              Truthy(req.apiKey) && req.body.Some?
              && (!Truthy(req.body.value.userQuery) || req.body.value.messages.None?
                  || !Truthy(req.body.value.requestType) || TimeframeRejected(req.body.value.timeframeMonths))
    // a missing member is reported before a bad timeframe
    ensures Truthy(req.apiKey) && req.body.Some?
            && (!Truthy(req.body.value.userQuery) || req.body.value.messages.None? || !Truthy(req.body.value.requestType))
            ==> r == Failure(ErrorReply(400, InvalidPayload))
    ensures Truthy(req.apiKey) && req.body.Some?
            && Truthy(req.body.value.userQuery) && req.body.value.messages.Some? && Truthy(req.body.value.requestType)
            && TimeframeRejected(req.body.value.timeframeMonths)
            ==> r == Failure(ErrorReply(400, InvalidTimeframe))
    ensures r.Success? ==> r.value.timeframeMonths == UsedTimeframe(req.body.value.timeframeMonths)
    ensures r.Success? ==> r.value.areaName == req.body.value.areaName
    // the plan carries the request's own members
    ensures r.Success? ==>
              && r.value.requestType == req.body.value.requestType.value
              && r.value.userQuery == req.body.value.userQuery.value
              && r.value.messages == req.body.value.messages.value
              && r.value.coordinates == req.body.value.coordinates
  {
    if !Truthy(req.apiKey) then Failure(ErrorReply(500, MissingCredentials))
    else if req.body.None? then Failure(ErrorReply(500, Unexpected))
    else
      var b := req.body.value;
      if !Truthy(b.userQuery) || b.messages.None? || !Truthy(b.requestType) then
        Failure(ErrorReply(400, InvalidPayload))
      else if TimeframeRejected(b.timeframeMonths) then
        Failure(ErrorReply(400, InvalidTimeframe))
      else
        Success(Plan(b.requestType.value, b.userQuery.value, b.messages.value,
                     UsedTimeframe(b.timeframeMonths), b.areaName, b.coordinates))
  }

  /** The events query of a plan: a lower bound only for a timeframe, an
      address pattern `%area%` only for a non-empty area name. */
  function QueryFor(p: Plan): (q: EventsQuery)
    ensures q.limit == MaxEvents
    ensures q.since == p.timeframeMonths
    ensures q.addressPattern.Some? <==> Truthy(p.areaName)
    ensures q.addressPattern.Some? ==>
              |q.addressPattern.value| >= 2
              && StartsWith(q.addressPattern.value, "%") && EndsWith(q.addressPattern.value, "%")
              && q.addressPattern.value[1..|q.addressPattern.value| - 1] == p.areaName.value
  {
    var pattern := if Truthy(p.areaName) then Some("%" + p.areaName.value + "%") else None;
    EventsQuery(p.timeframeMonths, pattern, MaxEvents)
  }

  /** The handler's clock, to the month: the local year and month (0 for
      January) of `new Date()`. */
  datatype Clock = Clock(year: int, month: int)

  /** The first and last months a `Date` can hold: its time values stop
      8.64e15 ms either side of 1970, in April of year -271821 and in
      September of year 275760. */
  const EarliestMonth: int := -271821 * 12 + 3
  const LatestMonth: int := 275760 * 12 + 8

  /** `x` truncated toward zero, as ECMAScript's ToIntegerOrInfinity does
      with a finite number. */
  function TruncToZero(x: real): (n: int)
    ensures x >= 0.0 ==> n as real <= x < n as real + 1.0
    ensures x < 0.0 ==> n as real - 1.0 < x <= n as real
  {
    if x >= 0.0 then x.Floor else -((-x).Floor)
  }

  /** `sinceDate.setMonth(sinceDate.getMonth() - t)` as a month count from
      year 0, or None when the date leaves the range a `Date` can hold, so
      that `toISOString` throws a RangeError.  An infinite or NaN month
      always does. */
  function SinceMonth(t: JsNumber, now: Clock): (r: Option<int>)
    ensures r.Some? ==> t.Finite? && EarliestMonth <= r.value <= LatestMonth
    ensures t.Finite? && t.value == t.value.Floor as real && 0 <= now.month && t.value <= now.month as real ==>
              r == (var m := now.year * 12 + now.month - t.value.Floor;
                    if EarliestMonth <= m <= LatestMonth then Some(m) else None)
  {
    match t
    case Finite(x) =>
      var m := now.year * 12 + TruncToZero(now.month as real - x);
      if EarliestMonth <= m <= LatestMonth then Some(m) else None
    case _ => None
  }

  /** Whether computing the query's lower bound throws. */
  predicate DateOverflows(p: Plan, now: Clock) {
    p.timeframeMonths.Some? && SinceMonth(p.timeframeMonths.value, now).None?
  }

  /** One turn of the conversation: `User:` for the user's turns and
      `Assistant:` for every other role, a line break, the content. */
  function Render(m: ChatMessage): (r: string)
    ensures |r| > 2
  {
    (if m.role == "user" then "User" else "Assistant") + ":\n" + m.content
  }

  /** Reading a rendered turn back: its role and its content. */
  function ParseTurn(r: string): (m: ChatMessage) {
    if StartsWith(r, "User:\n") then ChatMessage("user", r[6..])
    else if StartsWith(r, "Assistant:\n") then ChatMessage("assistant", r[11..])
    else ChatMessage("", r)
  }

  function NormalRole(role: string): string {
    if role == "user" then "user" else "assistant"
  }

  /** A rendered turn keeps its content and whether it is the user's. */
  lemma RenderRoundTrip(m: ChatMessage)
    ensures ParseTurn(Render(m)) == ChatMessage(NormalRole(m.role), m.content)
  {
    var r := Render(m);
    if m.role == "user" {
      assert r == "User:\n" + m.content;
      assert r[..6] == "User:\n" && r[6..] == m.content;
    } else {
      assert r == "Assistant:\n" + m.content;
      assert r[..11] == "Assistant:\n" && r[11..] == m.content;
      assert r[0] == 'A';
      assert !StartsWith(r, "User:\n");
    }
  }

  /** The turns joined by blank lines. */
  function Conversation(ms: seq<ChatMessage>): (r: string)
    ensures |ms| == 0 <==> r == ""
  {
    if |ms| == 0 then ""
    else if |ms| == 1 then Render(ms[0])
    else Render(ms[0]) + "\n\n" + Conversation(ms[1..])
  }

  /** One more turn adds a blank line and the rendered turn at the end. */
  lemma {:induction false} ConversationAppend(ms: seq<ChatMessage>, m: ChatMessage)
    requires |ms| > 0
    ensures Conversation(ms + [m]) == Conversation(ms) + "\n\n" + Render(m)
  {
    var s := ms + [m];
    assert s[0] == ms[0];
    var sep := "\n\n";
    if |ms| == 1 {
      assert s[1..] == [m];
      assert Conversation(s) == Render(ms[0]) + sep + Conversation([m]);
    } else {
      assert s[1..] == ms[1..] + [m];
      ConversationAppend(ms[1..], m);
      var tail := Conversation(ms[1..]);
      assert Conversation(s) == Render(ms[0]) + sep + (tail + sep + Render(m));
      assert Conversation(ms) == Render(ms[0]) + sep + tail;
    }
  }

  /** The full prompt: the system prompt, the conversation heading, the
      conversation and the cue for the assistant's turn. */
  function Prompt(system: string, ms: seq<ChatMessage>): (r: string)
    ensures StartsWith(r, system) && EndsWith(r, "\n\nAssistant:")
  {
    var r := system + "\n\n--- CONVERSATION ---\n" + Conversation(ms) + "\n\nAssistant:";
    assert r[..|system|] == system;
    r
  }

  /** What the model is asked for a validated request and the rows loaded
      for it: the system prompt, filled by the `.replace` chain as written,
      followed by the conversation. */
  function ModelPrompt(p: Plan, rows: seq<EventTransformer.EventRow>, prose: seq<string>,
                       fmt: SafetyAdvisor.Formatters): (r: string)
    requires |prose| == SafetyAdvisor.SlotCount + 1
    ensures StartsWith(r, SafetyAdvisor.SystemPromptAsWritten(prose, SafetyAdvisor.Context(p.requestType, p.userQuery,
              p.areaName, p.coordinates, p.timeframeMonths, None, EventTransformer.MapRows(rows)), fmt))
  {
    var events := EventTransformer.MapRows(rows);
    var context := SafetyAdvisor.Context(p.requestType, p.userQuery, p.areaName, p.coordinates,
                                         p.timeframeMonths, None, events);
    Prompt(SafetyAdvisor.SystemPromptAsWritten(prose, context, fmt), p.messages)
  }

  /** The model's outcome as a reply: an exception is an unexpected error,
      no text or blank text is a missing response, and any other text is
      the answer without its surrounding whitespace. */
  function Relay(g: Generation): (r: Reply)
    ensures g.Threw? ==> r == ErrorReply(500, Unexpected)
    ensures g.NoText? || (g.Text? && IsBlank(g.text)) ==> r == ErrorReply(500, NoResponse)
    ensures g.Text? && !IsBlank(g.text) ==> r == Answer(Trim(g.text))
    ensures r.Answer? ==> r.message != "" && IsTrimmed(r.message)
  {
    match g
    case Threw => ErrorReply(500, Unexpected)
    case NoText => ErrorReply(500, NoResponse)
    case Text(t) => if Trim(t) == "" then ErrorReply(500, NoResponse) else Answer(Trim(t))
  }

  /** The handler.  `prose` is the system prompt template's text between
      its placeholders.  A failed check answers with its error, a lower
      bound a `Date` cannot hold with the catch-all 500, a failed load with
      a 500, and otherwise the model's outcome for the prompt is relayed. */
  function Handle(req: Request, now: Clock, load: EventsQuery -> Option<seq<EventTransformer.EventRow>>,
                  generate: string -> Generation, prose: seq<string>,
                  fmt: SafetyAdvisor.Formatters): (r: Reply)
    requires |prose| == SafetyAdvisor.SlotCount + 1
    ensures Validate(req).Failure? ==> r == Validate(req).error
    ensures Validate(req).Success? && DateOverflows(Validate(req).value, now) ==> r == ErrorReply(500, Unexpected)
    ensures Validate(req).Success? && !DateOverflows(Validate(req).value, now)
            && load(QueryFor(Validate(req).value)).None?
            ==> r == ErrorReply(500, LoadFailed)
    ensures Validate(req).Success? && !DateOverflows(Validate(req).value, now)
            && load(QueryFor(Validate(req).value)).Some?
            ==> r == Relay(generate(ModelPrompt(Validate(req).value, load(QueryFor(Validate(req).value)).value, prose, fmt)))
    ensures r.Answer? ==> r.message != "" && IsTrimmed(r.message)
  {
    if Validate(req).Failure? then Validate(req).error
    else
      var p := Validate(req).value;
      if DateOverflows(p, now) then ErrorReply(500, Unexpected)
      else if load(QueryFor(p)).None? then ErrorReply(500, LoadFailed)
      else Relay(generate(ModelPrompt(p, load(QueryFor(p)).value, prose, fmt)))
  }

  /** The route's answer is the model's text: a reply is an answer exactly
      when the model returned text that is not blank, and the answer is
      that text without its surrounding whitespace, so trimming it again
      changes nothing. */
  lemma AnswerIsModelText(g: Generation)
    ensures Relay(g).Answer? <==> g.Text? && !IsBlank(g.text)
    ensures Relay(g).Answer? ==> Relay(g).message == Trim(g.text) && Trim(Relay(g).message) == Relay(g).message
  {
    if g.Text? {
      TrimIdempotent(g.text);
    }
  }

  /** Without credentials nothing else is looked at: the reply is the same
      whatever the body, the database and the model do. */
  lemma MissingKeyComesFirst(req: Request, now: Clock, load: EventsQuery -> Option<seq<EventTransformer.EventRow>>,
                             generate: string -> Generation, prose: seq<string>,
                             fmt: SafetyAdvisor.Formatters)
    requires |prose| == SafetyAdvisor.SlotCount + 1
    requires !Truthy(req.apiKey)
    ensures Handle(req, now, load, generate, prose, fmt) == ErrorReply(500, MissingCredentials)
    ensures Handle(req, now, load, generate, prose, fmt) == Handle(Request(None, None), now, load, generate, prose, fmt)
  {
  }

  /** A timeframe sent as something other than a JSON number passes the
      check when it converts to a positive number, but is not used: the
      query has no lower bound. */
  lemma TextTimeframeIsIgnored(b: Body, key: string)
    requires key != "" && Truthy(b.userQuery) && b.messages.Some? && Truthy(b.requestType)
    requires b.timeframeMonths == NonNumber(Finite(3.0))
    ensures Validate(Request(Some(key), Some(b))).Success?
    ensures QueryFor(Validate(Request(Some(key), Some(b))).value).since.None?
  {
  }

  /** A timeframe of `Infinity` (a JSON `1e400`) passes the checks but
      throws when the lower bound is computed: the reply is the catch-all
      500 whatever the clock, the database and the model do. */
  lemma InfiniteTimeframeIsUnexpected(b: Body, key: string, now: Clock,
                                      load: EventsQuery -> Option<seq<EventTransformer.EventRow>>,
                                      generate: string -> Generation, prose: seq<string>,
                                      fmt: SafetyAdvisor.Formatters)
    requires |prose| == SafetyAdvisor.SlotCount + 1
    requires key != "" && Truthy(b.userQuery) && b.messages.Some? && Truthy(b.requestType)
    requires b.timeframeMonths == Number(Infinity(true))
    ensures Validate(Request(Some(key), Some(b))).Success?
    ensures Handle(Request(Some(key), Some(b)), now, load, generate, prose, fmt) == ErrorReply(500, Unexpected)
  {
    var req := Request(Some(key), Some(b));
    assert Validate(req).Success?;
    assert DateOverflows(Validate(req).value, now);
  }

  /** Five million months reach further back than any `Date` from a clock
      before year 100000. */
  lemma HugeTimeframeIsUnexpected(now: Clock)
    requires 0 <= now.month < 12 && now.year <= 100000
    ensures SinceMonth(Finite(5000000.0), now).None?
  {
  }

  /** Any timeframe of up to a thousand years, read on a clock within
      a hundred thousand years of year 0, gives a date a `Date` can hold:
      the query goes out. */
  lemma ModerateTimeframeIsInRange(x: real, now: Clock)
    requires 0.0 < x <= 12000.0
    requires 0 <= now.month < 12 && -100000 <= now.year <= 100000
    ensures SinceMonth(Finite(x), now).Some?
    ensures now.year * 12 + now.month - 12000 <= SinceMonth(Finite(x), now).value <= now.year * 12 + now.month
  {
  }
}

=== FILE: app_header.dfy ===
/** The application header: hidden on the sign-in flow's routes, it shows
    the user's display name and initials and offers a sign-out that cannot
    be started twice. */
module AppHeader {

  import opened Wrappers
  import opened Text
  import Seqs
  import AuthGate

  /** The header renders on every path outside the sign-in flow. */
  predicate Shown(path: Option<string>) {
    !AuthGate.IsAuthRoute(path)
  }

  const DefaultName := "Your account"
  const DefaultInitials := "SS"

  predicate Filled(s: Option<string>) {
    s.Some? && s.value != ""
  }

  /** The first non-empty of the trimmed full name, the trimmed name, the
      email, and "Your account". */
  function DisplayName(fullName: Option<string>, name: Option<string>, email: Option<string>): (r: string)
    ensures r != ""
    ensures fullName.Some? && !IsBlank(fullName.value) ==> r == Trim(fullName.value)
    ensures !(fullName.Some? && !IsBlank(fullName.value)) && name.Some? && !IsBlank(name.value) ==> r == Trim(name.value)
    ensures !(fullName.Some? && !IsBlank(fullName.value)) && !(name.Some? && !IsBlank(name.value)) ==>
              r == (if Filled(email) then email.value else DefaultName)
  {
    if fullName.Some? && !IsBlank(fullName.value) then Trim(fullName.value)
    else if name.Some? && !IsBlank(name.value) then Trim(name.value)
    else if Filled(email) then email.value
    else DefaultName
  }

  predicate NonEmpty(s: string) {
    s != []
  }

  /** The non-empty space-separated words of a name. */
  function Words(name: string): (r: seq<string>)
    ensures forall k :: 0 <= k < |r| ==> r[k] != [] && ' ' !in r[k]
  {
    var parts := Split(name, ' ');
    var r := Seqs.Filter(NonEmpty, parts);
    assert forall k :: 0 <= k < |r| ==> r[k] in parts;
    r
  }

  /** The upper-cased first letters of the first two words, or "SS" when
      the name has no word. */
  function Initials(name: string): (r: string)
    ensures 1 <= |r| <= 2
    ensures |Words(name)| == 0 ==> r == DefaultInitials
    ensures |Words(name)| >= 1 ==> |r| == (if |Words(name)| >= 2 then 2 else 1) && r[0] == UpperChar(Words(name)[0][0])
    ensures |Words(name)| >= 2 ==> r[1] == UpperChar(Words(name)[1][0])
  {
    var w := Words(name);
    if |w| == 0 then DefaultInitials
    else if |w| == 1 then [UpperChar(w[0][0])]
    else [UpperChar(w[0][0]), UpperChar(w[1][0])]
  }

  /** Two words separated by one space give their two initials. */
  lemma InitialsOfTwoWords(first: string, last: string)
    requires first != [] && last != [] && ' ' !in first && ' ' !in last
    ensures Initials(first + " " + last) == [UpperChar(first[0]), UpperChar(last[0])]
  {
    assert Join([first, last], [' ']) == first + " " + last by {
      assert [first, last][1..] == [last];
    }
    SplitJoin([first, last], ' ');
    assert Seqs.Filter(NonEmpty, [first, last]) == [first, last] by {
      assert [first, last][1..] == [last];
      assert [last][1..] == [];
    }
  }

  /** A string of `n` spaces. */
  function Spaces(n: nat): (r: string)
    ensures |r| == n && forall k :: 0 <= k < n ==> r[k] == ' '
  {
    seq(n, _ => ' ')
  }

  /** A name of spaces only has the default initials. */
  lemma BlankNameHasDefaultInitials(n: nat)
    ensures Initials(Spaces(n)) == DefaultInitials
  {
    var parts := Split(Spaces(n), ' ');
    SplitOfSpaces(n);
    assert forall k :: 0 <= k < |parts| ==> !NonEmpty(parts[k]);
    Seqs.FilterNone(NonEmpty, parts);
  }

  /** Every piece of a string of spaces is empty. */
  lemma {:induction false} SplitOfSpaces(n: nat)
    ensures forall k :: 0 <= k < |Split(Spaces(n), ' ')| ==> Split(Spaces(n), ' ')[k] == []
  {
    var s := Spaces(n);
    if n > 0 {
      assert IndexOfChar(s, ' ') == Some(0);
      assert s[1..] == Spaces(n - 1);
      SplitOfSpaces(n - 1);
      assert Split(s, ' ') == [s[..0]] + Split(s[1..], ' ');
    }
  }

  /** The sign-out flag and the drawer. */
  datatype Menu = Menu(isSigningOut: bool, isMenuOpen: bool)

  datatype SignOutResult = SignedOut | SignOutFailed(message: Option<string>)

  const SignInPath := "/auth/sign-in"
  const SignOutFailedDefault := "Something went wrong while signing out."

  /** What the end of a sign-out shows: a navigation or a failure notice. */
  datatype Effect = Navigate(path: string) | FailureToast(description: string)

  /** Starting a sign-out: ignored while one runs. */
  function BeginSignOut(m: Menu): (r: (Menu, bool))
    ensures m.isSigningOut ==> r == (m, false)
    ensures !m.isSigningOut ==> r == (m.(isSigningOut := true), true)
  {
    if m.isSigningOut then (m, false) else (m.(isSigningOut := true), true)
  }

  /** The end of a sign-out: on success the drawer closes and the user goes
      to sign-in; on failure a notice describes the error; the flag is
      released either way. */
  function FinishSignOut(m: Menu, result: SignOutResult): (r: (Menu, Effect))
    ensures !r.0.isSigningOut
    ensures result.SignedOut? ==> !r.0.isMenuOpen && r.1 == Navigate(SignInPath)
    ensures result.SignOutFailed? ==> r.0.isMenuOpen == m.isMenuOpen
    ensures result.SignOutFailed? ==>
              r.1 == FailureToast(if result.message.Some? then result.message.value else SignOutFailedDefault)
  {
    match result
    case SignedOut => (Menu(false, false), Navigate(SignInPath))
    case SignOutFailed(message) =>
      (m.(isSigningOut := false), FailureToast(if message.Some? then message.value else SignOutFailedDefault))
  }

  /** A second click during a sign-out starts nothing, and a successful
      sign-out lands on a route where the header is hidden. */
  lemma SignOutIsNotReentrant(m: Menu)
    requires !m.isSigningOut
    ensures var started := BeginSignOut(m).0;
            BeginSignOut(started) == (started, false)
    ensures !Shown(Some(FinishSignOut(BeginSignOut(m).0, SignedOut).1.path))
  {
    assert SignInPath[..6] == "/auth/";
  }
}

=== FILE: auth_form.dfy ===
/** The state of a sign-in or sign-up form: one value and one error per
    configured field, a loading flag and a form-level error.  Each handler
    of the hook is a pure transition from one state to the next; the
    submit callback's settlement is a parameter. */
module AuthForm {

  import opened Wrappers
  import opened Text
  import Seqs

  /** A field's optional validation function (applied to the trimmed
      value) and optional message for a blank value. */
  datatype FieldConfig = FieldConfig(
    validation: Option<string -> Option<string>>,
    requiredMessage: Option<string>)

  const EmptyConfig := FieldConfig(None, None)

  /** The configuration: field names in key order and their settings. */
  datatype Config = Config(names: seq<string>, fields: map<string, FieldConfig>)

  datatype Form = Form(
    values: map<string, string>,
    errors: map<string, Option<string>>,
    isLoading: bool,
    formError: Option<string>)

  /** Field names are distinct and non-empty, and every configured field
      has a value and an error slot. */
  ghost predicate WellFormed(c: Config, f: Form) {
    && Seqs.NoDuplicates(c.names)
    && (forall n :: n in c.names ==> n != "" && n in f.values && n in f.errors)
  }

  /** `config[field] ?? {}`. */
  function SettingsOf(c: Config, name: string): FieldConfig {
    if name in c.fields then c.fields[name] else EmptyConfig
  }

  const RequiredSuffix := " is required"

  /** `defaultValidationMessage`: the field name with its first character
      upper-cased (the field names are ASCII words), followed by " is required". */
  function DefaultValidationMessage(name: string): (r: string)
    requires name != ""
    ensures |r| == |name| + |RequiredSuffix|
    ensures r[0] == UpperChar(name[0])
    ensures r[1..|name|] == name[1..]
    ensures EndsWith(r, RequiredSuffix)
  {
    [UpperChar(name[0])] + name[1..] + RequiredSuffix
  }

  /** `validateField`: a blank value gets the required message (the
      configured one, else the default); a present value goes, trimmed, to
      the validation function when there is one. */
  function ValidateField(s: FieldConfig, name: string, value: string): (r: Option<string>)
    requires name != ""
    ensures IsBlank(value) && s.requiredMessage.Some? ==> r == s.requiredMessage
    ensures IsBlank(value) && s.requiredMessage.None? ==> r == Some(DefaultValidationMessage(name))
    ensures !IsBlank(value) && s.validation.Some? ==> r == s.validation.value(Trim(value))
    ensures !IsBlank(value) && s.validation.None? ==> r.None?
  {
    var trimmed := Trim(value);
    if trimmed == "" then Some(s.requiredMessage.GetOr(DefaultValidationMessage(name)))
    else if s.validation.Some? then s.validation.value(trimmed)
    else None
  }

  /** Only the trimmed value matters to validation. */
  lemma ValidateFieldIgnoresPadding(s: FieldConfig, name: string, value: string)
    requires name != ""
    ensures ValidateField(s, name, value) == ValidateField(s, name, Trim(value))
  {
    var t := Trim(value);
    TrimIdempotent(value);
    if t == [] {
      assert IsBlank(value) && IsBlank(t);
    } else {
      assert !IsBlank(value) && !IsBlank(t) && Trim(t) == t;
    }
  }

  /** A blank value never reaches the validation function. */
  lemma BlankSkipsValidation(s: FieldConfig, name: string, value: string)
    requires name != "" && IsBlank(value)
    ensures ValidateField(s, name, value) == ValidateField(s.(validation := None), name, value)
    ensures ValidateField(s, name, value).Some?
  {
  }

  /** The initial state: every field empty and without error, not loading,
      no form error. */
  function Init(c: Config): (r: Form)
    ensures forall n :: n in c.names ==> n in r.values && r.values[n] == ""
    ensures forall n :: n in c.names ==> n in r.errors && r.errors[n].None?
    ensures !r.isLoading && r.formError.None?
  {
    Form(map n | n in c.names :: "", map n | n in c.names :: None, false, None)
  }

  lemma InitWellFormed(c: Config)
    requires Seqs.NoDuplicates(c.names)
    requires forall n :: n in c.names ==> n != ""
    ensures WellFormed(c, Init(c))
  {
  }

  /** `setValue`: store the value, clear that field's error and the form
      error; every other field is untouched. */
  function SetValue(f: Form, name: string, value: string): (r: Form)
    ensures name in r.values && r.values[name] == value
    ensures name in r.errors && r.errors[name].None?
    ensures r.formError.None? && r.isLoading == f.isLoading
    ensures forall n :: n != name ==> (n in r.values <==> n in f.values) && (n in r.errors <==> n in f.errors)
    ensures forall n :: n != name && n in f.values ==> r.values[n] == f.values[n]
    ensures forall n :: n != name && n in f.errors ==> r.errors[n] == f.errors[n]
  {
    f.(values := f.values[name := value], errors := f.errors[name := None], formError := None)
  }

  /** The error a field's current value earns. */
  function FieldError(c: Config, f: Form, name: string): Option<string>
    requires WellFormed(c, f) && name in c.names
  {
    ValidateField(SettingsOf(c, name), name, f.values[name])
  }

  /** The field's blur handler: record the error its current value earns;
      nothing else changes. */
  function HandleBlur(c: Config, f: Form, name: string): (r: Form)
    requires WellFormed(c, f) && name in c.names
    ensures r.values == f.values && r.isLoading == f.isLoading && r.formError == f.formError
    ensures name in r.errors && r.errors[name] == FieldError(c, f, name)
    ensures forall n :: n != name ==> (n in r.errors <==> n in f.errors)
    ensures forall n :: n != name && n in f.errors ==> r.errors[n] == f.errors[n]
  {
    f.(errors := f.errors[name := FieldError(c, f, name)])
  }

  /** An error message counts as a failure only when it is a non-empty
      string: the form tests `if (error)`. */
  predicate Fails(e: Option<string>) {
    e.Some? && e.value != ""
  }

  /** What the submit callback does when awaited. */
  datatype Raised = ErrorObject(message: string) | OtherValue
  datatype Settlement = Resolved | Rejected(raised: Raised)

  const ValidationFailed := ErrorObject("validation-failed")
  const GenericFailure := "Something went wrong. Please try again."

  /** The state after a submit settles, whether the callback ran, and what
      the returned promise rejects with (`None` when it resolves). */
  datatype Submission = Submission(form: Form, ranCallback: bool, thrown: Option<Raised>)

  /** Every configured field's error recomputed; other error slots kept. */
  function RevalidateAll(c: Config, f: Form): (r: map<string, Option<string>>)
    requires WellFormed(c, f)
    ensures forall n :: n in r <==> n in f.errors
    ensures forall n :: n in c.names ==> r[n] == FieldError(c, f, n)
    ensures forall n :: n in f.errors && n !in c.names ==> r[n] == f.errors[n]
  {
    f.errors + map n | n in c.names :: FieldError(c, f, n)
  }

  predicate AnyFieldFails(c: Config, f: Form)
    requires WellFormed(c, f)
  {
    exists n :: n in c.names && Fails(FieldError(c, f, n))
  }

  /** `handleSubmit`, from the call to its settlement: every field is
      revalidated; if any fails, the promise rejects with
      "validation-failed" without running the callback; otherwise the
      callback runs and a rejection of it is recorded as the form error
      and rethrown.  Loading is off once the submit settles. */
  function HandleSubmit(c: Config, f: Form, callback: Settlement): (r: Submission)
    requires WellFormed(c, f)
    ensures r.form.values == f.values && !r.form.isLoading
    ensures forall n :: n in r.form.errors <==> n in f.errors
    ensures forall n :: n in c.names ==> r.form.errors[n] == FieldError(c, f, n)
    ensures r.ranCallback <==> !AnyFieldFails(c, f)
    ensures !r.ranCallback ==> r.thrown == Some(ValidationFailed) && r.form.formError.None?
    ensures r.ranCallback && callback.Resolved? ==> r.thrown.None? && r.form.formError.None?
    ensures r.ranCallback && callback.Rejected? ==> r.thrown == Some(callback.raised)
    ensures r.ranCallback && callback.Rejected? && callback.raised.ErrorObject? ==>
              r.form.formError == Some(callback.raised.message)
    ensures r.ranCallback && callback.Rejected? && callback.raised.OtherValue? ==>
              r.form.formError == Some(GenericFailure)
  {
    var errors := RevalidateAll(c, f);
    var checked := f.(isLoading := false, formError := None, errors := errors);
    if AnyFieldFails(c, f) then
      Submission(checked, false, Some(ValidationFailed))
    else
      match callback
      case Resolved => Submission(checked, true, None)
      case Rejected(raised) =>
        var message := if raised.ErrorObject? then raised.message else GenericFailure;
        Submission(checked.(formError := Some(message)), true, Some(raised))
  }

  /** Every handler keeps the form well formed. */
  lemma TransitionsPreserveWellFormed(c: Config, f: Form, name: string, value: string, callback: Settlement)
    requires WellFormed(c, f)
    ensures WellFormed(c, SetValue(f, name, value))
    ensures name in c.names ==> WellFormed(c, HandleBlur(c, f, name))
    ensures WellFormed(c, HandleSubmit(c, f, callback).form)
  {
  }

  /** After a submit the errors agree with what blurring each field would
      record: submitting is blurring every field at once. */
  lemma SubmitAgreesWithBlur(c: Config, f: Form, callback: Settlement, name: string)
    requires WellFormed(c, f) && name in c.names
    ensures HandleSubmit(c, f, callback).form.errors[name] == HandleBlur(c, f, name).errors[name]
  {
  }

  /** Typing into a field and leaving it records the error of the typed
      value. */
  lemma SetThenBlur(c: Config, f: Form, name: string, value: string)
    requires WellFormed(c, f) && name in c.names
    ensures var g := SetValue(f, name, value);
            WellFormed(c, g) && HandleBlur(c, g, name).errors[name] == ValidateField(SettingsOf(c, name), name, value)
  {
  }

  /** A blank required field blocks the callback. */
  lemma BlankFieldBlocksSubmit(c: Config, f: Form, callback: Settlement, name: string)
    requires WellFormed(c, f) && name in c.names && IsBlank(f.values[name])
    requires SettingsOf(c, name).requiredMessage.None?
    ensures !HandleSubmit(c, f, callback).ranCallback
  {
    var m := DefaultValidationMessage(name);
    assert m[0] == UpperChar(name[0]);
    assert Fails(FieldError(c, f, name));
  }

  /** A validation function that reports the empty string does not block
      the submit, although the empty string is stored as the error. */
  lemma EmptyMessageDoesNotBlock(c: Config, f: Form, callback: Settlement)
    requires WellFormed(c, f)
    requires forall n :: n in c.names ==> FieldError(c, f, n) == Some("")
    ensures HandleSubmit(c, f, callback).ranCallback
  {
  }
}

=== FILE: auth_gate.dfy ===
/** The gate around every page: which paths belong to the sign-in flow,
    where an unauthenticated visitor is sent, and what is rendered while
    the session is resolved.  `encodeURIComponent` is a parameter. */
module AuthGate {

  import opened Wrappers
  import opened Text

  const AuthRoot := "/auth"
  const SignInRedirect := "/auth/sign-in?redirect="

  /** The path is the sign-in flow's root or lies below it; a missing path
      is not. */
  predicate IsAuthRoute(path: Option<string>) {
    path.Some? && (path.value == AuthRoot || StartsWith(path.value, AuthRoot + "/"))
  }

  /** The root, every path under it, and nothing that merely shares its
      first letters. */
  lemma AuthRouteExamples(rest: string)
    ensures IsAuthRoute(Some("/auth")) && IsAuthRoute(Some("/auth/" + rest))
    ensures !IsAuthRoute(Some("/authx")) && !IsAuthRoute(Some("/")) && !IsAuthRoute(None)
  {
    assert ("/auth/" + rest)[..6] == "/auth/";
    assert "/authx"[5] == 'x';
  }

  datatype View = Children | Preparing | Redirecting

  /** The page to return to: the path, with the query string when there is
      one. */
  function NextTarget(path: string, query: string): (r: string)
    ensures StartsWith(r, path)
    ensures query == "" ==> r == path
    ensures query != "" ==> r[|path|..] == "?" + query
  {
    var r := if query == "" then path else path + "?" + query;
    assert r[..|path|] == path;
    r
  }

  /** The view and the redirect for a session state.  Auth routes always
      show their page; elsewhere a loading session shows a spinner, an
      absent one a spinner and a redirect to sign-in carrying the page to
      return to, and a present one the page. */
  function Gate(isAuthenticated: bool, isLoading: bool, path: Option<string>, query: string,
                encode: string -> string): (r: (View, Option<string>))
    ensures r.0 == Children <==> IsAuthRoute(path) || (!isLoading && isAuthenticated)
    ensures r.0 == Preparing <==> !IsAuthRoute(path) && isLoading
    ensures r.1.Some? <==>
              !IsAuthRoute(path) && !isLoading && !isAuthenticated && path.Some? && path.value != ""
    ensures r.1.Some? ==> r.1.value == SignInRedirect + encode(NextTarget(path.value, query))
  {
    var view := if IsAuthRoute(path) then Children
                else if isLoading then Preparing
                else if !isAuthenticated then Redirecting
                else Children;
    var redirect := if isLoading || IsAuthRoute(path) then None
                    else if !isAuthenticated && path.Some? && path.value != "" then
                      Some(SignInRedirect + encode(NextTarget(path.value, query)))
                    else None;
    (view, redirect)
  }

  /** The redirect target is itself an auth route, where the gate shows the
      page and redirects no further. */
  lemma RedirectLandsOnAuthRoute(isAuthenticated: bool, isLoading: bool, path: Option<string>,
                                 query: string, encode: string -> string)
    requires Gate(isAuthenticated, isLoading, path, query, encode).1.Some?
    ensures var target := Gate(isAuthenticated, isLoading, path, query, encode).1.value;
            IsAuthRoute(Some(target))
            && Gate(isAuthenticated, isLoading, Some(target), query, encode) == (Children, None)
  {
    var target := Gate(isAuthenticated, isLoading, path, query, encode).1.value;
    assert target[..6] == "/auth/";
  }
}

=== FILE: auth_layout.dfy ===
/** The layout of the sign-in flow's pages: a signed-in user is sent home,
    except on the password-reset page, and nothing is decided while the
    session loads.  With the gate around every page this sends each
    visitor at most once. */
module AuthLayout {

  import opened Wrappers
  import Text
  import AuthGate

  const ResetPasswordPath := "/auth/reset-password"
  const HomePath := "/"

  datatype View = Loading | Nothing | Children

  /** The view, and whether the user is sent home. */
  function Layout(isAuthenticated: bool, isLoading: bool, path: Option<string>): (r: (View, bool))
    ensures isLoading ==> r == (Loading, false)
    ensures !isLoading && isAuthenticated && path != Some(ResetPasswordPath) ==> r == (Nothing, true)
    ensures !isLoading && isAuthenticated && path == Some(ResetPasswordPath) ==> r == (Children, false)
    ensures !isLoading && !isAuthenticated ==> r == (Children, false)
  {
    var onReset := path == Some(ResetPasswordPath);
    var redirect := !isLoading && isAuthenticated && !onReset;
    var view := if isLoading then Loading
                else if isAuthenticated && !onReset then Nothing
                else Children;
    (view, redirect)
  }

  /** A signed-in user sent home from the sign-in flow gets the home page
      from the gate, with no further redirect. */
  lemma SignedInLandsHome(query: string, encode: string -> string)
    ensures !AuthGate.IsAuthRoute(Some(HomePath))
    ensures AuthGate.Gate(true, false, Some(HomePath), query, encode) == (AuthGate.Children, None)
  {
    assert HomePath != AuthGate.AuthRoot;
    assert !Text.StartsWith(HomePath, AuthGate.AuthRoot + "/");
  }

  /** A signed-out visitor sent to sign-in by the gate gets the sign-in
      page from this layout, with no further redirect. */
  lemma SignedOutLandsOnSignIn(path: Option<string>, query: string, encode: string -> string)
    requires AuthGate.Gate(false, false, path, query, encode).1.Some?
    ensures var target := AuthGate.Gate(false, false, path, query, encode).1.value;
            Layout(false, false, Some(target)) == (Children, false)
            && AuthGate.Gate(false, false, Some(target), query, encode) == (AuthGate.Children, None)
  {
    AuthGate.RedirectLandsOnAuthRoute(false, false, path, query, encode);
  }
}

=== FILE: auth_validation.dfy ===
/** The credential validators of the sign-in and sign-up forms: e-mail
    syntax, password strength and password confirmation.  A validator
    returns `None` for an accepted value and `Some(message)` otherwise. */
module AuthValidation {

  import opened Wrappers
  import opened Text

  // ---------------------------------------------------------------------
  // E-mail syntax
  // ---------------------------------------------------------------------

  predicate IsAsciiLetter(c: char) {
    ('a' <= c <= 'z') || ('A' <= c <= 'Z')
  }

  predicate IsAsciiDigit(c: char) {
    '0' <= c <= '9'
  }

  predicate IsAlnum(c: char) {
    IsAsciiLetter(c) || IsAsciiDigit(c)
  }

  /** The characters of the local part: letters, digits and
      ``.!#$%&'*+/=?^_`{|}~-``. */
  predicate IsLocalChar(c: char) {
    IsAlnum(c) || c in ".!#$%&'*+/=?^_`{|}~-"
  }

  /** One domain label: 1 to 63 letters, digits or hyphens, beginning and
      ending with a letter or digit. */
  predicate IsLabel(s: string) {
    && 1 <= |s| <= 63
    && IsAlnum(s[0]) && IsAlnum(s[|s| - 1])
    && forall k :: 0 <= k < |s| ==> IsAlnum(s[k]) || s[k] == '-'
  }

  /** A non-empty local part, one `@`, and a domain of at least two labels
      separated by dots: the language of the address pattern. */
  predicate IsEmailAddress(s: string) {
    match IndexOfChar(s, '@')
    case None => false
    case Some(i) =>
      var local := s[..i];
      var labels := Split(s[i + 1..], '.');
      && |local| >= 1
      && (forall k :: 0 <= k < |local| ==> IsLocalChar(local[k]))
      && |labels| >= 2
      && forall k :: 0 <= k < |labels| ==> IsLabel(labels[k])
  }

  /** An accepted address contains exactly one `@`. */
  lemma EmailHasOneAt(s: string)
    requires IsEmailAddress(s)
    ensures exists i :: 0 <= i < |s| && s[i] == '@' && '@' !in s[..i] && '@' !in s[i + 1..]
  {
    var i := IndexOfChar(s, '@').value;
    DomainHasNoAt(s[i + 1..]);
    assert s[i] == '@' && '@' !in s[..i];
  }

  /** A domain made of labels has no `@`. */
  lemma DomainHasNoAt(domain: string)
    requires forall k :: 0 <= k < |Split(domain, '.')| ==> IsLabel(Split(domain, '.')[k])
    ensures '@' !in domain
  {
    JoinSplit(domain, '.');
    LabelsHaveNoAt(Split(domain, '.'), ".");
  }

  /** Joining labels yields no `@`. */
  lemma {:induction false} LabelsHaveNoAt(labels: seq<string>, sep: string)
    requires '@' !in sep
    requires forall k :: 0 <= k < |labels| ==> IsLabel(labels[k])
    ensures '@' !in Join(labels, sep)
  {
    if |labels| > 1 {
      LabelsHaveNoAt(labels[1..], sep);
      assert Join(labels, sep) == labels[0] + sep + Join(labels[1..], sep);
      assert '@' !in labels[0] by {
        forall k | 0 <= k < |labels[0]| ensures labels[0][k] != '@' {
          assert IsAlnum(labels[0][k]) || labels[0][k] == '-';
        }
      }
    } else if |labels| == 1 {
      forall k | 0 <= k < |labels[0]| ensures labels[0][k] != '@' {
        assert IsAlnum(labels[0][k]) || labels[0][k] == '-';
      }
    }
  }

  /** Every address built from a valid local part and at least two valid
      labels is accepted. */
  lemma BuiltAddressIsAccepted(local: string, labels: seq<string>)
    requires |local| >= 1 && forall k :: 0 <= k < |local| ==> IsLocalChar(local[k])
    requires |labels| >= 2 && forall k :: 0 <= k < |labels| ==> IsLabel(labels[k])
    ensures IsEmailAddress(local + "@" + Join(labels, "."))
  {
    var domain := Join(labels, ".");
    var s := local + "@" + domain;
    LocalHasNoAt(local);
    IndexOfFirstSeparator(local, domain, '@');
    assert s == local + ['@'] + domain;
    SplitAddress(local, domain);
    LabelsHaveNoDot(labels);
    SplitJoin(labels, '.');
  }

  lemma SplitAddress(local: string, domain: string)
    ensures (local + "@" + domain)[..|local|] == local
    ensures (local + "@" + domain)[|local| + 1..] == domain
  {
  }

  lemma LocalHasNoAt(local: string)
    requires forall k :: 0 <= k < |local| ==> IsLocalChar(local[k])
    ensures '@' !in local
  {
    forall k | 0 <= k < |local| ensures local[k] != '@' {
      assert IsLocalChar(local[k]);
    }
  }

  lemma LabelsHaveNoDot(labels: seq<string>)
    requires forall k :: 0 <= k < |labels| ==> IsLabel(labels[k])
    ensures forall k :: 0 <= k < |labels| ==> '.' !in labels[k]
  {
    forall k | 0 <= k < |labels| ensures '.' !in labels[k] {
      var l := labels[k];
      forall j | 0 <= j < |l| ensures l[j] != '.' {
        assert IsAlnum(l[j]) || l[j] == '-';
      }
    }
  }

  // ---------------------------------------------------------------------
  // Validators
  // ---------------------------------------------------------------------

  const EmailRequired := "Email is required"
  const EmailInvalid := "Enter a valid email address"
  const PasswordRequired := "Password is required"
  const PasswordTooShort := "Password must be at least 8 characters"
  const PasswordTooWeak := "Password must include letters and numbers"
  const ConfirmRequired := "Please confirm your password"
  const ConfirmMismatch := "Passwords do not match"

  const MinPasswordLength := 8

  /** `validateEmail`: the trimmed value must be present and an address. */
  function ValidateEmail(value: string): (r: Option<string>)
    ensures IsBlank(value) ==> r == Some(EmailRequired)
    ensures !IsBlank(value) ==> (r.None? <==> IsEmailAddress(Trim(value)))
    ensures !IsBlank(value) && r.Some? ==> r == Some(EmailInvalid)
  {
    var trimmed := Trim(value);
    if trimmed == "" then Some(EmailRequired)
    else if !IsEmailAddress(trimmed) then Some(EmailInvalid)
    else None
  }

  predicate HasLetter(s: string) {
    exists k :: 0 <= k < |s| && IsAsciiLetter(s[k])
  }

  predicate HasDigit(s: string) {
    exists k :: 0 <= k < |s| && IsAsciiDigit(s[k])
  }

  /** `validatePassword`: presence, then length in UTF-16 code units, then
      the mix of letters and digits, all judged on the trimmed value. */
  function ValidatePassword(value: string): (r: Option<string>)
    ensures r.None? <==>
              Utf16Length(Trim(value)) >= MinPasswordLength && HasLetter(Trim(value)) && HasDigit(Trim(value))
    ensures IsBlank(value) ==> r == Some(PasswordRequired)
    ensures !IsBlank(value) && Utf16Length(Trim(value)) < MinPasswordLength ==> r == Some(PasswordTooShort)
    ensures Utf16Length(Trim(value)) >= MinPasswordLength && !(HasLetter(Trim(value)) && HasDigit(Trim(value))) ==>
              r == Some(PasswordTooWeak)
  {
    PasswordVerdict(Trim(value))
  }

  /** The verdict on an already trimmed password. */
  function PasswordVerdict(trimmed: string): (r: Option<string>)
    ensures r.None? <==> Utf16Length(trimmed) >= MinPasswordLength && HasLetter(trimmed) && HasDigit(trimmed)
    ensures trimmed == "" ==> r == Some(PasswordRequired)
    ensures trimmed != "" && Utf16Length(trimmed) < MinPasswordLength ==> r == Some(PasswordTooShort)
    ensures Utf16Length(trimmed) >= MinPasswordLength && !(HasLetter(trimmed) && HasDigit(trimmed)) ==>
              r == Some(PasswordTooWeak)
  {
    if trimmed == "" then Some(PasswordRequired)
    else if Utf16Length(trimmed) < MinPasswordLength then Some(PasswordTooShort)
    else if !HasLetter(trimmed) || !HasDigit(trimmed) then Some(PasswordTooWeak)
    else None
  }

  /** Surrounding whitespace is ignored: a password and its trimmed form
      get the same verdict. */
  lemma ValidatePasswordIgnoresPadding(value: string)
    ensures ValidatePassword(value) == ValidatePassword(Trim(value))
  {
    TrimIdempotent(value);
  }

  /** The length is counted in code units: seven characters, the last
      outside the Basic Multilingual Plane, make a long enough password. */
  lemma AstralCharacterCountsTwice()
    ensures ValidatePassword("abcde1" + "\U{1F600}") == None
  {
    var s := "abcde1" + "\U{1F600}";
    SampleLength();
    assert HasLetter(s) && HasDigit(s) by {
      assert IsAsciiLetter(s[0]) && IsAsciiDigit(s[5]);
    }
    assert IsTrimmed(s) by {
      assert s[0] == 'a' && s[|s| - 1] == '\U{1F600}';
    }
    TrimOfTrimmed(s);
  }

  lemma SampleLength()
    ensures Utf16Length("abcde1" + "\U{1F600}") == 8
  {
    Utf16LengthConcat("abcde1", "\U{1F600}");
    Utf16LengthOfBmp("abcde1");
    Utf16LengthOfAstral('\U{1F600}');
  }

  /** `validateConfirmPassword`: the confirmation must be present and equal
      to the password as typed, untrimmed. */
  function ValidateConfirmPassword(password: string, confirm: string): (r: Option<string>)
    ensures r.None? <==> !IsBlank(confirm) && password == confirm
    ensures IsBlank(confirm) ==> r == Some(ConfirmRequired)
    ensures !IsBlank(confirm) && password != confirm ==> r == Some(ConfirmMismatch)
  {
    if Trim(confirm) == "" then Some(ConfirmRequired)
    else if password != confirm then Some(ConfirmMismatch)
    else None
  }

  /** Padding counts for the confirmation: a confirmation that differs from
      the password only by a trailing space is rejected, although both
      trim to the same text. */
  lemma ConfirmComparesUntrimmed(password: string)
    requires !IsBlank(password)
    ensures ValidateConfirmPassword(password, password + " ") == Some(ConfirmMismatch)
  {
    var confirm := password + " ";
    assert |confirm| != |password|;
    BlankIffAllWhitespace(confirm);
    BlankIffAllWhitespace(password);
    assert forall k :: 0 <= k < |password| ==> password[k] == confirm[k];
  }
}

=== FILE: backoff.dfy ===
/** Capped exponential back-off, `Math.min(cap, base * 2 ** attempt)`, as
    the realtime feeds use it to space reconnection attempts. */
module Backoff {

  function Pow2(n: nat): (r: nat)
    ensures r >= 1
  {
    if n == 0 then 1 else 2 * Pow2(n - 1)
  }

  /** The delay before retry number `attempt` (counting from 0). */
  function Delay(base: nat, cap: nat, attempt: nat): (r: nat)
    ensures r <= cap
    ensures r <= base * Pow2(attempt)
    ensures r == cap || r == base * Pow2(attempt)
  {
    if base * Pow2(attempt) < cap then base * Pow2(attempt) else cap
  }

  lemma {:induction false} Pow2Monotone(a: nat, b: nat)
    requires a <= b
    ensures Pow2(a) <= Pow2(b)
    decreases b
  {
    if a < b {
      Pow2Monotone(a, b - 1);
    }
  }

  /** Later attempts never wait less. */
  lemma DelayMonotone(base: nat, cap: nat, a: nat, b: nat)
    requires a <= b
    ensures Delay(base, cap, a) <= Delay(base, cap, b)
  {
    Pow2Monotone(a, b);
    assert base * Pow2(a) <= base * Pow2(b) by {
      MulMonotone(base, Pow2(a), Pow2(b));
    }
  }

  lemma MulMonotone(k: nat, x: nat, y: nat)
    requires x <= y
    ensures k * x <= k * y
  {
  }

  /** Each uncapped delay doubles the previous one. */
  lemma DelayDoubles(base: nat, cap: nat, a: nat)
    requires base * Pow2(a + 1) < cap
    ensures Delay(base, cap, a + 1) == 2 * Delay(base, cap, a)
  {
    assert Pow2(a + 1) == 2 * Pow2(a);
    assert base * Pow2(a + 1) == 2 * (base * Pow2(a));
  }
}

=== FILE: domain.dfy ===
/** The application's shared records: a geolocated event as the client
    sees it after the row mapping, and a coordinate pair.  A timestamp that
    the application parses with `new Date(...)` is carried as its parse result:
    milliseconds since the epoch, or `None` when it does not parse. */
module Domain {

  import opened Wrappers

  datatype Location = Location(lat: real, lng: real)

  /** The category identifiers in hyphenated form. */
  const Categories: seq<string> := ["danger", "blocked-path", "event", "protest", "crime-alert"]

  const CrimeAlert: string := "crime-alert"
  const Pickpockets: string := "pickpockets"

  const HourMs: int := 60 * 60 * 1000
  const DayMs: int := 24 * HourMs

  datatype Event = Event(
    id: string,
    title: string,
    description: string,
    category: string,
    subcategory: Option<string>,
    location: Location,
    address: string,
    createdAt: Option<int>,
    imageUrl: Option<string>,
    verificationCount: int,
    isActive: bool,
    radiusMeters: Option<real>)

  /** A creation time that parsed, as the key the recency sorts use. */
  predicate HasTime(e: Event) {
    e.createdAt.Some?
  }

  function Time(e: Event): int
    requires HasTime(e)
  {
    e.createdAt.value
  }

  /** `findIndex` by id: the first position holding that id. */
  function FindIndex(events: seq<Event>, id: string): (r: Option<nat>)
    ensures r.None? <==> forall k :: 0 <= k < |events| ==> events[k].id != id
    ensures r.Some? ==> r.value < |events| && events[r.value].id == id
    ensures r.Some? ==> forall k :: 0 <= k < r.value ==> events[k].id != id
  {
    if |events| == 0 then None
    else if events[0].id == id then Some(0)
    else
      match FindIndex(events[1..], id)
      case None => None
      case Some(i) => Some(i + 1)
  }
}

=== FILE: event_chat.dfy ===
/** The per-event chat: messages shown optimistically while their insert
    is in flight, a first-in-first-out queue of optimistic ids per sender
    and content that realtime inserts are reconciled against, and the
    reconnection schedule of the realtime channel.  Random ids, the clock
    and the outcome of the insert are parameters. */
module EventChat {

  import opened Wrappers
  import opened Text
  import Seqs
  import Sorting
  import Backoff

  /** A chat message; `createdAt` is the parsed creation time. */
  datatype Message = Message(
    id: string,
    userId: Option<string>,
    userEmail: Option<string>,
    content: string,
    createdAt: int,
    optimistic: bool)

  const Anon := "anon"

  /** `createPendingKey`: sender id, sender e-mail and content joined by
      `|`, with "anon" for a missing sender part. */
  function PendingKey(userId: Option<string>, userEmail: Option<string>, content: string): (r: string)
    ensures |r| == |userId.GetOr(Anon)| + |userEmail.GetOr(Anon)| + |content| + 2
    ensures StartsWith(r, userId.GetOr(Anon) + "|") && EndsWith(r, "|" + content)
  {
    userId.GetOr(Anon) + "|" + userEmail.GetOr(Anon) + "|" + content
  }

  function KeyOf(m: Message): string {
    PendingKey(m.userId, m.userEmail, m.content)
  }

  /** When no part contains `|`, the key splits back into its parts, so
      such keys identify the sender and content. */
  lemma PendingKeySplits(userId: Option<string>, userEmail: Option<string>, content: string)
    requires '|' !in userId.GetOr(Anon) && '|' !in userEmail.GetOr(Anon) && '|' !in content
    ensures Split(PendingKey(userId, userEmail, content), '|') == [userId.GetOr(Anon), userEmail.GetOr(Anon), content]
  {
    var a, b := userId.GetOr(Anon), userEmail.GetOr(Anon);
    var parts := [a, b, content];
    assert parts[1..] == [b, content] && [b, content][1..] == [content];
    assert Join([content], "|") == content;
    assert Join([b, content], "|") == b + "|" + content;
    assert Join(parts, "|") == a + "|" + (b + "|" + content);
    assert PendingKey(userId, userEmail, content) == Join(parts, ['|']);
    SplitJoin(parts, '|');
  }

  /** A `|` inside a part makes two different messages share a key. */
  lemma PendingKeyAmbiguous()
    ensures PendingKey(Some("u"), Some("a"), "b|c") == PendingKey(Some("u"), Some("a|b"), "c")
  {
  }

  /** The chat's state: the messages in arrival order, the pending queues,
      whether a send is in flight, the error banner and the input box. */
  datatype Chat = Chat(
    messages: seq<Message>,
    pending: map<string, seq<string>>,
    isSending: bool,
    error: Option<string>,
    input: string)

  /** The pending map never keeps an empty queue. */
  ghost predicate NoEmptyQueues(p: map<string, seq<string>>) {
    forall k :: k in p ==> p[k] != []
  }

  function QueueOf(p: map<string, seq<string>>, key: string): seq<string> {
    if key in p then p[key] else []
  }

  /** Store a queue under its key, or drop the key when it is empty. */
  function PutQueue(p: map<string, seq<string>>, key: string, q: seq<string>): (r: map<string, seq<string>>)
    ensures QueueOf(r, key) == q
    ensures key in r <==> q != []
    ensures forall k :: k != key ==> (k in r <==> k in p) && QueueOf(r, k) == QueueOf(p, k)
    ensures NoEmptyQueues(p) ==> NoEmptyQueues(r)
  {
    if q == [] then p - {key} else p[key := q]
  }

  const SendFailed := "We couldn’t send your message. Please try again."

  /** The synchronous part of `handleSendMessage`: ignored when the input
      is blank or a send is in flight; otherwise an optimistic message with
      the trimmed input is appended and its id queued at the back of its
      key's queue.  Returns the new state and the message when one was
      started. */
  function BeginSend(c: Chat, userId: Option<string>, userEmail: Option<string>, freshId: string, now: int)
    : (r: (Chat, Option<Message>))
    ensures IsBlank(c.input) || c.isSending ==> r == (c, None)
    ensures !(IsBlank(c.input) || c.isSending) ==>
              && r.1.Some?
              && r.1.value == Message(freshId, userId, userEmail, Trim(c.input), now, true)
              && r.0.messages == c.messages + [r.1.value]
              && r.0.isSending && r.0.error.None? && r.0.input == c.input
              && QueueOf(r.0.pending, KeyOf(r.1.value)) == QueueOf(c.pending, KeyOf(r.1.value)) + [freshId]
              && forall k :: k != KeyOf(r.1.value) ==> QueueOf(r.0.pending, k) == QueueOf(c.pending, k)
    ensures NoEmptyQueues(c.pending) ==> NoEmptyQueues(r.0.pending)
  {
    if IsBlank(c.input) || c.isSending then (c, None)
    else
      var m := Message(freshId, userId, userEmail, Trim(c.input), now, true);
      var key := KeyOf(m);
      var pending := PutQueue(c.pending, key, QueueOf(c.pending, key) + [freshId]);
      (c.(messages := c.messages + [m], pending := pending, isSending := true, error := None), Some(m))
  }

  /** The settlement of the insert started for `m`: on success the input is
      cleared; on failure the optimistic message and its queued id are
      removed and the error is shown.  Either way the send is over. */
  function FinishSend(c: Chat, m: Message, ok: bool): (r: Chat)
    ensures !r.isSending
    ensures ok ==> r == c.(input := "", isSending := false)
    ensures !ok ==> r.error == Some(SendFailed) && r.input == c.input
    ensures !ok ==> forall x :: x in r.messages <==> x in c.messages && x.id != m.id
    // the survivors keep their order and every copy
    ensures !ok ==> Seqs.IsSubsequence(r.messages, c.messages)
    ensures !ok ==> forall x :: multiset(r.messages)[x] == if x.id != m.id then multiset(c.messages)[x] else 0
    ensures !ok ==> QueueOf(r.pending, KeyOf(m)) == Seqs.Filter((id: string) => id != m.id, QueueOf(c.pending, KeyOf(m)))
    ensures forall k :: k != KeyOf(m) ==> QueueOf(r.pending, k) == QueueOf(c.pending, k)
    ensures NoEmptyQueues(c.pending) ==> NoEmptyQueues(r.pending)
  {
    if ok then c.(input := "", isSending := false)
    else
      var key := KeyOf(m);
      var keep := (x: Message) => x.id != m.id;
      Seqs.FilterIsSubsequence(keep, c.messages);
      Seqs.FilterCounts(keep, c.messages);
      var messages := Seqs.Filter(keep, c.messages);
      var pending :=
        if key in c.pending then PutQueue(c.pending, key, Seqs.Filter((id: string) => id != m.id, c.pending[key]))
        else c.pending;
      c.(messages := messages, pending := pending, error := Some(SendFailed), isSending := false)
  }

  /** The messages left once the optimistic message with the queue's
      oldest id (if any) is taken out. */
  function Dismiss(messages: seq<Message>, q: seq<string>): (r: seq<Message>)
    ensures q == [] ==> r == messages
    ensures q != [] ==> forall x :: x in r <==> x in messages && x.id != q[0]
    // the survivors keep their order and every copy
    ensures Seqs.IsSubsequence(r, messages)
    ensures q != [] ==> forall x :: multiset(r)[x] == if x.id != q[0] then multiset(messages)[x] else 0
  {
    if q == [] then
      Seqs.SubsequenceRefl(messages);
      messages
    else
      var keep := (x: Message) => x.id != q[0];
      Seqs.FilterIsSubsequence(keep, messages);
      Seqs.FilterCounts(keep, messages);
      Seqs.Filter(keep, messages)
  }

  predicate HasId(messages: seq<Message>, id: string) {
    exists k :: 0 <= k < |messages| && messages[k].id == id
  }

  /** `handleRealtimeInsert`: the oldest optimistic id queued under the
      row's key is dequeued and its message removed; the row is then
      appended unless a message with its id is already shown. */
  function RealtimeInsert(c: Chat, row: Message): (r: Chat)
    ensures var q := QueueOf(c.pending, KeyOf(row));
            QueueOf(r.pending, KeyOf(row)) == (if q == [] then [] else q[1..])
    ensures forall k :: k != KeyOf(row) ==> QueueOf(r.pending, k) == QueueOf(c.pending, k)
    ensures NoEmptyQueues(c.pending) ==> NoEmptyQueues(r.pending)
    ensures var kept := Dismiss(c.messages, QueueOf(c.pending, KeyOf(row)));
            r.messages == (if HasId(kept, row.id) then kept else kept + [row])
    ensures HasId(r.messages, row.id)
    ensures r.isSending == c.isSending && r.error == c.error && r.input == c.input
  {
    var key := KeyOf(row);
    var q := QueueOf(c.pending, key);
    var pending := PutQueue(c.pending, key, if q == [] then [] else q[1..]);
    var kept := Dismiss(c.messages, q);
    var messages := if HasId(kept, row.id) then kept else kept + [row];
    assert !HasId(kept, row.id) ==> messages[|kept|] == row;
    c.(messages := messages, pending := pending)
  }

  /** Optimistic ids are dequeued first-in first-out: a realtime insert
      removes the oldest queued id for its key and the message bearing it. */
  lemma RealtimeDequeuesOldest(c: Chat, row: Message)
    requires KeyOf(row) in c.pending && NoEmptyQueues(c.pending)
    ensures var q := c.pending[KeyOf(row)];
            QueueOf(RealtimeInsert(c, row).pending, KeyOf(row)) == q[1..]
            && (forall x :: x in RealtimeInsert(c, row).messages && x != row ==> x.id != q[0])
  {
  }

  /** A row whose id is already shown adds no second copy. */
  lemma RealtimeNeverDuplicates(c: Chat, row: Message)
    requires row in c.messages
    requires QueueOf(c.pending, KeyOf(row)) == []
    ensures RealtimeInsert(c, row).messages == c.messages
  {
    var k :| 0 <= k < |c.messages| && c.messages[k] == row;
    assert c.messages[k].id == row.id;
    assert HasId(c.messages, row.id);
  }

  /** A send that fails leaves no trace of its optimistic message: with a
      fresh id, beginning and failing restores the messages and queues. */
  lemma FailedSendLeavesNoTrace(c: Chat, userId: Option<string>, userEmail: Option<string>, freshId: string, now: int)
    requires !IsBlank(c.input) && !c.isSending
    requires NoEmptyQueues(c.pending)
    requires forall k :: 0 <= k < |c.messages| ==> c.messages[k].id != freshId
    requires forall key :: key in c.pending ==> freshId !in c.pending[key]
    ensures var (started, m) := BeginSend(c, userId, userEmail, freshId, now);
            var r := FinishSend(started, m.value, false);
            r.messages == c.messages && r.pending == c.pending
  {
    var (started, m) := BeginSend(c, userId, userEmail, freshId, now);
    var msg := m.value;
    assert msg.id == freshId;
    DropAppended(c.messages, msg);
    RequeueThenDrop(c.pending, KeyOf(msg), freshId);
  }

  lemma DropAppended(messages: seq<Message>, m: Message)
    requires forall k :: 0 <= k < |messages| ==> messages[k].id != m.id
    ensures Seqs.Filter((x: Message) => x.id != m.id, messages + [m]) == messages
  {
    var keep := (x: Message) => x.id != m.id;
    Seqs.FilterSnoc(keep, messages, m);
    Seqs.FilterAll(keep, messages);
  }

  /** Queuing a fresh id and then filtering it out restores the map. */
  lemma RequeueThenDrop(p: map<string, seq<string>>, key: string, id: string)
    requires NoEmptyQueues(p)
    requires forall k :: k in p ==> id !in p[k]
    ensures var r := PutQueue(p, key, QueueOf(p, key) + [id]);
            key in r && PutQueue(r, key, Seqs.Filter((x: string) => x != id, r[key])) == p
  {
    var keep := (x: string) => x != id;
    var q := QueueOf(p, key);
    var r := PutQueue(p, key, q + [id]);
    assert forall k :: 0 <= k < |q| ==> keep(q[k]) by {
      if key in p {
        assert forall k :: 0 <= k < |q| ==> q[k] in p[key];
      }
    }
    Seqs.FilterSnoc(keep, q, id);
    Seqs.FilterAll(keep, q);
    var back := PutQueue(r, key, Seqs.Filter(keep, r[key]));
    assert QueueOf(back, key) == q;
    forall k ensures k in back <==> k in p {
      if k == key {
        assert k in back <==> q != [];
      }
    }
    forall k | k in back ensures back[k] == p[k] {
      assert QueueOf(back, k) == QueueOf(p, k);
    }
  }

  /** `sortedMessages`: oldest first; messages created at the same instant
      keep their arrival order. */
  function SortedMessages(messages: seq<Message>): (r: seq<Message>)
    ensures multiset(r) == multiset(messages)
    ensures forall i, j :: 0 <= i < j < |r| ==> r[i].createdAt <= r[j].createdAt
    ensures forall t :: Sorting.WithKey(r, NegatedTime, t) == Sorting.WithKey(messages, NegatedTime, t)
  {
    Sorting.SortDesc(messages, NegatedTime)
  }

  function NegatedTime(m: Message): int {
    -m.createdAt
  }

  // ---------------------------------------------------------------------
  // Realtime reconnection
  // ---------------------------------------------------------------------

  const BaseRetryDelay := 1000
  const MaxRetryDelay := 12000

  datatype Retry = Retry(attempt: nat, timerPending: bool, mounted: bool)

  /** `scheduleRetry`: nothing after unmount or while a retry is already
      waiting; otherwise the delay for the current attempt, and the next
      attempt with its timer pending. */
  function ScheduleRetry(r: Retry): (out: (Option<nat>, Retry))
    ensures !r.mounted || r.timerPending ==> out == (None, r)
    ensures r.mounted && !r.timerPending ==>
              out == (Some(Backoff.Delay(BaseRetryDelay, MaxRetryDelay, r.attempt)), r.(attempt := r.attempt + 1, timerPending := true))
    ensures out.0.Some? ==> out.0.value <= MaxRetryDelay
  {
    if !r.mounted || r.timerPending then (None, r)
    else (Some(Backoff.Delay(BaseRetryDelay, MaxRetryDelay, r.attempt)), r.(attempt := r.attempt + 1, timerPending := true))
  }

  /** A `SUBSCRIBED` status restarts the schedule and cancels the timer. */
  function OnSubscribed(r: Retry): (out: Retry)
    ensures out.attempt == 0 && !out.timerPending && out.mounted == r.mounted
  {
    r.(attempt := 0, timerPending := false)
  }

  /** Two failures in a row schedule a single retry. */
  lemma NoRetryWhilePending(r: Retry)
    ensures ScheduleRetry(ScheduleRetry(r).1).0.None?
  {
  }

  /** Delays double from one second and stop growing at twelve. */
  lemma ChatRetrySchedule(a: nat)
    ensures a <= 3 ==> Backoff.Delay(BaseRetryDelay, MaxRetryDelay, a) == 1000 * Backoff.Pow2(a)
    ensures a >= 4 ==> Backoff.Delay(BaseRetryDelay, MaxRetryDelay, a) == MaxRetryDelay
  {
    if a >= 4 {
      Backoff.Pow2Monotone(4, a);
      assert Backoff.Pow2(4) == 16;
    } else {
      Backoff.Pow2Monotone(a, 3);
      assert Backoff.Pow2(3) == 8;
    }
  }
}

=== FILE: event_filter.dfy ===
/** The event-list helpers the safety advisor applies before building its
    prompt: filtering by category, age and activity, grouping by category
    and ordering by recency.  The clock is the parameter `now`. */
module EventFilter {

  import opened Wrappers
  import opened Domain
  import opened JsNumbers
  import Seqs
  import Sorting

  /** `EventFilterOptions`; an absent `categories` list is `None`. */
  datatype FilterOptions = FilterOptions(
    categories: Option<seq<string>>,
    timeframeHours: Option<JsNumber>,
    activeOnly: bool)

  const NoOptions: FilterOptions := FilterOptions(None, None, false)

  /** `categories?.filter(Boolean)`: the requested categories without
      empty strings. */
  function RequestedCategories(o: FilterOptions): (r: seq<string>)
    ensures forall c :: c in r <==> o.categories.Some? && c in o.categories.value && c != ""
  {
    match o.categories
    case None => []
    case Some(cs) => Seqs.Filter((c: string) => c != "", cs)
  }

  /** The oldest creation time admitted: a positive number of hours before
      `now`, or `None` when the window is absent or not positive. */
  function Cutoff(o: FilterOptions, now: int): (r: Option<JsNumber>)
    ensures r.Some? <==> o.timeframeHours.Some? && Positive(o.timeframeHours.value)
    ensures r.Some? && o.timeframeHours.value.Finite? ==>
              r.value.Finite? && r.value.value + o.timeframeHours.value.value * HourMs as real == now as real
    ensures r.Some? && o.timeframeHours.value.Infinity? ==> r.value == Infinity(false)
  {
    match o.timeframeHours
    case Some(Finite(h)) => if h > 0.0 then Some(Finite(now as real - h * HourMs as real)) else None
    case Some(Infinity(positive)) => if positive then Some(Infinity(false)) else None
    case _ => None
  }

  /** `eventTimestamp < cutoffTimestamp` for a parsed creation time. */
  predicate Before(t: int, cutoff: JsNumber) {
    match cutoff
    case Finite(c) => (t as real) < c
    case NaN => false
    case Infinity(positive) => positive
  }

  /** Whether an event survives the filter, one condition per rule: its
      category is requested (when any are), it is not older than the
      window (when the cutoff counts as true) and it is active (when only
      active events are wanted). */
  predicate Matches(o: FilterOptions, now: int, e: Event) {
    var cats := RequestedCategories(o);
    var cutoff := Cutoff(o, now);
    && (|cats| > 0 ==> e.category in cats)
    && (cutoff.Some? && Truthy(cutoff.value) ==> HasTime(e) && !Before(Time(e), cutoff.value))
    && (o.activeOnly ==> e.isActive)
  }

  /** `filterEvents`. */
  function FilterEvents(events: seq<Event>, o: FilterOptions, now: int): (r: seq<Event>)
    ensures Seqs.IsSubsequence(r, events)
    ensures forall e :: e in r <==> e in events && Matches(o, now, e)
    // every copy of a kept event survives
    ensures forall e :: multiset(r)[e] == if Matches(o, now, e) then multiset(events)[e] else 0
  {
    var keep := (e: Event) => Matches(o, now, e);
    Seqs.FilterIsSubsequence(keep, events);
    Seqs.FilterCounts(keep, events);
    Seqs.Filter(keep, events)
  }

  /** Without options nothing is dropped. */
  lemma FilterWithoutOptions(events: seq<Event>, now: int)
    ensures FilterEvents(events, NoOptions, now) == events
  {
    var keep := (e: Event) => Matches(NoOptions, now, e);
    Seqs.FilterAll(keep, events);
  }

  /** Filtering a filtered list again changes nothing. */
  lemma FilterEventsIdempotent(events: seq<Event>, o: FilterOptions, now: int)
    ensures FilterEvents(FilterEvents(events, o, now), o, now) == FilterEvents(events, o, now)
  {
    var once := FilterEvents(events, o, now);
    var keep := (e: Event) => Matches(o, now, e);
    forall i | 0 <= i < |once| ensures keep(once[i]) {
      assert once[i] in once;
    }
    Seqs.FilterAll(keep, once);
  }

  /** A longer window keeps every event a shorter one keeps, as long as the
      shorter window's cutoff is not the instant 0 (a cutoff of 0 counts as
      false and switches the age condition off). */
  lemma WiderWindowKeepsMore(o: FilterOptions, now: int, h1: real, h2: real, e: Event)
    requires 0.0 < h1 <= h2
    requires now as real - h1 * HourMs as real != 0.0
    requires Matches(o.(timeframeHours := Some(Finite(h1))), now, e)
    ensures Matches(o.(timeframeHours := Some(Finite(h2))), now, e)
  {
    var o1 := o.(timeframeHours := Some(Finite(h1)));
    var o2 := o.(timeframeHours := Some(Finite(h2)));
    assert RequestedCategories(o1) == RequestedCategories(o2);
    assert Cutoff(o1, now) == Some(Finite(now as real - h1 * HourMs as real));
    assert Cutoff(o2, now) == Some(Finite(now as real - h2 * HourMs as real));
    assert h1 * HourMs as real <= h2 * HourMs as real;
  }

  // ---------------------------------------------------------------------
  // Grouping
  // ---------------------------------------------------------------------

  /** The events of category `c`, in list order. */
  function EventsIn(events: seq<Event>, c: string): (r: seq<Event>)
    ensures forall x :: x in r <==> x in events && x.category == c
  {
    if |events| == 0 then []
    else
      var init := events[..|events| - 1];
      var e := events[|events| - 1];
      assert events == init + [e];
      EventsIn(init, c) + (if e.category == c then [e] else [])
  }

  /** The bucket of a category is the list filtered by that category. */
  lemma {:induction false} EventsInIsFilter(events: seq<Event>, c: string)
    ensures EventsIn(events, c) == Seqs.Filter((e: Event) => e.category == c, events)
  {
    if |events| > 0 {
      var init := events[..|events| - 1];
      var e := events[|events| - 1];
      assert events == init + [e];
      EventsInIsFilter(init, c);
      Seqs.FilterSnoc((e: Event) => e.category == c, init, e);
    }
  }

  /** `groupEventsByCategory`: one bucket per category present, holding that
      category's events in list order. */
  function GroupEventsByCategory(events: seq<Event>): (r: map<string, seq<Event>>)
    ensures forall c :: c in r <==> EventsIn(events, c) != []
    ensures forall c :: c in r ==> r[c] == EventsIn(events, c)
  {
    if |events| == 0 then map[]
    else
      var init := events[..|events| - 1];
      var e := events[|events| - 1];
      var g := GroupEventsByCategory(init);
      var existing := if e.category in g then g[e.category] else [];
      EventsInLast(events);
      g[e.category := existing + [e]]
  }

  /** A bucket of a list is the bucket of all but its last event, plus the
      last event when it belongs. */
  lemma EventsInLast(events: seq<Event>)
    requires |events| > 0
    ensures forall c :: EventsIn(events, c) ==
              EventsIn(events[..|events| - 1], c) + (if events[|events| - 1].category == c then [events[|events| - 1]] else [])
  {
  }

  /** Every event lands in the bucket of its own category. */
  lemma GroupedEventsPartition(events: seq<Event>, i: nat)
    requires i < |events|
    ensures var g := GroupEventsByCategory(events);
            events[i].category in g && events[i] in g[events[i].category]
  {
    var c := events[i].category;
    assert events[i] in events;
    assert events[i] in EventsIn(events, c);
  }

  /** The sizes of the buckets of the listed categories, added up. */
  function BucketTotal(events: seq<Event>, cs: seq<string>): nat {
    if |cs| == 0 then 0 else |EventsIn(events, cs[0])| + BucketTotal(events, cs[1..])
  }

  /** How often `c` is listed. */
  function Occurrences(cs: seq<string>, c: string): nat {
    if |cs| == 0 then 0 else (if cs[0] == c then 1 else 0) + Occurrences(cs[1..], c)
  }

  /** Grouping loses and duplicates nothing: over any list of distinct
      categories that covers every event's category, the bucket sizes add
      up to the number of events. */
  lemma {:induction false} BucketSizesAddUp(events: seq<Event>, cs: seq<string>)
    requires Seqs.NoDuplicates(cs)
    requires forall i :: 0 <= i < |events| ==> events[i].category in cs
    ensures BucketTotal(events, cs) == |events|
  {
    if |events| == 0 {
      BucketTotalOfNone(cs);
    } else {
      var init := events[..|events| - 1];
      var e := events[|events| - 1];
      assert events == init + [e];
      BucketSizesAddUp(init, cs);
      BucketTotalSnoc(init, e, cs);
      OccursOnce(cs, e.category);
    }
  }

  lemma {:induction false} BucketTotalOfNone(cs: seq<string>)
    ensures BucketTotal([], cs) == 0
  {
    if |cs| > 0 {
      BucketTotalOfNone(cs[1..]);
    }
  }

  lemma {:induction false} BucketTotalSnoc(init: seq<Event>, e: Event, cs: seq<string>)
    ensures BucketTotal(init + [e], cs) == BucketTotal(init, cs) + Occurrences(cs, e.category)
  {
    assert (init + [e])[..|init + [e]| - 1] == init;
    if |cs| > 0 {
      BucketTotalSnoc(init, e, cs[1..]);
    }
  }

  lemma {:induction false} OccursOnce(cs: seq<string>, c: string)
    requires Seqs.NoDuplicates(cs) && c in cs
    ensures Occurrences(cs, c) == 1
  {
    if cs[0] == c {
      OccursNever(cs[1..], c);
    } else {
      OccursOnce(cs[1..], c);
    }
  }

  lemma {:induction false} OccursNever(cs: seq<string>, c: string)
    requires c !in cs
    ensures Occurrences(cs, c) == 0
  {
    if |cs| > 0 {
      OccursNever(cs[1..], c);
    }
  }

  // ---------------------------------------------------------------------
  // Ordering
  // ---------------------------------------------------------------------

  function CreatedKey(e: Event): int {
    e.createdAt.GetOr(0)
  }

  /** `sortEventsByRecency`: newest first; events created at the same
      instant keep their relative order. */
  function SortEventsByRecency(events: seq<Event>): (r: seq<Event>)
    requires forall i :: 0 <= i < |events| ==> HasTime(events[i])
    ensures multiset(r) == multiset(events)
    ensures forall i :: 0 <= i < |r| ==> HasTime(r[i])
    ensures forall i, j :: 0 <= i < j < |r| ==> Time(r[i]) >= Time(r[j])
    ensures forall t :: Sorting.WithKey(r, CreatedKey, t) == Sorting.WithKey(events, CreatedKey, t)
  {
    var r := Sorting.SortDesc(events, CreatedKey);
    forall i | 0 <= i < |r| ensures HasTime(r[i]) {
      assert r[i] in multiset(events);
    }
    r
  }
}

=== FILE: event_search.dfy ===
/** The search box's dropdown: when it is shown, and how the keyboard
    moves the highlighted result among `n` results. */
module EventSearch {

  import opened Wrappers

  /** `showDropdown`: open, and something to show (a search in progress,
      an error message or at least one result). */
  function ShowDropdown(open: bool, loading: bool, error: Option<string>, n: nat): (r: bool)
    ensures r <==> open && (loading || (error.Some? && error.value != "") || n > 0)
  {
    var hasFeedback := loading || (error.Some? && error.value != "") || n > 0;
    open && hasFeedback
  }

  datatype Key = ArrowDown | ArrowUp | Enter | Escape | Other

  /** What a key press does besides moving the highlight. */
  datatype Effect = NoEffect | Select(index: nat) | Collapse

  function Span(n: nat): (m: nat)
    ensures m >= 1 && (n >= 1 ==> m == n)
  {
    if n > 1 then n else 1
  }

  /** `handleKeyDown` with `n` results and highlight `index`: nothing while
      the dropdown is hidden; the arrows move the highlight cyclically;
      Enter selects the highlighted result when it exists; Escape
      collapses. */
  function KeyDown(shown: bool, key: Key, index: nat, n: nat): (r: (nat, Effect))
    ensures !shown ==> r == (index, NoEffect)
    ensures shown && key.ArrowDown? ==> r.0 == (index + 1) % Span(n) && r.1 == NoEffect
    ensures shown && key.ArrowUp? ==> r.0 == (index + Span(n) - 1) % Span(n) && r.1 == NoEffect
    ensures shown && key.Enter? ==> r.0 == index && r.1 == (if index < n then Select(index) else NoEffect)
    ensures shown && key.Escape? ==> r == (index, Collapse)
    ensures shown && key.Other? ==> r == (index, NoEffect)
    ensures r.1.Select? ==> r.1.index < n
  {
    if !shown then (index, NoEffect)
    else
      match key
      case ArrowDown => ((index + 1) % Span(n), NoEffect)
      case ArrowUp => ((index - 1 + Span(n)) % Span(n), NoEffect)
      case Enter => (index, if index < n then Select(index) else NoEffect)
      case Escape => (index, Collapse)
      case Other => (index, NoEffect)
  }

  /** The arrows always leave the highlight within the list (or at 0 when
      it is empty). */
  lemma ArrowsStayInRange(index: nat, n: nat)
    ensures KeyDown(true, ArrowDown, index, n).0 < Span(n)
    ensures KeyDown(true, ArrowUp, index, n).0 < Span(n)
  {
  }

  /** Down then up returns to an in-range highlight, and so does up then
      down. */
  lemma DownThenUp(index: nat, n: nat)
    requires index < Span(n)
    ensures KeyDown(true, ArrowUp, KeyDown(true, ArrowDown, index, n).0, n).0 == index
    ensures KeyDown(true, ArrowDown, KeyDown(true, ArrowUp, index, n).0, n).0 == index
  {
    var m := Span(n);
    var down := KeyDown(true, ArrowDown, index, n).0;
    var up := KeyDown(true, ArrowUp, index, n).0;
    if index + 1 < m {
      ModBelow(index + 1, m);
      ModOneMore(index, m);
    } else {
      ModSelf(m);
      ModBelow(m - 1, m);
    }
    if index >= 1 {
      ModOneMore(index - 1, m);
      ModBelow(index, m);
    } else {
      ModBelow(m - 1, m);
      ModSelf(m);
    }
  }

  lemma ModBelow(x: nat, m: nat)
    requires x < m
    ensures x % m == x
  {
  }

  lemma ModSelf(m: nat)
    requires m >= 1
    ensures m % m == 0
  {
  }

  lemma ModOneMore(x: nat, m: nat)
    requires x < m
    ensures (x + m) % m == x
  {
  }

  /** Pressing down `n` times cycles back to the start. */
  lemma DownCycles(n: nat)
    requires n >= 1
    ensures KeyDown(true, ArrowDown, n - 1, n).0 == 0
  {
  }

  /** The highlight together with the number of results it ranges over. */
  datatype Highlight = Highlight(index: nat, n: nat)

  predicate InRange(h: Highlight) {
    h.index < Span(h.n)
  }

  /** New results: the highlight returns to the first result when their
      number changed, and stays otherwise. */
  function ResultsArrive(h: Highlight, n: nat): (r: Highlight)
    ensures r.n == n
    ensures n != h.n ==> r.index == 0
    ensures n == h.n ==> r == h
  {
    if n != h.n then Highlight(0, n) else h
  }

  /** `handleClear`: the highlight returns to the first result. */
  function ClearHighlight(h: Highlight): (r: Highlight)
    ensures r.index == 0 && r.n == h.n && InRange(r)
  {
    h.(index := 0)
  }

  /** A key press on the dropdown, as a step of the highlight. */
  function Press(h: Highlight, shown: bool, key: Key): (r: Highlight)
    ensures r.n == h.n
  {
    h.(index := KeyDown(shown, key, h.index, h.n).0)
  }

  /** Every step keeps the highlight within the results. */
  lemma HighlightStaysInRange(h: Highlight, shown: bool, key: Key, n: nat)
    requires InRange(h)
    ensures InRange(Press(h, shown, key))
    ensures InRange(ResultsArrive(h, n))
  {
  }
}

=== FILE: event_transformer.dfy ===
/** `mapEventRowToEvent`: a database row of the events table, whose
    optional columns may be null, becomes a client event with defaults in
    place of the nulls.  `created_at` is carried as its parse result. */
module EventTransformer {

  import opened Wrappers
  import opened Domain

  datatype EventRow = EventRow(
    id: string,
    title: string,
    description: Option<string>,
    category: string,
    subcategory: Option<string>,
    lat: real,
    lng: real,
    address: Option<string>,
    createdAt: Option<int>,
    imageUrl: Option<string>,
    verificationCount: Option<int>,
    isActive: Option<bool>,
    radiusMeters: Option<real>)

  /** The event of a row: identity, title, category, time and coordinates
      copied; a null description or address read as empty, a null count as
      0, a null active flag as true; absent optional fields stay absent. */
  function MapRow(row: EventRow): (e: Event)
    ensures e.id == row.id && e.title == row.title && e.category == row.category
    ensures e.createdAt == row.createdAt && e.location == Location(row.lat, row.lng)
    ensures e.description == (if row.description.Some? then row.description.value else "")
    ensures e.address == (if row.address.Some? then row.address.value else "")
    ensures e.verificationCount == (if row.verificationCount.Some? then row.verificationCount.value else 0)
    ensures e.isActive <==> row.isActive != Some(false)
    ensures e.subcategory == row.subcategory && e.imageUrl == row.imageUrl && e.radiusMeters == row.radiusMeters
  {
    Event(
      row.id,
      row.title,
      row.description.GetOr(""),
      row.category,
      row.subcategory,
      Location(row.lat, row.lng),
      row.address.GetOr(""),
      row.createdAt,
      row.imageUrl,
      row.verificationCount.GetOr(0),
      row.isActive.GetOr(true),
      row.radiusMeters)
  }

  /** The row a fully populated event is stored as. */
  function RowOf(e: Event): (row: EventRow)
    ensures row.description.Some? && row.address.Some? && row.verificationCount.Some? && row.isActive.Some?
  {
    EventRow(e.id, e.title, Some(e.description), e.category, e.subcategory,
             e.location.lat, e.location.lng, Some(e.address), e.createdAt,
             e.imageUrl, Some(e.verificationCount), Some(e.isActive), e.radiusMeters)
  }

  /** Storing an event and mapping it back gives the event. */
  lemma MapRowOfStored(e: Event)
    ensures MapRow(RowOf(e)) == e
  {
  }

  /** A null column means the same as its default written out. */
  function WithDefaults(row: EventRow): (r: EventRow)
    ensures r.description.Some? && r.address.Some? && r.verificationCount.Some? && r.isActive.Some?
  {
    row.(description := Some(row.description.GetOr("")),
         address := Some(row.address.GetOr("")),
         verificationCount := Some(row.verificationCount.GetOr(0)),
         isActive := Some(row.isActive.GetOr(true)))
  }

  lemma NullsReadAsDefaults(row: EventRow)
    ensures MapRow(WithDefaults(row)) == MapRow(row)
    ensures RowOf(MapRow(row)) == WithDefaults(row)
  {
  }

  /** `rows.map(mapEventRowToEvent)`. */
  function MapRows(rows: seq<EventRow>): (r: seq<Event>)
    ensures |r| == |rows|
    ensures forall i :: 0 <= i < |r| ==> r[i] == MapRow(rows[i])
  {
    seq(|rows|, i requires 0 <= i < |rows| => MapRow(rows[i]))
  }
}

=== FILE: events_store.dfy ===
/** The client-side event store: the list of events kept newest first,
    its upsert and removal operations, the optimistic verification with
    rollback, and the reconnection schedule of its realtime feed.  The
    database write's outcome is a parameter. */
module EventsStore {

  import opened Wrappers
  import opened Domain
  import Seqs
  import Sorting
  import Backoff

  datatype Store = Store(events: seq<Event>, error: Option<string>)

  const VerifyFailed := "Failed to verify event. Please try again."

  function CreatedKey(e: Event): int {
    e.createdAt.GetOr(0)
  }

  ghost predicate AllTimed(events: seq<Event>) {
    forall i :: 0 <= i < |events| ==> HasTime(events[i])
  }

  ghost predicate NewestFirst(events: seq<Event>)
    requires AllTimed(events)
  {
    forall i, j :: 0 <= i < j < |events| ==> Time(events[i]) >= Time(events[j])
  }
  /** The stable newest-first sort the store applies after every upsert. */
  function SortNewestFirst(events: seq<Event>): (r: seq<Event>)
    requires AllTimed(events)
    ensures multiset(r) == multiset(events) && |r| == |events|
    ensures AllTimed(r) && NewestFirst(r)
    ensures forall t :: Sorting.WithKey(r, CreatedKey, t) == Sorting.WithKey(events, CreatedKey, t)
  {
    var r := Sorting.SortDesc(events, CreatedKey);
    forall i | 0 <= i < |r| ensures HasTime(r[i]) {
      assert r[i] in multiset(events);
    }
    r
  }

  /** `upsertEvent`: an unseen id is added; a known id has its first
      occurrence replaced.  The list is then re-sorted newest first. */
  function UpsertEvent(events: seq<Event>, e: Event): (r: seq<Event>)
    requires AllTimed(events) && HasTime(e)
    ensures AllTimed(r) && NewestFirst(r)
    ensures e in r
    ensures FindIndex(events, e.id).None? ==> |r| == |events| + 1 && multiset(r) == multiset(events) + multiset{e}
    ensures FindIndex(events, e.id).Some? ==>
              |r| == |events| && multiset(r) == multiset(events[FindIndex(events, e.id).value := e])
  {
    match FindIndex(events, e.id)
    case None =>
      var r := SortNewestFirst([e] + events);
      assert e in multiset(r);
      r
    case Some(i) =>
      var replaced := events[i := e];
      assert replaced[i] == e;
      var r := SortNewestFirst(replaced);
      assert e in multiset(replaced);
      r
  }

  ghost predicate UniqueIds(events: seq<Event>) {
    forall i, j :: 0 <= i < j < |events| ==> events[i].id != events[j].id
  }

  /** With distinct ids, upserting the same event twice is upserting it
      once. */
  lemma UpsertIdempotent(events: seq<Event>, e: Event)
    requires AllTimed(events) && HasTime(e) && UniqueIds(events)
    ensures UpsertEvent(UpsertEvent(events, e), e) == UpsertEvent(events, e)
  {
    var r1 := UpsertEvent(events, e);
    forall x | x in r1 && x.id == e.id ensures x == e {
      UpsertOnlyCopy(events, e, x);
    }
    var i := FindIndex(r1, e.id).value;
    assert r1[i] in r1;
    assert r1[i := e] == r1;
    assert Sorting.SortedDesc(r1, CreatedKey);
    Sorting.SortDescOfSorted(r1, CreatedKey);
  }

  /** With distinct ids, the upserted event is the only one with its id. */
  lemma UpsertOnlyCopy(events: seq<Event>, e: Event, x: Event)
    requires AllTimed(events) && HasTime(e) && UniqueIds(events)
    requires x in UpsertEvent(events, e) && x.id == e.id
    ensures x == e
  {
    var r1 := UpsertEvent(events, e);
    assert x in multiset(r1);
    match FindIndex(events, e.id)
    case None =>
      AddedOnlyCopy(events, e, x);
    case Some(idx) =>
      ReplacedOnlyCopy(events, idx, e, x);
  }

  /** An event added under a fresh id is the only one with that id. */
  lemma AddedOnlyCopy(events: seq<Event>, e: Event, x: Event)
    requires forall k :: 0 <= k < |events| ==> events[k].id != e.id
    requires x in multiset(events) + multiset{e} && x.id == e.id
    ensures x == e
  {
    assert x in multiset(events) <==> x in events;
  }

  /** With distinct ids, an event written over the one with its id is the
      only one with that id. */
  lemma ReplacedOnlyCopy(events: seq<Event>, idx: nat, e: Event, x: Event)
    requires UniqueIds(events) && idx < |events| && events[idx].id == e.id
    requires x in multiset(events[idx := e]) && x.id == e.id
    ensures x == e
  {
    var replaced := events[idx := e];
    assert x in replaced;
    assert forall k :: 0 <= k < |replaced| && k != idx ==> replaced[k].id != e.id;
  }

  /** `removeEvent`: every event with that id goes; the rest keep their
      order. */
  function RemoveEvent(events: seq<Event>, id: string): (r: seq<Event>)
    ensures Seqs.IsSubsequence(r, events)
    ensures forall x :: x in r <==> x in events && x.id != id
    ensures forall x :: multiset(r)[x] == if x.id != id then multiset(events)[x] else 0
  {
    var keep := (x: Event) => x.id != id;
    Seqs.FilterIsSubsequence(keep, events);
    Seqs.FilterCounts(keep, events);
    Seqs.Filter(keep, events)
  }

  /** Removing an id that is absent changes nothing. */
  lemma RemoveAbsent(events: seq<Event>, id: string)
    requires forall k :: 0 <= k < |events| ==> events[k].id != id
    ensures RemoveEvent(events, id) == events
  {
    Seqs.FilterAll((x: Event) => x.id != id, events);
  }

  /** Every event with the id gets `count`; all others are untouched. */
  function SetCount(events: seq<Event>, id: string, count: int): (r: seq<Event>)
    ensures |r| == |events|
    ensures forall k :: 0 <= k < |events| && events[k].id == id ==> r[k] == events[k].(verificationCount := count)
    ensures forall k :: 0 <= k < |events| && events[k].id != id ==> r[k] == events[k]
  {
    seq(|events|, k requires 0 <= k < |events| =>
      if events[k].id == id then events[k].(verificationCount := count) else events[k])
  }

  /** The optimistic step of `verifyEvent`: nothing for an unknown id;
      otherwise the error is cleared and every event with the id shows the
      first match's count plus one.  Returns the new store and that count. */
  function OptimisticVerify(s: Store, id: string): (r: (Store, int))
    ensures FindIndex(s.events, id).None? ==> r.0 == s
    ensures FindIndex(s.events, id).Some? ==>
              && r.1 == s.events[FindIndex(s.events, id).value].verificationCount + 1
              && r.0 == Store(SetCount(s.events, id, r.1), None)
  {
    match FindIndex(s.events, id)
    case None => (s, 1)
    case Some(i) =>
      var next := s.events[i].verificationCount + 1;
      (Store(SetCount(s.events, id, next), None), next)
  }

  /** The rollback after a failed write: every event with the id shows one
      less than the optimistic count, and the error is set. */
  function RollbackVerify(s: Store, id: string, next: int): (r: Store)
    ensures r.error == Some(VerifyFailed)
    ensures r.events == SetCount(s.events, id, next - 1)
  {
    Store(SetCount(s.events, id, next - 1), Some(VerifyFailed))
  }

  /** `verifyEvent`, with the write's outcome as `writeOk`. */
  function VerifyEvent(s: Store, id: string, writeOk: bool): (r: Store)
    ensures FindIndex(s.events, id).None? ==> r == s
    ensures FindIndex(s.events, id).Some? && writeOk ==> r.error.None?
    ensures FindIndex(s.events, id).Some? && !writeOk ==> r.error == Some(VerifyFailed)
    ensures |r.events| == |s.events|
  {
    match FindIndex(s.events, id)
    case None => s
    case Some(_) =>
      var (optimistic, next) := OptimisticVerify(s, id);
      if writeOk then optimistic else RollbackVerify(optimistic, id, next)
  }

  /** A successful verification raises the count of the verified event by
      one and leaves every other event as it was. */
  lemma VerifySucceeds(s: Store, id: string, k: nat)
    requires FindIndex(s.events, id) == Some(k)
    ensures VerifyEvent(s, id, true).events[k].verificationCount == s.events[k].verificationCount + 1
    ensures forall j :: 0 <= j < |s.events| && s.events[j].id != id ==> VerifyEvent(s, id, true).events[j] == s.events[j]
  {
  }

  /** A failed verification restores the events when the id is unique. */
  lemma FailedVerifyRestores(s: Store, id: string)
    requires FindIndex(s.events, id).Some?
    requires forall j, k :: 0 <= j < k < |s.events| ==> s.events[j].id != s.events[k].id
    ensures VerifyEvent(s, id, false).events == s.events
  {
    var i := FindIndex(s.events, id).value;
    var r := VerifyEvent(s, id, false).events;
    forall j | 0 <= j < |s.events| ensures r[j] == s.events[j] {
      if s.events[j].id == id {
        assert j == i;
      }
    }
  }

  // ---------------------------------------------------------------------
  // Realtime reconnection
  // ---------------------------------------------------------------------

  const BaseRetryDelay := 1000
  const MaxRetryDelay := 30000

  datatype Retry = Retry(attempt: nat, shouldRetry: bool)

  /** `scheduleRetry`: when retrying is on, the delay for the current
      attempt (`None` when no retry is scheduled) and the next attempt. */
  function ScheduleRetry(r: Retry): (out: (Option<nat>, Retry))
    ensures !r.shouldRetry ==> out == (None, r)
    ensures r.shouldRetry ==> out.1 == r.(attempt := r.attempt + 1)
    ensures r.shouldRetry ==> out.0 == Some(Backoff.Delay(BaseRetryDelay, MaxRetryDelay, r.attempt))
    ensures out.0.Some? ==> out.0.value <= MaxRetryDelay
  {
    if !r.shouldRetry then (None, r)
    else (Some(Backoff.Delay(BaseRetryDelay, MaxRetryDelay, r.attempt)), r.(attempt := r.attempt + 1))
  }

  /** A `SUBSCRIBED` status restarts the schedule. */
  function OnSubscribed(r: Retry): (out: Retry)
    ensures out.attempt == 0 && out.shouldRetry == r.shouldRetry
  {
    r.(attempt := 0)
  }

  /** `subscribeToRealtime`: nothing while subscribed; with a channel
      already open, only turn retrying on; otherwise turn it on, restart
      from attempt 0 and open a channel.  Returns the schedule and whether
      a channel is opened. */
  function Subscribe(r: Retry, subscribed: bool, channelOpen: bool): (out: (Retry, bool))
    ensures subscribed ==> out == (r, false)
    ensures !subscribed ==> out.0.shouldRetry
    ensures out.1 <==> !subscribed && !channelOpen
    ensures out.1 ==> out.0.attempt == 0
    ensures !out.1 ==> out.0.attempt == r.attempt
  {
    if subscribed then (r, false)
    else if channelOpen then (r.(shouldRetry := true), false)
    else (Retry(0, true), true)
  }

  /** `unsubscribeFromRealtime`: retrying is turned off; the attempt count
      restarts only when a channel was open. */
  function Unsubscribe(r: Retry, channelOpen: bool): (out: Retry)
    ensures !out.shouldRetry
    ensures channelOpen ==> out.attempt == 0
    ensures !channelOpen ==> out.attempt == r.attempt
  {
    if channelOpen then Retry(0, false) else r.(shouldRetry := false)
  }

  /** After unsubscribing no retry is ever scheduled. */
  lemma NoRetryAfterUnsubscribe(r: Retry, channelOpen: bool)
    ensures ScheduleRetry(Unsubscribe(r, channelOpen)).0.None?
  {
  }

  /** Successive failures wait 1, 2, 4, 8 and 16 seconds, then 30 seconds
      from the sixth attempt on. */
  lemma RetrySchedule(a: nat)
    ensures a <= 4 ==> Backoff.Delay(BaseRetryDelay, MaxRetryDelay, a) == 1000 * Backoff.Pow2(a)
    ensures a >= 5 ==> Backoff.Delay(BaseRetryDelay, MaxRetryDelay, a) == MaxRetryDelay
  {
    if a >= 5 {
      Backoff.Pow2Monotone(5, a);
      assert Backoff.Pow2(5) == 32;
    } else {
      Backoff.Pow2Monotone(a, 4);
      assert Backoff.Pow2(4) == 16;
    }
  }

  /** Each failure waits at least as long as the one before. */
  lemma RetryNeverShrinks(r: Retry)
    requires r.shouldRetry
    ensures ScheduleRetry(r).0.value <= ScheduleRetry(ScheduleRetry(r).1).0.value
  {
    Backoff.DelayMonotone(BaseRetryDelay, MaxRetryDelay, r.attempt, r.attempt + 1);
  }
}

=== FILE: extract_query.dfy ===
/** Deriving search filters for the safety advisor from a chat request:
    the fallback filters taken from the request alone, and the
    post-processing of the filter object a language model returns.  The
    model call itself and `JSON.parse` with the schema validation are
    parameters: the call as its outcome, the parse as a function from text
    to the validated fields (`None` when the text is not JSON or the schema
    rejects it). */
module ExtractQuery {

  import opened Wrappers
  import opened Text
  import opened JsNumbers
  import Domain
  import Seqs

  /** The advisor request fields the extraction reads. */
  datatype Payload = Payload(
    requestType: string,
    userQuery: string,
    areaName: Option<string>,
    timeframeMonths: Option<JsNumber>,
    coordinates: Option<Domain.Location>)

  /** `SafetyQueryFilters`. */
  datatype Filters = Filters(
    timeframeMonths: Option<int>,
    categories: seq<string>,
    locationKeywords: seq<string>,
    radiusMeters: Option<int>,
    coordinates: Option<Domain.Location>,
    summary: string)

  /** The fields of a filter object that passed the schema; an absent or
      `null` field is `None` (the application reads them only through `??`). */
  datatype FilterData = FilterData(
    timeframeMonths: Option<int>,
    categories: Option<seq<string>>,
    locationKeywords: Option<seq<string>>,
    radiusMeters: Option<int>,
    coordinates: Option<Domain.Location>,
    summary: Option<string>)

  /** What the schema admits: whole months 1..24, at most five known
      categories, at most six keywords of 2..60 UTF-16 code units, a whole
      radius 1..25000 and a summary of 1..400 code units. */
  ghost predicate SchemaValid(d: FilterData) {
    && (d.timeframeMonths.Some? ==> 1 <= d.timeframeMonths.value <= 24)
    && (d.categories.Some? ==>
          && |d.categories.value| <= 5
          && forall i :: 0 <= i < |d.categories.value| ==> d.categories.value[i] in Domain.Categories)
    && (d.locationKeywords.Some? ==>
          && |d.locationKeywords.value| <= 6
          && forall i :: 0 <= i < |d.locationKeywords.value| ==> 2 <= Utf16Length(d.locationKeywords.value[i]) <= 60)
    && (d.radiusMeters.Some? ==> 1 <= d.radiusMeters.value <= 25000)
    && (d.summary.Some? ==> 1 <= Utf16Length(d.summary.value) <= 400)
  }

  /** The outcome of the model call: it threw, or it answered with a text
      (empty when the response carried none). */
  datatype Generation = CallFailed | Answered(text: string)

  datatype Role = User | Assistant

  datatype ChatMessage = ChatMessage(role: Role, content: string)

  // The summary texts below are written as a short opening literal plus
  // the rest, so that the verifier reads their first character from a
  // short literal; the concatenation is the application's text.
  const DefaultSummary: string := "No additional " + "filters were derived; using defaults from the request."
  const CoordinatesPhrase: string := "Using provided " + "coordinates as the central point."

  const MinMonths: int := 1
  const MaxMonths: int := 24
  const MinRadius: int := 50
  const MaxRadius: int := 25000

  // ---------------------------------------------------------------------
  // Normalisation of individual fields
  // ---------------------------------------------------------------------

  /** `normalizeTimeframe`: no value for a missing or `NaN` month count,
      otherwise the count rounded to a whole month and clamped to 1..24. */
  function NormalizeTimeframe(t: Option<JsNumber>): (r: Option<int>)
    ensures r.None? <==> t.None? || t.value.NaN?
    ensures r.Some? ==> MinMonths <= r.value <= MaxMonths
    ensures t.Some? && t.value.Finite? && 0.5 <= t.value.value < 24.5 ==>
              r.Some? && r.value as real - 0.5 <= t.value.value < r.value as real + 0.5
    ensures t.Some? && t.value.Finite? && t.value.value < 0.5 ==> r == Some(MinMonths)
    ensures t.Some? && t.value.Finite? && t.value.value >= 24.5 ==> r == Some(MaxMonths)
    ensures t == Some(Infinity(true)) ==> r == Some(MaxMonths)
    ensures t == Some(Infinity(false)) ==> r == Some(MinMonths)
  {
    match t
    case None => None
    case Some(NaN) => None
    case Some(Infinity(positive)) => Some(if positive then MaxMonths else MinMonths)
    case Some(Finite(x)) => Some(ClampInt(Round(x), MinMonths, MaxMonths))
  }

  /** A normalised month count is a fixed point of the normalisation. */
  lemma NormalizeTimeframeIdempotent(t: Option<JsNumber>)
    ensures var n := NormalizeTimeframe(t);
            n.Some? ==> NormalizeTimeframe(Some(Finite(n.value as real))) == n
  {
  }

  /** A whole month count is only clamped. */
  lemma NormalizeWholeMonths(n: int)
    ensures NormalizeTimeframe(Some(Finite(n as real))) == Some(ClampInt(n, MinMonths, MaxMonths))
  {
    assert Round(n as real) == n;
  }

  /** `dedupeCategories`: the known categories of the input, each once, in
      the order of their first occurrence. */
  function DedupeCategories(categories: seq<string>): (r: seq<string>)
    ensures Seqs.NoDuplicates(r)
    ensures forall c :: c in r <==> c in categories && c in Domain.Categories
    ensures forall i, j :: 0 <= i < j < |r| ==>
              r[i] in categories && r[j] in categories
              && Seqs.IndexOf(categories, r[i]) < Seqs.IndexOf(categories, r[j])
  {
    var known := Seqs.Filter((c: string) => c in Domain.Categories, categories);
    var r := Seqs.Dedupe(known);
    forall i, j | 0 <= i < j < |r|
      ensures Seqs.IndexOf(categories, r[i]) < Seqs.IndexOf(categories, r[j])
    {
      Seqs.FilterIndexOrder((c: string) => c in Domain.Categories, categories, r[i], r[j]);
    }
    r
  }

  /** A list of distinct known categories, such as the schema-valid answer
      of the model with no repetition, passes through unchanged. */
  lemma DedupeCategoriesOfValid(categories: seq<string>)
    requires Seqs.NoDuplicates(categories)
    requires forall i :: 0 <= i < |categories| ==> categories[i] in Domain.Categories
    ensures DedupeCategories(categories) == categories
  {
    var p := (c: string) => c in Domain.Categories;
    Seqs.FilterAll(p, categories);
    Seqs.DedupeOfDistinct(categories);
  }

  /** A keyword of 2..60 UTF-16 code units. */
  predicate KeywordLength(s: string) {
    2 <= Utf16Length(s) <= 60
  }

  function TrimAll(values: seq<string>): (r: seq<string>)
    ensures |r| == |values|
    ensures forall k :: 0 <= k < |values| ==> r[k] == Trim(values[k])
  {
    if |values| == 0 then [] else [Trim(values[0])] + TrimAll(values[1..])
  }

  /** `dedupeStrings`: the trimmed values of 2..60 code units, each once,
      in the order of their first occurrence. */
  function DedupeStrings(values: seq<string>): (r: seq<string>)
    ensures Seqs.NoDuplicates(r)
    ensures forall x :: x in r <==> KeywordLength(x) && exists k :: 0 <= k < |values| && Trim(values[k]) == x
    ensures forall i :: 0 <= i < |r| ==> KeywordLength(r[i]) && IsTrimmed(r[i])
    ensures forall i, j :: 0 <= i < j < |r| ==>
              r[i] in TrimAll(values) && r[j] in TrimAll(values)
              && Seqs.IndexOf(TrimAll(values), r[i]) < Seqs.IndexOf(TrimAll(values), r[j])
  {
    var trimmed := TrimAll(values);
    var r := Seqs.Dedupe(Seqs.Filter(KeywordLength, trimmed));
    KeywordsAreTrimmed(values, trimmed, r);
    KeywordsComplete(values, trimmed, r);
    forall i, j | 0 <= i < j < |r|
      ensures Seqs.IndexOf(trimmed, r[i]) < Seqs.IndexOf(trimmed, r[j])
    {
      Seqs.FilterIndexOrder(KeywordLength, trimmed, r[i], r[j]);
    }
    r
  }

  lemma KeywordsAreTrimmed(values: seq<string>, trimmed: seq<string>, r: seq<string>)
    requires trimmed == TrimAll(values)
    requires forall x :: x in r ==> x in trimmed && KeywordLength(x)
    ensures forall i :: 0 <= i < |r| ==> KeywordLength(r[i]) && IsTrimmed(r[i])
  {
    forall i | 0 <= i < |r| ensures KeywordLength(r[i]) && IsTrimmed(r[i]) {
      assert r[i] in trimmed;
      var k :| 0 <= k < |trimmed| && trimmed[k] == r[i];
    }
  }

  lemma KeywordsComplete(values: seq<string>, trimmed: seq<string>, r: seq<string>)
    requires trimmed == TrimAll(values)
    requires forall x :: x in r <==> x in trimmed && KeywordLength(x)
    ensures forall x :: x in r <==> KeywordLength(x) && exists k :: 0 <= k < |values| && Trim(values[k]) == x
  {
    forall x | KeywordLength(x) && (exists k :: 0 <= k < |values| && Trim(values[k]) == x)
      ensures x in r
    {
      var k :| 0 <= k < |values| && Trim(values[k]) == x;
      assert trimmed[k] == x;
    }
  }

  /** `radiusMeters` of the answer clamped to 50..25000 metres. */
  function ClampRadius(radius: Option<int>): (r: Option<int>)
    ensures r.Some? <==> radius.Some?
    ensures r.Some? ==> MinRadius <= r.value <= MaxRadius
    ensures radius.Some? && MinRadius <= radius.value <= MaxRadius ==> r == radius
  {
    match radius
    case None => None
    case Some(m) => Some(ClampInt(m, MinRadius, MaxRadius))
  }

  // ---------------------------------------------------------------------
  // Unwrapping a fenced answer
  // ---------------------------------------------------------------------

  /** The characters of `[a-zA-Z0-9-]`. */
  predicate IsLangChar(c: char) {
    ('a' <= c <= 'z') || ('A' <= c <= 'Z') || ('0' <= c <= '9') || c == '-'
  }

  /** Drops the longest prefix of language-tag characters. */
  function DropLangTag(s: string): (r: string)
    ensures |r| <= |s| && r == s[|s| - |r|..]
    ensures forall k :: 0 <= k < |s| - |r| ==> IsLangChar(s[k])
    ensures r == [] || !IsLangChar(r[0])
  {
    if |s| > 0 && IsLangChar(s[0]) then
      var r := DropLangTag(s[1..]);
      assert forall k :: 1 <= k < |s| - |r| ==> s[k] == s[1..][k - 1];
      r
    else
      s
  }

  const Fence: string := "```"

  /** The two replacements `/^```[a-zA-Z0-9-]*\s*\/` and `/```$/` on a text
      that starts with a fence. */
  function StripFences(t: string): (r: string)
    requires StartsWith(t, Fence)
    ensures |r| <= |t| - 3
  {
    DropClosingFence(TrimStart(DropLangTag(t[3..])))
  }

  /** `/```$/` replaced by nothing. */
  function DropClosingFence(u: string): (r: string)
    ensures |r| <= |u|
    ensures EndsWith(u, Fence) ==> u == r + Fence
    ensures !EndsWith(u, Fence) ==> r == u
  {
    if EndsWith(u, Fence) then u[..|u| - 3] else u
  }

  /** `coerceJsonString`: the trimmed answer, without a surrounding code
      fence when it starts with one. */
  function CoerceJsonString(raw: string): (r: string)
    ensures IsTrimmed(r)
    ensures !StartsWith(Trim(raw), Fence) ==> r == Trim(raw)
    ensures |r| <= |raw|
  {
    var trimmed := Trim(raw);
    if StartsWith(trimmed, Fence) then
      Trim(StripFences(trimmed))
    else
      trimmed
  }

  /** A JSON body the model wrapped in a fenced block with a language tag
      comes back out exactly. */
  lemma FencedAnswerRoundTrip(lang: string, body: string)
    requires forall k :: 0 <= k < |lang| ==> IsLangChar(lang[k])
    requires IsTrimmed(body)
    ensures CoerceJsonString(Fence + lang + "\n" + body + "\n" + Fence) == body
  {
    var tail := ['\n'] + ((body + ['\n']) + Fence);
    BlockTail(body);
    CoerceFenced(lang, tail);
    UnwrapBlock(body);
    FencedLayout(lang, body);
  }

  /** What follows the tag starts with a line break and ends with the
      closing fence. */
  lemma BlockTail(body: string)
    ensures var tail := ['\n'] + ((body + ['\n']) + Fence);
            tail != [] && tail[0] == '\n' && EndsWith(tail, Fence)
  {
    var tail := ['\n'] + ((body + ['\n']) + Fence);
    assert tail[|tail| - 3..] == Fence;
  }

  /** Unwrapping a fenced answer reduces to trimming what follows the tag. */
  lemma CoerceFenced(lang: string, tail: string)
    requires forall k :: 0 <= k < |lang| ==> IsLangChar(lang[k])
    requires tail != [] && tail[0] == '\n' && EndsWith(tail, Fence)
    ensures CoerceJsonString((Fence + lang) + tail) == Trim(DropClosingFence(TrimStart(tail)))
  {
    StripFencesAfterTag(lang, tail);
    RawIsTrimmed(Fence + lang, tail);
    CoerceOfFenced((Fence + lang) + tail);
  }

  /** A trimmed answer that opens with a fence loses its fences and is
      trimmed again. */
  lemma CoerceOfFenced(raw: string)
    requires Trim(raw) == raw && StartsWith(raw, Fence)
    ensures CoerceJsonString(raw) == Trim(StripFences(raw))
  {
  }

  /** What follows the tag, trimmed and without its closing fence, is the
      body. */
  lemma UnwrapBlock(body: string)
    requires IsTrimmed(body)
    ensures Trim(DropClosingFence(TrimStart(['\n'] + ((body + ['\n']) + Fence)))) == body
  {
    var line := body + ['\n'];
    TrimStartOfBlock(body);
    var stripped := DropClosingFence(TrimStart(['\n'] + (line + Fence)));
    if body != [] {
      DropClosingFenceOf(line);
      assert stripped == line;
      TrimTrailingNewline(body);
    } else {
      DropClosingFenceOf([]);
      assert [] + Fence == Fence;
      assert stripped == [];
      assert TrimStart([]) == [];
    }
  }

  /** The fenced answer split at the language tag. */
  lemma FencedLayout(lang: string, body: string)
    ensures Fence + lang + "\n" + body + "\n" + Fence
            == (Fence + lang) + (['\n'] + ((body + ['\n']) + Fence))
  {
  }

  /** A text between two fences is its own trimmed form. */
  lemma RawIsTrimmed(head: string, tail: string)
    requires StartsWith(head, Fence) && EndsWith(tail, Fence)
    ensures Trim(head + tail) == head + tail
  {
    var raw := head + tail;
    assert raw[0] == head[0] == Fence[0];
    assert raw[|raw| - 1] == tail[|tail| - 1] == Fence[2];
    TrimOfTrimmed(raw);
  }

  lemma StripFencesAfterTag(lang: string, rest: string)
    requires forall k :: 0 <= k < |lang| ==> IsLangChar(lang[k])
    requires rest != [] && !IsLangChar(rest[0])
    ensures StartsWith(Fence + lang + rest, Fence)
    ensures StripFences(Fence + lang + rest) == DropClosingFence(TrimStart(rest))
  {
    var t := Fence + lang + rest;
    assert t[..3] == Fence;
    assert t[3..] == lang + rest;
    DropLangTagPrefix(lang, rest);
  }

  /** After the tag, the line break before the body is trimmed away. */
  lemma TrimStartOfBlock(body: string)
    requires IsTrimmed(body)
    ensures TrimStart(['\n'] + ((body + ['\n']) + Fence))
            == if body == [] then Fence else (body + ['\n']) + Fence
  {
    if body != [] {
      TrimStartOfLine(body + ['\n']);
    } else {
      assert (body + ['\n']) + Fence == ['\n'] + Fence;
      TrimStartWhitespaceCons('\n', Fence);
      assert Fence[0] == '`';
      TrimStartNoWhitespace(Fence);
    }
  }

  /** A line break before text that does not start with whitespace is
      trimmed away, and nothing more. */
  lemma TrimStartOfLine(line: string)
    requires line != [] && !IsWhitespace(line[0])
    ensures TrimStart(['\n'] + (line + Fence)) == line + Fence
  {
    TrimStartWhitespaceCons('\n', line + Fence);
    assert (line + Fence)[0] == line[0];
    TrimStartNoWhitespace(line + Fence);
  }

  lemma DropClosingFenceOf(x: string)
    ensures DropClosingFence(x + Fence) == x
  {
    assert (x + Fence)[|x|..] == Fence;
    assert (x + Fence)[..|x|] == x;
  }

  lemma {:induction false} DropLangTagPrefix(lang: string, rest: string)
    requires forall k :: 0 <= k < |lang| ==> IsLangChar(lang[k])
    requires rest != [] && !IsLangChar(rest[0])
    ensures DropLangTag(lang + rest) == rest
  {
    if |lang| > 0 {
      assert (lang + rest)[1..] == lang[1..] + rest;
      DropLangTagPrefix(lang[1..], rest);
    }
  }

  lemma TrimTrailingNewline(body: string)
    requires IsTrimmed(body) && body != []
    ensures Trim(body + ['\n']) == body
  {
    var s := body + ['\n'];
    assert !IsWhitespace(body[0]) && !IsWhitespace(body[|body| - 1]);
    assert TrimStart(s) == s;
    TrimEndWhitespaceSnoc(body, '\n');
    assert TrimEnd(body) == body;
  }

  // ---------------------------------------------------------------------
  // Summaries
  // ---------------------------------------------------------------------

  /** A month count that counts as true. */
  predicate TruthyMonths(t: Option<JsNumber>) {
    t.Some? && Truthy(t.value)
  }

  /** The month count as `${...}` prints it. */
  function MonthsText(t: Option<int>): string {
    match t
    case Some(n) => IntToString(n)
    case None => "null"
  }

  /** A summary sentence: non-empty and, unlike the default text, not
      starting with `N`. */
  predicate Sentence(s: string) {
    |s| > 0 && s[0] != 'N'
  }

  predicate AllSentences(parts: seq<string>) {
    forall k :: 0 <= k < |parts| ==> Sentence(parts[k])
  }

  lemma AllSentencesConcat(a: seq<string>, b: seq<string>)
    requires AllSentences(a) && AllSentences(b)
    ensures AllSentences(a + b)
  {
    forall k | 0 <= k < |a + b| ensures Sentence((a + b)[k]) {
      if k >= |a| {
        assert (a + b)[k] == b[k - |a|];
      }
    }
  }

  /** Parts joined with single spaces, or the default text when there are
      none. */
  function JoinOrDefault(parts: seq<string>): (r: string)
    requires AllSentences(parts)
    ensures |parts| == 0 <==> r == DefaultSummary
    ensures |parts| > 0 ==> r == Join(parts, " ") && StartsWith(r, parts[0])
  {
    if |parts| == 0 then DefaultSummary
    else
      JoinStartsWith(parts, " ");
      var r := Join(parts, " ");
      assert Sentence(parts[0]);
      assert r[0] == parts[0][0];
      r
  }

  /** The fallback's timeframe sentence. */
  function TimeframePhrase(t: Option<JsNumber>): (r: string)
    ensures Sentence(r)
  {
    "Timeframe " + "limited to the last " + MonthsText(NormalizeTimeframe(t)) + " months."
  }

  /** `buildFallbackSummary`: the timeframe sentence when the month count is
      truthy, then the coordinates sentence when coordinates are given,
      separated by a space; the default text when neither applies. */
  function BuildFallbackSummary(p: Payload): (r: string)
    ensures r == DefaultSummary <==> !TruthyMonths(p.timeframeMonths) && p.coordinates.None?
    ensures TruthyMonths(p.timeframeMonths) && p.coordinates.None? ==> r == TimeframePhrase(p.timeframeMonths)
    ensures TruthyMonths(p.timeframeMonths) && p.coordinates.Some? ==>
              r == TimeframePhrase(p.timeframeMonths) + " " + CoordinatesPhrase
    ensures !TruthyMonths(p.timeframeMonths) && p.coordinates.Some? ==> r == CoordinatesPhrase
  {
    var months := Optional(TruthyMonths(p.timeframeMonths), TimeframePhrase(p.timeframeMonths));
    var coords := Optional(p.coordinates.Some?, CoordinatesPhrase);
    assert Sentence(CoordinatesPhrase);
    AllSentencesConcat(months, coords);
    var parts := months + coords;
    assert |parts| == 2 ==> parts[1..] == coords && Join(parts[1..], " ") == CoordinatesPhrase;
    assert |parts| == 1 ==> parts[0] == (if |months| == 1 then months[0] else coords[0]);
    JoinOrDefault(parts)
  }

  /** No sentence when `b` is false, else the one sentence `s`. */
  function Optional(b: bool, s: string): (r: seq<string>)
    ensures |r| == Ind(b)
    ensures b ==> r == [s]
    ensures Sentence(s) ==> AllSentences(r)
  {
    if b then [s] else []
  }

  function MonthPhrase(n: int): (r: string)
    ensures Sentence(r)
  {
    "Events " + "from the last " + IntToString(n) + " month" + (if n > 1 then "s" else "") + "."
  }

  function CategoriesPhrase(categories: seq<string>): (r: string)
    ensures Sentence(r)
  {
    "Categories: " + Join(categories, ", ") + "."
  }

  function KeywordsPhrase(keywords: seq<string>): (r: string)
    ensures Sentence(r)
  {
    "Keyword " + "focus: " + Join(keywords, ", ") + "."
  }

  /** `Math.round` of a whole radius is the radius itself. */
  function RadiusPhrase(m: int): (r: string)
    ensures Sentence(r)
  {
    "Radius: ~" + IntToString(m) + " meters."
  }

  /** A month count or radius that counts as true. */
  predicate IsSet(v: Option<int>) {
    v.Some? && v.value != 0
  }

  function Ind(b: bool): nat {
    if b then 1 else 0
  }

  /** The sentences of a summary: the months, the categories, the keywords
      and the radius, each only when it is set, in this order. */
  function SummaryPhrases(months: Option<int>, categories: seq<string>,
                          keywords: seq<string>, radius: Option<int>): (p: seq<string>)
    ensures |p| == Ind(IsSet(months)) + Ind(|categories| > 0) + Ind(|keywords| > 0) + Ind(IsSet(radius))
    ensures IsSet(months) ==> p[0] == MonthPhrase(months.value)
    ensures |categories| > 0 ==> p[Ind(IsSet(months))] == CategoriesPhrase(categories)
    ensures |keywords| > 0 ==> p[Ind(IsSet(months)) + Ind(|categories| > 0)] == KeywordsPhrase(keywords)
    ensures IsSet(radius) ==> p[|p| - 1] == RadiusPhrase(radius.value)
    ensures AllSentences(p)
  {
    var m := Optional(IsSet(months), MonthPhrase(if months.Some? then months.value else 0));
    var c := Optional(|categories| > 0, CategoriesPhrase(categories));
    var k := Optional(|keywords| > 0, KeywordsPhrase(keywords));
    var d := Optional(IsSet(radius), RadiusPhrase(if radius.Some? then radius.value else 0));
    var kd := k + d;
    AllSentencesConcat(k, d);
    var ckd := c + kd;
    AllSentencesConcat(c, kd);
    AllSentencesConcat(m, ckd);
    m + ckd
  }

  /** `buildSummaryFromFilters`: the sentences of the filters that are set,
      separated by spaces, or the default text when none is. */
  function BuildSummaryFromFilters(months: Option<int>, categories: seq<string>,
                                   keywords: seq<string>, radius: Option<int>): (r: string)
    ensures r == DefaultSummary <==>
              !IsSet(months) && |categories| == 0 && |keywords| == 0 && !IsSet(radius)
    ensures r != DefaultSummary ==> r == Join(SummaryPhrases(months, categories, keywords, radius), " ")
  {
    JoinOrDefault(SummaryPhrases(months, categories, keywords, radius))
  }

  /** With every filter set, the four sentences appear in order. */
  lemma AllFiltersSummary(n: int, categories: seq<string>, keywords: seq<string>, m: int)
    requires n != 0 && |categories| > 0 && |keywords| > 0 && m != 0
    ensures BuildSummaryFromFilters(Some(n), categories, keywords, Some(m))
            == MonthPhrase(n) + " " + (CategoriesPhrase(categories) + " " + (KeywordsPhrase(keywords)
               + " " + RadiusPhrase(m)))
  {
    var p := SummaryPhrases(Some(n), categories, keywords, Some(m));
    assert p == [MonthPhrase(n), CategoriesPhrase(categories), KeywordsPhrase(keywords), RadiusPhrase(m)];
    JoinFour(p[0], p[1], p[2], p[3], " ");
  }

  lemma JoinFour(a: string, b: string, c: string, d: string, sep: string)
    ensures Join([a, b, c, d], sep) == a + sep + (b + sep + (c + sep + d))
  {
    assert [a, b, c, d][1..] == [b, c, d];
    assert [b, c, d][1..] == [c, d];
    assert [c, d][1..] == [d];
    assert Join([d], sep) == d;
    assert Join([c, d], sep) == c + sep + d;
  }

  /** One month is singular, more are plural. */
  lemma MonthPhrasePlural(n: int)
    requires n >= 1
    ensures StartsWith(MonthPhrase(n), "Events " + "from the last " + IntToString(n) + " month")
    ensures EndsWith(MonthPhrase(n), if n == 1 then " month." else " months.")
  {
    var head := "Events " + "from the last " + IntToString(n) + " month";
    if n == 1 {
      assert MonthPhrase(n) == head + ".";
    } else {
      assert MonthPhrase(n) == head + "s.";
    }
  }

  // ---------------------------------------------------------------------
  // The extraction
  // ---------------------------------------------------------------------

  /** The filters used whenever no usable answer is available. */
  function Fallback(p: Payload): (r: Filters)
    ensures r.timeframeMonths == NormalizeTimeframe(p.timeframeMonths)
    ensures r.categories == [] && r.locationKeywords == [] && r.radiusMeters.None?
    ensures r.coordinates == p.coordinates
    ensures r.summary == BuildFallbackSummary(p)
  {
    Filters(
      NormalizeTimeframe(p.timeframeMonths),
      [],
      [],
      None,
      p.coordinates,
      if TruthyMonths(p.timeframeMonths) || p.coordinates.Some? then BuildFallbackSummary(p)
      else DefaultSummary)
  }

  /** The area name as a keyword candidate when it is a non-empty string. */
  function AreaKeyword(p: Payload): seq<string> {
    if p.areaName.Some? && p.areaName.value != "" then [p.areaName.value] else []
  }

  /** The filters derived from a validated answer. */
  function FromData(p: Payload, d: FilterData): (r: Filters)
    ensures d.timeframeMonths.Some? ==>
              r.timeframeMonths == Some(ClampInt(d.timeframeMonths.value, MinMonths, MaxMonths))
    ensures d.timeframeMonths.None? ==> r.timeframeMonths == NormalizeTimeframe(p.timeframeMonths)
    ensures r.categories == DedupeCategories(d.categories.GetOr([]))
    ensures r.locationKeywords == DedupeStrings(d.locationKeywords.GetOr([]) + AreaKeyword(p))
    ensures r.radiusMeters == ClampRadius(d.radiusMeters)
    ensures r.coordinates == if d.coordinates.Some? then d.coordinates else p.coordinates
    ensures d.summary.Some? && !IsBlank(d.summary.value) ==> r.summary == Trim(d.summary.value)
    ensures d.summary.None? || IsBlank(d.summary.value) ==>
              r.summary == BuildSummaryFromFilters(r.timeframeMonths, r.categories, r.locationKeywords, r.radiusMeters)
  {
    var months := NormalizeTimeframe(
      if d.timeframeMonths.Some? then Some(Finite(d.timeframeMonths.value as real)) else p.timeframeMonths);
    NormalizeWholeMonths(d.timeframeMonths.GetOr(0));
    var categories := DedupeCategories(d.categories.GetOr([]));
    var keywords := DedupeStrings(d.locationKeywords.GetOr([]) + AreaKeyword(p));
    var radius := ClampRadius(d.radiusMeters);
    var summary := if d.summary.Some? && !IsBlank(d.summary.value) then Trim(d.summary.value)
      else BuildSummaryFromFilters(months, categories, keywords, radius);
    Filters(months, categories, keywords, radius,
      if d.coordinates.Some? then d.coordinates else p.coordinates, summary)
  }

  /** `extractSafetyQueryFilters` after the model call. */
  function ExtractFilters(apiKey: string, p: Payload, generation: Generation,
                          parse: string -> Option<FilterData>): (r: Filters)
    ensures apiKey == "" ==> r == Fallback(p)
    ensures generation.CallFailed? || generation == Answered("") ==> r == Fallback(p)
    ensures apiKey != "" && generation.Answered? && generation.text != "" ==>
              match parse(CoerceJsonString(generation.text))
              case None => r == Fallback(p)
              case Some(d) => r == FromData(p, d)
  {
    if apiKey == "" then Fallback(p)
    else match generation
      case CallFailed => Fallback(p)
      case Answered(text) =>
        if text == "" then Fallback(p)
        else match parse(CoerceJsonString(text))
          case None => Fallback(p)
          case Some(d) => FromData(p, d)
  }

  /** The documented ranges of the derived filters: months 1..24, known
      distinct categories, trimmed distinct keywords of 2..60 code units, a
      radius of 50..25000 metres and a non-empty summary. */
  ghost predicate InRange(r: Filters) {
    && (r.timeframeMonths.Some? ==> MinMonths <= r.timeframeMonths.value <= MaxMonths)
    && Seqs.NoDuplicates(r.categories)
    && (forall i :: 0 <= i < |r.categories| ==> r.categories[i] in Domain.Categories)
    && Seqs.NoDuplicates(r.locationKeywords)
    && (forall i :: 0 <= i < |r.locationKeywords| ==>
          KeywordLength(r.locationKeywords[i]) && IsTrimmed(r.locationKeywords[i]))
    && (r.radiusMeters.Some? ==> MinRadius <= r.radiusMeters.value <= MaxRadius)
    && r.summary != ""
  }

  /** Whatever the model answers, the filters stay within their ranges. */
  lemma ExtractFiltersInRange(apiKey: string, p: Payload, generation: Generation,
                              parse: string -> Option<FilterData>)
    ensures InRange(ExtractFilters(apiKey, p, generation, parse))
  {
    var r := ExtractFilters(apiKey, p, generation, parse);
    if r == Fallback(p) {
      FallbackInRange(p);
    } else {
      var d := parse(CoerceJsonString(generation.text)).value;
      assert r == FromData(p, d);
      FromDataInRange(p, d);
    }
  }

  lemma FallbackInRange(p: Payload)
    ensures InRange(Fallback(p))
  {
    BuildFallbackSummaryNonEmpty(p);
  }

  lemma FromDataInRange(p: Payload, d: FilterData)
    ensures InRange(FromData(p, d))
  {
    var r := FromData(p, d);
    var categories := DedupeCategories(d.categories.GetOr([]));
    assert r.categories == categories;
    forall i | 0 <= i < |categories| ensures categories[i] in Domain.Categories {
      assert categories[i] in categories;
    }
    var keywords := DedupeStrings(d.locationKeywords.GetOr([]) + AreaKeyword(p));
    assert r.locationKeywords == keywords;
    assert r.summary != "" by {
      if d.summary.Some? && !IsBlank(d.summary.value) {
        assert r.summary == Trim(d.summary.value);
      } else {
        assert DefaultSummary != "";
      }
    }
  }

  lemma BuildFallbackSummaryNonEmpty(p: Payload)
    ensures BuildFallbackSummary(p) != ""
  {
    assert TimeframePhrase(p.timeframeMonths)[0] == 'T';
  }

  /** A schema-valid month count and radius of at least 50 metres pass
      through unchanged, and a valid category list without repetition is
      kept as it is. */
  lemma ValidAnswerPassesThrough(p: Payload, d: FilterData)
    requires SchemaValid(d)
    ensures d.timeframeMonths.Some? ==> FromData(p, d).timeframeMonths == d.timeframeMonths
    ensures d.radiusMeters.Some? && d.radiusMeters.value >= MinRadius ==>
              FromData(p, d).radiusMeters == d.radiusMeters
    ensures d.radiusMeters.Some? && d.radiusMeters.value < MinRadius ==>
              FromData(p, d).radiusMeters == Some(MinRadius)
    ensures d.categories.Some? && Seqs.NoDuplicates(d.categories.value) ==>
              FromData(p, d).categories == d.categories.value
  {
    if d.categories.Some? && Seqs.NoDuplicates(d.categories.value) {
      DedupeCategoriesOfValid(d.categories.value);
    }
  }

  /** The fallback summary and the request's own guard agree: the guard on
      the month count and coordinates adds nothing to the fallback text. */
  lemma FallbackSummaryGuardRedundant(p: Payload)
    ensures (if TruthyMonths(p.timeframeMonths) || p.coordinates.Some? then BuildFallbackSummary(p)
             else DefaultSummary) == BuildFallbackSummary(p)
  {
  }

  // ---------------------------------------------------------------------
  // The message the filter prompt quotes
  // ---------------------------------------------------------------------

  /** Position of the last user message, if any. */
  function LastUserIndex(messages: seq<ChatMessage>): (r: Option<nat>)
    ensures r.None? <==> forall k :: 0 <= k < |messages| ==> messages[k].role != User
    ensures r.Some? ==> r.value < |messages| && messages[r.value].role == User
                        && forall k :: r.value < k < |messages| ==> messages[k].role != User
  {
    if |messages| == 0 then None
    else if messages[|messages| - 1].role == User then Some(|messages| - 1)
    else LastUserIndex(messages[..|messages| - 1])
  }

  /** The trimmed text of the latest user message, or the request's query
      when there is no such message or it is blank. */
  function LatestUserMessage(messages: seq<ChatMessage>, userQuery: string): (r: string)
    ensures r == userQuery || (r != "" && IsTrimmed(r))
    ensures (forall k :: 0 <= k < |messages| ==> messages[k].role != User) ==> r == userQuery
    ensures LastUserIndex(messages).Some? && !IsBlank(messages[LastUserIndex(messages).value].content) ==>
              r == Trim(messages[LastUserIndex(messages).value].content)
  {
    match LastUserIndex(messages)
    case None => userQuery
    case Some(k) =>
      var t := Trim(messages[k].content);
      if t != "" then t else userQuery
  }
}

=== FILE: geospatial.dfy ===
/** Pickpocket hotspots (frontend/lib/utils/geospatial.ts): recent
    pickpocket reports are grouped by a density flood fill.  A report with
    enough reports within the proximity distance seeds a cluster; the
    cluster then grows through members that are themselves dense.  The
    great-circle distance is a parameter, and a report is identified by its
    position in the list of qualifying reports. */
module Geospatial {

  import opened Wrappers
  import opened Domain
  import opened Text
  import opened Sorting
  import opened Seqs

  /** Metres between two coordinates (the application uses the haversine formula). */
  type Distance = (Location, Location) -> real

  datatype ClusterOptions = ClusterOptions(proximityMeters: real, minimumEvents: int, lookbackHours: real)

  const DefaultClusterOptions: ClusterOptions := ClusterOptions(500.0, 3, 24.0)

  datatype Cluster = Cluster(id: string, center: Location, radiusMeters: real, events: seq<Event>)

  // -----------------------------------------------------------------------
  // Qualifying reports and neighbourhoods
  // -----------------------------------------------------------------------

  /** The earliest creation time a report may have to take part. */
  function Cutoff(now: int, lookbackHours: real): real {
    now as real - lookbackHours * HourMs as real
  }

  predicate IsRecentPickpocket(e: Event, cutoff: real) {
    && e.category == CrimeAlert
    && e.subcategory == Some(Pickpockets)
    && e.createdAt.Some?
    && e.createdAt.value as real >= cutoff
  }

  /** The reports that take part: crime alerts of the pickpocket kind whose
      creation time parses and is no earlier than the cutoff, in input
      order. */
  function RecentReports(events: seq<Event>, now: int, lookbackHours: real): (r: seq<Event>)
    ensures IsSubsequence(r, events)
    ensures forall e :: e in r <==> e in events && IsRecentPickpocket(e, Cutoff(now, lookbackHours))
    // every copy of a qualifying report is kept
    ensures forall e :: multiset(r)[e] ==
              if IsRecentPickpocket(e, Cutoff(now, lookbackHours)) then multiset(events)[e] else 0
  {
    var keep := (e: Event) => IsRecentPickpocket(e, Cutoff(now, lookbackHours));
    FilterIsSubsequence(keep, events);
    FilterCounts(keep, events);
    Filter(keep, events)
  }

  /** The qualifying reports with the parameters of one clustering run. */
  datatype Space = Space(recent: seq<Event>, dist: Distance, proximity: real, minimumEvents: int)

  /** Report j is a neighbour of report t: a different id, within range. */
  predicate IsNeighbor(sp: Space, t: nat, j: nat)
    requires t < |sp.recent| && j < |sp.recent|
  {
    sp.recent[j].id != sp.recent[t].id
    && sp.dist(sp.recent[j].location, sp.recent[t].location) <= sp.proximity
  }

  ghost predicate InRange(s: seq<nat>, n: nat) {
    forall k :: 0 <= k < |s| ==> s[k] < n
  }

  ghost predicate Distinct(s: seq<nat>) {
    forall a, b :: 0 <= a < b < |s| ==> s[a] != s[b]
  }

  function NeighborsFrom(sp: Space, t: nat, from: nat): (r: seq<nat>)
    requires t < |sp.recent| && from <= |sp.recent|
    ensures forall k :: 0 <= k < |r| ==> from <= r[k] < |sp.recent| && IsNeighbor(sp, t, r[k])
    ensures forall j :: from <= j < |sp.recent| && IsNeighbor(sp, t, j) ==> j in r
    ensures forall a, b :: 0 <= a < b < |r| ==> r[a] < r[b]
    decreases |sp.recent| - from
  {
    if from == |sp.recent| then []
    else
      var rest := NeighborsFrom(sp, t, from + 1);
      if IsNeighbor(sp, t, from) then [from] + rest else rest
  }

  /** `findNeighbors(recent[t])`: the neighbours of report t in list order. */
  function Neighbors(sp: Space, t: nat): (r: seq<nat>)
    requires t < |sp.recent|
    ensures InRange(r, |sp.recent|) && Distinct(r)
    ensures forall k :: 0 <= k < |r| ==> IsNeighbor(sp, t, r[k])
    ensures forall j :: 0 <= j < |sp.recent| && IsNeighbor(sp, t, j) ==> j in r
    ensures t !in r
  {
    NeighborsFrom(sp, t, 0)
  }

  /** The neighbour lists of all qualifying reports with their ids: the
      graph the flood fill walks. */
  datatype Graph = Graph(nb: seq<seq<nat>>, ids: seq<string>, minimumEvents: int)

  ghost predicate ValidGraph(g: Graph) {
    && |g.ids| == |g.nb|
    && forall t :: 0 <= t < |g.nb| ==> InRange(g.nb[t], |g.nb|) && Distinct(g.nb[t]) && t !in g.nb[t]
  }

  function NeighborGraph(sp: Space): (g: Graph)
    ensures ValidGraph(g) && |g.nb| == |sp.recent|
    ensures forall t :: 0 <= t < |sp.recent| ==> g.nb[t] == Neighbors(sp, t) && g.ids[t] == sp.recent[t].id
    ensures g.minimumEvents == sp.minimumEvents
  {
    Graph(seq(|sp.recent|, t requires 0 <= t < |sp.recent| => Neighbors(sp, t)),
          seq(|sp.recent|, t requires 0 <= t < |sp.recent| => sp.recent[t].id),
          sp.minimumEvents)
  }

  /** A report dense enough to seed or grow a cluster: together with its
      neighbours it reaches the minimum size. */
  predicate IsCore(g: Graph, c: nat)
    requires c < |g.nb|
  {
    |g.nb[c]| + 1 >= g.minimumEvents
  }

  // -----------------------------------------------------------------------
  // Bookkeeping of expanded reports
  // -----------------------------------------------------------------------

  /** The ids of the reports at the given positions. */
  ghost function IdsAt(g: Graph, idx: seq<nat>): set<string>
    requires InRange(idx, |g.ids|)
  {
    set k | 0 <= k < |idx| :: g.ids[idx[k]]
  }

  /** No two listed positions hold reports with the same id. */
  ghost predicate DistinctIds(g: Graph, idx: seq<nat>)
    requires InRange(idx, |g.ids|)
  {
    forall a, b :: 0 <= a < b < |idx| ==> g.ids[idx[a]] != g.ids[idx[b]]
  }

  lemma IdsAtSnoc(g: Graph, idx: seq<nat>, n: nat)
    requires InRange(idx, |g.ids|) && n < |g.ids|
    requires DistinctIds(g, idx) && g.ids[n] !in IdsAt(g, idx)
    ensures InRange(idx + [n], |g.ids|)
    ensures IdsAt(g, idx + [n]) == IdsAt(g, idx) + {g.ids[n]}
    ensures DistinctIds(g, idx + [n])
  {
    var ext := idx + [n];
    assert forall k :: 0 <= k < |idx| ==> ext[k] == idx[k];
    forall id | id in IdsAt(g, ext) ensures id in IdsAt(g, idx) + {g.ids[n]} {
      var k :| 0 <= k < |ext| && g.ids[ext[k]] == id;
      if k < |idx| {
        assert g.ids[idx[k]] == id;
      }
    }
    forall id | id in IdsAt(g, idx) + {g.ids[n]} ensures id in IdsAt(g, ext) {
      if id == g.ids[n] {
        assert g.ids[ext[|idx|]] == id;
      } else {
        var k :| 0 <= k < |idx| && g.ids[idx[k]] == id;
        assert g.ids[ext[k]] == id;
      }
    }
    forall a, b | 0 <= a < b < |ext| ensures g.ids[ext[a]] != g.ids[ext[b]] {
      if b == |idx| {
        assert g.ids[idx[a]] in IdsAt(g, idx);
      }
    }
  }

  /** The positions not yet taken into a cluster's member list. */
  ghost function Remaining(n: nat, members: seq<nat>): set<nat> {
    set i | 0 <= i < n && i !in members
  }

  // -----------------------------------------------------------------------
  // The flood fill
  // -----------------------------------------------------------------------

  /** The seed and members of one emitted cluster, with, for each member,
      the position (in `members`) of the member whose neighbour list brought
      it in. */
  datatype Plan = Plan(seed: nat, members: seq<nat>, parents: seq<nat>)

  /** A member list under construction from `seed`: the seed and its
      neighbours first, in list order; every later member is a neighbour of
      an earlier, dense member (its parent). */
  ghost predicate Grown(g: Graph, seed: nat, members: seq<nat>, parents: seq<nat>)
    requires seed < |g.nb|
  {
    && InRange(members, |g.nb|)
    && Distinct(members)
    && |members| >= |g.nb[seed]| + 1
    && members[..|g.nb[seed]| + 1] == [seed] + g.nb[seed]
    && |parents| == |members|
    && (forall i :: |g.nb[seed]| + 1 <= i < |members| ==>
          parents[i] < i && IsCore(g, members[parents[i]]) && members[i] in g.nb[members[parents[i]]])
  }

  /** A finished cluster: grown from a dense seed. */
  ghost predicate ClusterShape(g: Graph, seed: nat, members: seq<nat>, parents: seq<nat>) {
    && seed < |g.nb|
    && IsCore(g, seed)
    && Grown(g, seed, members, parents)
  }

  /** A cluster always reaches the minimum size: the seed with its
      neighbours already does, so the size check after the flood fill never
      discards one. */
  lemma ShapeMeetsMinimum(g: Graph, seed: nat, members: seq<nat>, parents: seq<nat>)
    requires ClusterShape(g, seed, members, parents)
    ensures |members| >= g.minimumEvents
    ensures seed in members && forall j :: j in g.nb[seed] ==> j in members
  {
    assert members[0] == seed;
    forall j | j in g.nb[seed] ensures j in members {
      var k :| 0 <= k < |g.nb[seed]| && g.nb[seed][k] == j;
      assert members[..|g.nb[seed]| + 1][k + 1] == j;
    }
  }

  /** `k` copies of `x`. */
  function Copies(x: nat, k: nat): (r: seq<nat>)
    ensures |r| == k && forall i :: 0 <= i < k ==> r[i] == x
  {
    if k == 0 then [] else Copies(x, k - 1) + [x]
  }

  lemma GrownSnoc(g: Graph, seed: nat, members: seq<nat>, parents: seq<nat>, pos: nat, next: nat)
    requires seed < |g.nb| && Grown(g, seed, members, parents)
    requires pos < |members| && IsCore(g, members[pos])
    requires next in g.nb[members[pos]] && next !in members && next < |g.nb|
    ensures Grown(g, seed, members + [next], parents + [pos])
  {
    var m := members + [next];
    var k := |g.nb[seed]| + 1;
    assert m[..k] == members[..k];
    assert forall i :: 0 <= i < |members| ==> m[i] == members[i] && (parents + [pos])[i] == parents[i];
  }

  /** One neighbour joins: the member list and the parent list grow together. */
  lemma AddOne(g: Graph, seed: nat, pos: nat, members: seq<nat>, parents: seq<nat>, added: seq<nat>, next: nat)
    requires seed < |g.nb| && pos < |members| && members[pos] < |g.nb| && IsCore(g, members[pos])
    requires Grown(g, seed, members + added, parents + Copies(pos, |added|))
    requires forall x :: x in added ==> x < |g.nb| && x !in members
    requires next in g.nb[members[pos]] && next !in members + added && next < |g.nb|
    ensures Grown(g, seed, members + (added + [next]), parents + Copies(pos, |added| + 1))
    ensures forall x :: x in added + [next] ==> x < |g.nb| && x !in members
  {
    assert (members + added)[pos] == members[pos];
    GrownSnoc(g, seed, members + added, parents + Copies(pos, |added|), pos, next);
    assert members + added + [next] == members + (added + [next]);
    assert parents + Copies(pos, |added|) + [pos] == parents + Copies(pos, |added| + 1);
    assert forall x :: x in members ==> x in members + added;
  }

  /** Lines 106-112: the neighbours of the dense member at position `pos`
      that are not yet members join the cluster and the frontier, in list
      order.  `added` are the new members; afterwards every neighbour is a
      member. */
  method AddNeighbors(g: Graph, seed: nat, pos: nat, members: seq<nat>, parents: seq<nat>)
    returns (added: seq<nat>)
    requires ValidGraph(g)
    requires seed < |g.nb| && pos < |members| && members[pos] < |g.nb| && IsCore(g, members[pos])
    requires Grown(g, seed, members, parents)
    ensures Grown(g, seed, members + added, parents + Copies(pos, |added|))
    ensures forall x :: x in added ==> x < |g.nb| && x !in members
    ensures forall j :: j in g.nb[members[pos]] ==> j in members + added
  {
    var nn := g.nb[members[pos]];
    added := [];
    assert members + added == members && parents + Copies(pos, |added|) == parents;
    for k := 0 to |nn|
      invariant Adding(g, seed, pos, members, parents, added, k)
    {
      var next := nn[k];
      AddingStep(g, seed, pos, members, parents, added, k);
      if next !in members + added {
        added := added + [next];
      }
    }
  }

  /** The state of `AddNeighbors` after the first `k` neighbours. */
  ghost predicate Adding(g: Graph, seed: nat, pos: nat, members: seq<nat>, parents: seq<nat>, added: seq<nat>, k: nat)
    requires seed < |g.nb| && pos < |members| && members[pos] < |g.nb|
  {
    && k <= |g.nb[members[pos]]|
    && Grown(g, seed, members + added, parents + Copies(pos, |added|))
    && (forall x :: x in added ==> x < |g.nb| && x !in members)
    && (forall i :: 0 <= i < k ==> g.nb[members[pos]][i] in members + added)
  }

  /** One neighbour is looked at: it joins unless it is already a member. */
  lemma AddingStep(g: Graph, seed: nat, pos: nat, members: seq<nat>, parents: seq<nat>, added: seq<nat>, k: nat)
    requires ValidGraph(g)
    requires seed < |g.nb| && pos < |members| && members[pos] < |g.nb| && IsCore(g, members[pos])
    requires Adding(g, seed, pos, members, parents, added, k) && k < |g.nb[members[pos]]|
    ensures var next := g.nb[members[pos]][k];
            Adding(g, seed, pos, members, parents, if next !in members + added then added + [next] else added, k + 1)
  {
    var next := g.nb[members[pos]][k];
    assert next in g.nb[members[pos]];
    if next !in members + added {
      AddOne(g, seed, pos, members, parents, added, next);
      KeepMembers(members, added, next);
    }
  }

  /** Appending a new member keeps every earlier member. */
  lemma KeepMembers(members: seq<nat>, added: seq<nat>, next: nat)
    ensures forall x :: x in members + added ==> x in members + (added + [next])
    ensures next in members + (added + [next])
  {
    assert members + (added + [next]) == (members + added) + [next];
  }

  lemma RemainingShrinks(n: nat, members: seq<nat>, added: seq<nat>)
    requires |added| > 0
    requires forall x :: x in added ==> x < n && x !in members
    ensures Remaining(n, members + added) < Remaining(n, members)
  {
    assert added[0] in members + added;
    assert added[0] in Remaining(n, members);
    forall i | i in Remaining(n, members + added) ensures i in Remaining(n, members) {
      assert forall q :: q in members ==> q in members + added;
    }
  }

  /** The position of a member in the member list. */
  function PositionOf(members: seq<nat>, x: nat): (pos: nat)
    requires x in members
    ensures pos < |members| && members[pos] == x
  {
    if members[0] == x then 0 else 1 + PositionOf(members[1..], x)
  }

  /** Everything the flood fill keeps true while the frontier drains. */
  ghost predicate FillState(g: Graph, seed: nat, members: seq<nat>, parent: seq<nat>, queue: seq<nat>,
                            visited: set<string>, expanded0: seq<nat>, expanded: seq<nat>, visited0: set<string>)
    requires seed < |g.nb| && |g.ids| == |g.nb|
  {
    && Grown(g, seed, members, parent)
    && (forall q :: q in queue ==> q in members)
    && (forall i :: 0 <= i < |members| ==> members[i] in queue || g.ids[members[i]] in visited)
    && InRange(expanded, |g.nb|) && DistinctIds(g, expanded)
    && visited == IdsAt(g, expanded) && visited0 <= visited
    && |expanded| >= |expanded0| && expanded[..|expanded0|] == expanded0
    && (forall k :: |expanded0| <= k < |expanded| ==> expanded[k] in members)
  }

  /** Lines 97-102: popping a report off the frontier and marking it
      visited when it was not. */
  lemma FillVisit(g: Graph, seed: nat, members: seq<nat>, parents: seq<nat>, queue: seq<nat>,
                  visited: set<string>, expanded0: seq<nat>, expanded: seq<nat>, visited0: set<string>)
    requires seed < |g.nb| && |g.ids| == |g.nb| && |queue| > 0
    requires FillState(g, seed, members, parents, queue, visited, expanded0, expanded, visited0)
    ensures var n := queue[|queue| - 1];
      && n in members && n < |g.nb|
      && (g.ids[n] in visited ==>
            FillState(g, seed, members, parents, queue[..|queue| - 1], visited, expanded0, expanded, visited0))
      && (g.ids[n] !in visited ==>
            FillState(g, seed, members, parents, queue[..|queue| - 1], visited + {g.ids[n]},
                      expanded0, expanded + [n], visited0))
  {
    var n := queue[|queue| - 1];
    var rest := queue[..|queue| - 1];
    assert queue == rest + [n];
    assert n in queue;
    assert forall q :: q in queue ==> q == n || q in rest;
    if g.ids[n] !in visited {
      IdsAtSnoc(g, expanded, n);
      assert (expanded + [n])[..|expanded0|] == expanded[..|expanded0|];
    }
  }

  /** Lines 106-112 applied to the state: the new members join the member
      list and the frontier. */
  lemma FillGrow(g: Graph, seed: nat, members: seq<nat>, parents: seq<nat>, queue: seq<nat>,
                 visited: set<string>, expanded0: seq<nat>, expanded: seq<nat>, visited0: set<string>,
                 pos: nat, added: seq<nat>)
    requires seed < |g.nb| && |g.ids| == |g.nb|
    requires FillState(g, seed, members, parents, queue, visited, expanded0, expanded, visited0)
    requires Grown(g, seed, members + added, parents + Copies(pos, |added|))
    ensures FillState(g, seed, members + added, parents + Copies(pos, |added|), queue + added,
                      visited, expanded0, expanded, visited0)
  {
    var m := members + added;
    forall q | q in queue + added ensures q in m {
      assert q in queue || q in added;
    }
    forall i | 0 <= i < |m| ensures m[i] in queue + added || g.ids[m[i]] in visited {
      if i < |members| {
        assert m[i] == members[i];
      } else {
        assert m[i] == added[i - |members|];
      }
    }
    forall k | |expanded0| <= k < |expanded| ensures expanded[k] in m {
      assert expanded[k] in members;
    }
  }

  /** Lines 92-94: the seed and its neighbours are the first members, and
      the neighbours the first frontier. */
  lemma FillStart(g: Graph, seed: nat, visited: set<string>, expanded: seq<nat>)
    requires ValidGraph(g) && seed < |g.nb|
    requires InRange(expanded, |g.nb|) && DistinctIds(g, expanded)
    requires visited == IdsAt(g, expanded) && g.ids[seed] in visited
    ensures FillState(g, seed, [seed] + g.nb[seed], Copies(0, |g.nb[seed]| + 1), g.nb[seed],
                      visited, expanded, expanded, visited)
  {
    var n0 := g.nb[seed];
    var members := [seed] + n0;
    assert members[..|n0| + 1] == members;
    assert expanded[..|expanded|] == expanded;
    forall i | 0 <= i < |members| ensures members[i] in n0 || g.ids[members[i]] in visited {
      if i > 0 {
        assert members[i] == n0[i - 1];
      }
    }
    assert forall q :: q in n0 ==> q in members;
  }

  /** An empty frontier finishes the cluster. */
  lemma FillDone(g: Graph, seed: nat, members: seq<nat>, parents: seq<nat>, queue: seq<nat>,
                 visited: set<string>, expanded0: seq<nat>, expanded: seq<nat>, visited0: set<string>)
    requires seed < |g.nb| && |g.ids| == |g.nb| && IsCore(g, seed) && |queue| == 0
    requires FillState(g, seed, members, parents, queue, visited, expanded0, expanded, visited0)
    ensures ClusterShape(g, seed, members, parents)
    ensures forall k :: 0 <= k < |members| ==> g.ids[members[k]] in visited
  {
  }

  /** Every neighbour of report x is a member. */
  ghost predicate NeighborsIn(g: Graph, x: nat, members: seq<nat>)
    requires x < |g.nb|
  {
    forall j :: j in g.nb[x] ==> j in members
  }

  /** Every dense report expanded from position `from` on has all its
      neighbours among the members. */
  ghost predicate ClosedFrom(g: Graph, from: nat, expanded: seq<nat>, members: seq<nat>) {
    forall k :: from <= k < |expanded| && expanded[k] < |g.nb| && IsCore(g, expanded[k]) ==>
      NeighborsIn(g, expanded[k], members)
  }

  /** Expanding one more report keeps the closure when a dense report's
      neighbours have all become members. */
  lemma ClosedStep(g: Graph, from: nat, expanded: seq<nat>, members: seq<nat>, n: nat, added: seq<nat>)
    requires ClosedFrom(g, from, expanded, members)
    requires n < |g.nb| && (IsCore(g, n) ==> NeighborsIn(g, n, members + added))
    ensures ClosedFrom(g, from, expanded + [n], members + added)
  {
    var e := expanded + [n];
    forall k | from <= k < |e| && e[k] < |g.nb| && IsCore(g, e[k]) ensures NeighborsIn(g, e[k], members + added) {
      if k < |expanded| {
        assert e[k] == expanded[k];
        assert forall x :: x in members ==> x in members + added;
      }
    }
  }

  /** The flood fill from a dense seed (lines 92-114): the member list in
      insertion order, and the ids and positions expanded along the way.
      `visited` holds the ids of `expanded`. */
  method ExpandCluster(g: Graph, seed: nat, visited: set<string>, expanded: seq<nat>)
    returns (members: seq<nat>, parents: seq<nat>, visited': set<string>, expanded': seq<nat>)
    requires ValidGraph(g)
    requires seed < |g.nb| && IsCore(g, seed)
    requires InRange(expanded, |g.nb|) && DistinctIds(g, expanded)
    requires visited == IdsAt(g, expanded)
    requires g.ids[seed] in visited
    ensures ClusterShape(g, seed, members, parents)
    // every member is visited when the cluster is finished
    ensures forall k :: 0 <= k < |members| ==> g.ids[members[k]] in visited'
    // each report is expanded at most once: new expansions have fresh ids
    ensures InRange(expanded', |g.nb|) && DistinctIds(g, expanded')
    ensures visited' == IdsAt(g, expanded') && visited <= visited'
    ensures |expanded'| >= |expanded| && expanded'[..|expanded|] == expanded
    ensures forall k :: |expanded| <= k < |expanded'| ==> expanded'[k] in members
    // closure: a dense report expanded by this fill brings in all its neighbours
    ensures forall k :: |expanded| <= k < |expanded'| && IsCore(g, expanded'[k]) ==>
              NeighborsIn(g, expanded'[k], members)
  {
    var n0 := g.nb[seed];
    members := [seed] + n0;
    var queue := n0;
    parents := Copies(0, |members|);
    visited' := visited;
    expanded' := expanded;
    FillStart(g, seed, visited, expanded);
    while |queue| > 0
      invariant FillState(g, seed, members, parents, queue, visited', expanded, expanded', visited)
      invariant ClosedFrom(g, |expanded|, expanded', members)
      decreases Remaining(|g.nb|, members), |queue|
    {
      FillVisit(g, seed, members, parents, queue, visited', expanded, expanded', visited);
      var n := queue[|queue| - 1];
      queue := queue[..|queue| - 1];
      if g.ids[n] !in visited' {
        visited' := visited' + {g.ids[n]};
        if |g.nb[n]| + 1 >= g.minimumEvents {
          var pos := PositionOf(members, n);
          var added := AddNeighbors(g, seed, pos, members, parents);
          FillGrow(g, seed, members, parents, queue, visited', expanded, expanded' + [n], visited, pos, added);
          ClosedStep(g, |expanded|, expanded', members, n, added);
          if |added| > 0 {
            RemainingShrinks(|g.nb|, members, added);
          } else {
            assert members + added == members && queue + added == queue;
          }
          members, queue, parents := members + added, queue + added, parents + Copies(pos, |added|);
        } else {
          ClosedStep(g, |expanded|, expanded', members, n, []);
          assert members + [] == members;
        }
        expanded' := expanded' + [n];
      }
    }
    FillDone(g, seed, members, parents, queue, visited', expanded, expanded', visited);
  }

  // -----------------------------------------------------------------------
  // Cluster geometry and identity
  // -----------------------------------------------------------------------

  function SumLat(locs: seq<Location>): real {
    if |locs| == 0 then 0.0 else locs[0].lat + SumLat(locs[1..])
  }

  function SumLng(locs: seq<Location>): real {
    if |locs| == 0 then 0.0 else locs[0].lng + SumLng(locs[1..])
  }

  lemma {:induction false} SumLatBounds(locs: seq<Location>, c: real)
    ensures (forall i :: 0 <= i < |locs| ==> locs[i].lat > c) && |locs| > 0 ==> SumLat(locs) > |locs| as real * c
    ensures (forall i :: 0 <= i < |locs| ==> locs[i].lat < c) && |locs| > 0 ==> SumLat(locs) < |locs| as real * c
  {
    if |locs| > 1 {
      SumLatBounds(locs[1..], c);
    }
  }

  lemma {:induction false} SumLngBounds(locs: seq<Location>, c: real)
    ensures (forall i :: 0 <= i < |locs| ==> locs[i].lng > c) && |locs| > 0 ==> SumLng(locs) > |locs| as real * c
    ensures (forall i :: 0 <= i < |locs| ==> locs[i].lng < c) && |locs| > 0 ==> SumLng(locs) < |locs| as real * c
  {
    if |locs| > 1 {
      SumLngBounds(locs[1..], c);
    }
  }

  /** `computeAverageLocation`: the coordinate-wise mean. */
  function AverageLocation(locs: seq<Location>): (r: Location)
    requires |locs| > 0
    ensures r.lat * |locs| as real == SumLat(locs) && r.lng * |locs| as real == SumLng(locs)
  {
    Location(SumLat(locs) / |locs| as real, SumLng(locs) / |locs| as real)
  }

  /** The mean lies within the latitude and longitude ranges of the points. */
  lemma AverageWithinRange(locs: seq<Location>)
    requires |locs| > 0
    ensures var r := AverageLocation(locs);
      && (exists i :: 0 <= i < |locs| && locs[i].lat <= r.lat)
      && (exists i :: 0 <= i < |locs| && locs[i].lat >= r.lat)
      && (exists i :: 0 <= i < |locs| && locs[i].lng <= r.lng)
      && (exists i :: 0 <= i < |locs| && locs[i].lng >= r.lng)
  {
    var r := AverageLocation(locs);
    SumLatBounds(locs, r.lat);
    SumLngBounds(locs, r.lng);
  }

  /** Points that all coincide average to that point. */
  lemma {:induction false} AverageOfEqualPoints(locs: seq<Location>, p: Location)
    requires |locs| > 0 && forall i :: 0 <= i < |locs| ==> locs[i] == p
    ensures AverageLocation(locs) == p
  {
    SumsOfEqualPoints(locs, p);
  }

  lemma {:induction false} SumsOfEqualPoints(locs: seq<Location>, p: Location)
    requires forall i :: 0 <= i < |locs| ==> locs[i] == p
    ensures SumLat(locs) == |locs| as real * p.lat && SumLng(locs) == |locs| as real * p.lng
  {
    if |locs| > 0 {
      SumsOfEqualPoints(locs[1..], p);
    }
  }

  function Locations(events: seq<Event>): (r: seq<Location>)
    ensures |r| == |events| && forall k :: 0 <= k < |r| ==> r[k] == events[k].location
  {
    seq(|events|, k requires 0 <= k < |events| => events[k].location)
  }

  /** The largest distance from `center` to an event, starting from 0. */
  function MaxDistance(center: Location, events: seq<Event>, dist: Distance): (m: real)
    ensures m >= 0.0
    ensures forall k :: 0 <= k < |events| ==> m >= dist(center, events[k].location)
    ensures m == 0.0 || exists k :: 0 <= k < |events| && m == dist(center, events[k].location)
  {
    if |events| == 0 then 0.0
    else
      var d := dist(center, events[0].location);
      var rest := MaxDistance(center, events[1..], dist);
      assert forall k :: 1 <= k < |events| ==> events[1..][k - 1] == events[k];
      if rest >= d then rest else d
  }

  function Min(a: real, b: real): real { if a <= b then a else b }
  function Max(a: real, b: real): real { if a >= b then a else b }

  /** `computeCoverRadius`: the farthest member plus a padding of a fifth of
      that distance, kept within [75, 250] metres, and at least 200 metres
      overall. */
  function CoverRadius(center: Location, events: seq<Event>, dist: Distance): (r: real)
    ensures r >= 200.0
    ensures forall k :: 0 <= k < |events| ==> r >= dist(center, events[k].location) + 75.0
    ensures r >= MaxDistance(center, events, dist) + 75.0
    ensures r <= Max(MaxDistance(center, events, dist) + 250.0, 200.0)
    // the padding regimes: the 75 m floor, a fifth of the distance, the 250 m cap
    ensures var m := MaxDistance(center, events, dist);
      && (m <= 375.0 ==> r == Max(m + 75.0, 200.0))
      && (375.0 <= m <= 1250.0 ==> r == 1.2 * m)
      && (m >= 1250.0 ==> r == m + 250.0)
  {
    var maxDistance := MaxDistance(center, events, dist);
    var safetyPadding := Min(Max(maxDistance * 0.2, 75.0), 250.0);
    Max(maxDistance + safetyPadding, 200.0)
  }

  function Ids(events: seq<Event>): (r: seq<string>)
    ensures |r| == |events| && forall k :: 0 <= k < |r| ==> r[k] == events[k].id
  {
    seq(|events|, k requires 0 <= k < |events| => events[k].id)
  }

  /** The member ids sorted by code units and joined with "|". */
  function ClusterId(events: seq<Event>): string {
    Join(SortStrings(Ids(events)), "|")
  }

  /** Equal member ids (in any order) give equal cluster ids. */
  lemma ClusterIdIgnoresOrder(a: seq<Event>, b: seq<Event>)
    requires multiset(Ids(a)) == multiset(Ids(b))
    ensures ClusterId(a) == ClusterId(b)
  {
    SortStringsDependsOnMultiset(Ids(a), Ids(b));
  }

  /** When no id contains "|", the cluster id splits back into the sorted
      member ids. */
  lemma ClusterIdSplits(events: seq<Event>)
    requires |events| > 0
    requires forall k :: 0 <= k < |events| ==> '|' !in events[k].id
    ensures Split(ClusterId(events), '|') == SortStrings(Ids(events))
  {
    var sorted := SortStrings(Ids(events));
    assert |multiset(sorted)| == |multiset(Ids(events))|;
    forall k | 0 <= k < |sorted| ensures '|' !in sorted[k] {
      assert sorted[k] in multiset(Ids(events));
    }
    SplitJoin(sorted, '|');
  }

  function MemberEvents(sp: Space, members: seq<nat>): (r: seq<Event>)
    requires InRange(members, |sp.recent|)
    ensures |r| == |members| && forall k :: 0 <= k < |r| ==> r[k] == sp.recent[members[k]]
  {
    seq(|members|, k requires 0 <= k < |members| => sp.recent[members[k]])
  }

  /** The emitted cluster for a member list (lines 120-134). */
  function BuildCluster(sp: Space, members: seq<nat>): (c: Cluster)
    requires InRange(members, |sp.recent|) && |members| > 0
    ensures c.events == MemberEvents(sp, members)
    ensures c.id == ClusterId(c.events)
    ensures c.center == AverageLocation(Locations(c.events))
    ensures c.radiusMeters == CoverRadius(c.center, c.events, sp.dist)
    ensures c.radiusMeters >= 200.0
    ensures forall k :: 0 <= k < |c.events| ==> c.radiusMeters >= sp.dist(c.center, c.events[k].location) + 75.0
  {
    var events := MemberEvents(sp, members);
    var center := AverageLocation(Locations(events));
    Cluster(ClusterId(events), center, CoverRadius(center, events, sp.dist), events)
  }

  // -----------------------------------------------------------------------
  // derivePickpocketClusters
  // -----------------------------------------------------------------------

  /** Every qualifying report before position `s` has been visited, and
      `visited` holds the ids of the expanded positions, each once. */
  ghost predicate Bookkeeping(g: Graph, s: nat, visited: set<string>, expanded: seq<nat>)
    requires |g.ids| == |g.nb|
  {
    && s <= |g.nb|
    && InRange(expanded, |g.nb|) && DistinctIds(g, expanded)
    && visited == IdsAt(g, expanded)
    && (forall i :: 0 <= i < s ==> g.ids[i] in visited)
  }

  /** Each emitted cluster was seeded before position `s` by a visited
      report, has the shape of a flood fill and is built from its members. */
  ghost predicate PlansHold(sp: Space, g: Graph, s: nat, visited: set<string>, clusters: seq<Cluster>, plan: seq<Plan>)
    requires |g.ids| == |g.nb| == |sp.recent|
  {
    && |plan| == |clusters|
    && (forall k :: 0 <= k < |plan| ==>
          ClusterShape(g, plan[k].seed, plan[k].members, plan[k].parents)
          && clusters[k] == BuildCluster(sp, plan[k].members)
          && |clusters[k].events| >= g.minimumEvents
          && plan[k].seed < s && g.ids[plan[k].seed] in visited)
  }

  /** Seeds come in list order and never share an id. */
  ghost predicate SeedsOrdered(g: Graph, plan: seq<Plan>)
    requires |g.ids| == |g.nb|
  {
    forall k, l :: 0 <= k < l < |plan| ==>
      plan[k].seed < plan[l].seed && plan[l].seed < |g.ids| && g.ids[plan[k].seed] != g.ids[plan[l].seed]
  }

  /** What the clustering loop has established after looking at the first
      `s` qualifying reports. */
  ghost predicate Progress(sp: Space, g: Graph, s: nat, visited: set<string>, expanded: seq<nat>,
                           clusters: seq<Cluster>, plan: seq<Plan>)
    requires |g.ids| == |g.nb| == |sp.recent|
  {
    && Bookkeeping(g, s, visited, expanded)
    && PlansHold(sp, g, s, visited, clusters, plan)
    && SeedsOrdered(g, plan)
  }

  /** Lines 80-90: a report whose id is new is marked visited. */
  lemma ProgressMark(sp: Space, g: Graph, s: nat, visited: set<string>, expanded: seq<nat>,
                     clusters: seq<Cluster>, plan: seq<Plan>)
    requires ValidGraph(g) && |g.nb| == |sp.recent| && s < |g.nb|
    requires Progress(sp, g, s, visited, expanded, clusters, plan)
    requires g.ids[s] !in visited
    ensures InRange(expanded + [s], |g.nb|) && DistinctIds(g, expanded + [s])
    ensures visited + {g.ids[s]} == IdsAt(g, expanded + [s])
    ensures Progress(sp, g, s + 1, visited + {g.ids[s]}, expanded + [s], clusters, plan)
  {
    IdsAtSnoc(g, expanded, s);
  }

  /** Lines 116-134: a finished cluster is emitted. */
  lemma PlansEmit(sp: Space, g: Graph, s: nat, visited: set<string>, clusters: seq<Cluster>, plan: seq<Plan>,
                  visited': set<string>, members: seq<nat>, parents: seq<nat>)
    requires ValidGraph(g) && |g.nb| == |sp.recent| && s < |g.nb|
    requires PlansHold(sp, g, s + 1, visited, clusters, plan)
    requires visited <= visited' && g.ids[s] in visited'
    requires ClusterShape(g, s, members, parents)
    ensures PlansHold(sp, g, s + 1, visited', clusters + [BuildCluster(sp, members)],
                      plan + [Plan(s, members, parents)])
  {
    var plan' := plan + [Plan(s, members, parents)];
    var clusters' := clusters + [BuildCluster(sp, members)];
    forall k | 0 <= k < |plan'|
      ensures ClusterShape(g, plan'[k].seed, plan'[k].members, plan'[k].parents)
      ensures clusters'[k] == BuildCluster(sp, plan'[k].members)
      ensures |clusters'[k].events| >= g.minimumEvents
      ensures plan'[k].seed < s + 1 && g.ids[plan'[k].seed] in visited'
    {
      if k < |plan| {
        assert plan'[k] == plan[k] && clusters'[k] == clusters[k];
      } else {
        assert plan'[k] == Plan(s, members, parents) && clusters'[k] == BuildCluster(sp, members);
        ShapeMeetsMinimum(g, s, members, parents);
      }
    }
  }

  lemma SeedsEmit(g: Graph, s: nat, plan: seq<Plan>, p: Plan)
    requires |g.ids| == |g.nb| && s < |g.nb| && p.seed == s
    requires SeedsOrdered(g, plan)
    requires forall k :: 0 <= k < |plan| ==> plan[k].seed < s && g.ids[plan[k].seed] != g.ids[s]
    ensures SeedsOrdered(g, plan + [p])
  {
    var plan' := plan + [p];
    forall k, l | 0 <= k < l < |plan'|
      ensures plan'[k].seed < plan'[l].seed && plan'[l].seed < |g.ids| && g.ids[plan'[k].seed] != g.ids[plan'[l].seed]
    {
      assert plan'[k] == plan[k];
      if l < |plan| {
        assert plan'[l] == plan[l];
      }
    }
  }

  /** Report x is a member of some emitted cluster. */
  ghost predicate InSomeCluster(plan: seq<Plan>, x: nat) {
    exists p :: 0 <= p < |plan| && x in plan[p].members
  }

  /** Every dense report expanded so far is a member of some cluster. */
  ghost predicate Covered(g: Graph, expanded: seq<nat>, plan: seq<Plan>) {
    forall k :: 0 <= k < |expanded| && expanded[k] < |g.nb| && IsCore(g, expanded[k]) ==>
      InSomeCluster(plan, expanded[k])
  }

  /** A report that is not dense may be expanded without a cluster. */
  lemma CoverSkip(g: Graph, expanded: seq<nat>, plan: seq<Plan>, s: nat)
    requires Covered(g, expanded, plan) && s < |g.nb| && !IsCore(g, s)
    ensures Covered(g, expanded + [s], plan)
  {
    var e := expanded + [s];
    forall k | 0 <= k < |e| && e[k] < |g.nb| && IsCore(g, e[k]) ensures InSomeCluster(plan, e[k]) {
      assert e[k] == expanded[k];
    }
  }

  /** A seed and the reports its flood fill expanded are all members of
      the cluster it emits. */
  lemma CoverEmit(g: Graph, expanded: seq<nat>, s: nat, expanded': seq<nat>, plan: seq<Plan>, p: Plan)
    requires Covered(g, expanded, plan)
    requires |expanded'| >= |expanded| + 1 && expanded'[..|expanded| + 1] == expanded + [s]
    requires s in p.members
    requires forall k :: |expanded| + 1 <= k < |expanded'| ==> expanded'[k] in p.members
    ensures Covered(g, expanded', plan + [p])
  {
    var plan' := plan + [p];
    assert plan'[|plan|] == p;
    forall k | 0 <= k < |expanded'| && expanded'[k] < |g.nb| && IsCore(g, expanded'[k])
      ensures InSomeCluster(plan', expanded'[k])
    {
      if k < |expanded| {
        assert expanded'[k] == (expanded + [s])[k] == expanded[k];
        var q :| 0 <= q < |plan| && expanded[k] in plan[q].members;
        assert plan'[q] == plan[q];
      } else if k == |expanded| {
        assert expanded'[k] == (expanded + [s])[k] == s;
      }
    }
  }

  /** With distinct ids, every report is expanded once all ids are visited,
      so every dense report is a member of some cluster. */
  lemma CoverAll(g: Graph, expanded: seq<nat>, plan: seq<Plan>)
    requires |g.ids| == |g.nb| && InRange(expanded, |g.nb|) && Covered(g, expanded, plan)
    requires forall i :: 0 <= i < |g.nb| ==> g.ids[i] in IdsAt(g, expanded)
    requires forall a, b :: 0 <= a < b < |g.ids| ==> g.ids[a] != g.ids[b]
    ensures forall i :: 0 <= i < |g.nb| && IsCore(g, i) ==> InSomeCluster(plan, i)
  {
    forall i | 0 <= i < |g.nb| && IsCore(g, i) ensures InSomeCluster(plan, i) {
      assert g.ids[i] in IdsAt(g, expanded);
      var k :| 0 <= k < |expanded| && g.ids[expanded[k]] == g.ids[i];
      SameIdSamePosition(g, expanded[k], i);
    }
  }

  lemma SameIdSamePosition(g: Graph, a: nat, b: nat)
    requires a < |g.ids| && b < |g.ids|
    requires forall x, y :: 0 <= x < y < |g.ids| ==> g.ids[x] != g.ids[y]
    ensures g.ids[a] == g.ids[b] ==> a == b
  {
    if a < b {
      assert g.ids[a] != g.ids[b];
    } else if b < a {
      assert g.ids[b] != g.ids[a];
    }
  }

  /** No two qualifying reports share an id. */
  ghost predicate AllIdsDistinct(g: Graph) {
    forall a, b :: 0 <= a < b < |g.ids| ==> g.ids[a] != g.ids[b]
  }

  /** Report i is in no cluster before the k-th. */
  ghost predicate FirstIn(plan: seq<Plan>, k: nat, i: nat)
    requires k <= |plan|
  {
    forall l :: 0 <= l < k ==> i !in plan[l].members
  }

  /** Each cluster is closed under the dense members it took first: a dense
      member that no earlier cluster holds brings all its neighbours in. */
  ghost predicate FirstClosed(g: Graph, plan: seq<Plan>) {
    forall k, i :: 0 <= k < |plan| && i < |g.nb| && i in plan[k].members && IsCore(g, i) && FirstIn(plan, k, i) ==>
      NeighborsIn(g, i, plan[k].members)
  }

  /** With distinct ids, a visited report sits at some expanded position. */
  lemma ExpandedAt(g: Graph, expanded: seq<nat>, i: nat) returns (q: nat)
    requires InRange(expanded, |g.ids|) && AllIdsDistinct(g)
    requires i < |g.ids| && g.ids[i] in IdsAt(g, expanded)
    ensures q < |expanded| && expanded[q] == i
  {
    q :| 0 <= q < |expanded| && g.ids[expanded[q]] == g.ids[i];
    SameIdSamePosition(g, expanded[q], i);
  }

  /** A seed's neighbours are members of its cluster. */
  lemma SeedNeighborsIn(g: Graph, seed: nat, members: seq<nat>, parents: seq<nat>)
    requires ClusterShape(g, seed, members, parents)
    ensures NeighborsIn(g, seed, members)
  {
    var n := |g.nb[seed]|;
    forall j | j in g.nb[seed] ensures j in members {
      assert j in members[..n + 1];
    }
  }

  /** Emitting a cluster keeps every cluster closed under the dense members
      it took first: such a member of the new cluster is its seed or was
      expanded by its fill, because any report expanded before is already
      in an earlier cluster. */
  lemma ClosedEmit(g: Graph, expanded: seq<nat>, s: nat, expanded': seq<nat>, plan: seq<Plan>,
                   members: seq<nat>, parents: seq<nat>)
    requires |g.ids| == |g.nb| && AllIdsDistinct(g)
    requires FirstClosed(g, plan) && Covered(g, expanded, plan)
    requires InRange(expanded', |g.nb|)
    requires |expanded'| >= |expanded| + 1 && expanded'[..|expanded| + 1] == expanded + [s]
    requires ClusterShape(g, s, members, parents)
    requires forall k :: 0 <= k < |members| ==> g.ids[members[k]] in IdsAt(g, expanded')
    requires forall k :: |expanded| + 1 <= k < |expanded'| && IsCore(g, expanded'[k]) ==>
               NeighborsIn(g, expanded'[k], members)
    ensures FirstClosed(g, plan + [Plan(s, members, parents)])
  {
    var plan' := plan + [Plan(s, members, parents)];
    forall k, i | 0 <= k < |plan'| && i < |g.nb| && i in plan'[k].members && IsCore(g, i) && FirstIn(plan', k, i)
      ensures NeighborsIn(g, i, plan'[k].members)
    {
      if k < |plan| {
        assert plan'[k] == plan[k];
        assert FirstIn(plan, k, i) by {
          forall l | 0 <= l < k ensures i !in plan[l].members {
            assert plan'[l] == plan[l];
          }
        }
      } else {
        assert plan'[k].members == members;
        assert FirstIn(plan, |plan|, i) by {
          forall l | 0 <= l < |plan| ensures i !in plan[l].members {
            assert plan'[l] == plan[l];
          }
        }
        FirstNotExpanded(g, expanded, plan, i);
        assert forall t :: 0 <= t < |expanded| ==> expanded'[t] == (expanded + [s])[t] == expanded[t];
        var q := ExpandedAt(g, expanded', i);
        if q == |expanded| {
          assert (expanded + [s])[q] == s;
          SeedNeighborsIn(g, s, members, parents);
        }
      }
    }
  }

  /** A dense report in no cluster yet was not expanded before. */
  lemma FirstNotExpanded(g: Graph, expanded: seq<nat>, plan: seq<Plan>, i: nat)
    requires Covered(g, expanded, plan) && i < |g.nb| && IsCore(g, i) && FirstIn(plan, |plan|, i)
    ensures forall q :: 0 <= q < |expanded| ==> expanded[q] != i
  {
    forall q | 0 <= q < |expanded| ensures expanded[q] != i {
      assert expanded[q] == i ==> InSomeCluster(plan, i);
    }
  }

  /** One iteration of the outer loop (lines 80-134): report s is skipped
      when its id was visited, rejected when it is not dense, and otherwise
      seeds a cluster. */
  method VisitReport(sp: Space, g: Graph, s: nat, visited: set<string>, expanded: seq<nat>,
                     clusters: seq<Cluster>, plan: seq<Plan>)
    returns (visited': set<string>, expanded': seq<nat>, clusters': seq<Cluster>, plan': seq<Plan>)
    requires ValidGraph(g) && |g.nb| == |sp.recent| && s < |g.nb|
    requires Progress(sp, g, s, visited, expanded, clusters, plan)
    requires Covered(g, expanded, plan)
    ensures Progress(sp, g, s + 1, visited', expanded', clusters', plan')
    ensures Covered(g, expanded', plan')
    ensures g.ids[s] in visited ==> (visited', expanded', clusters', plan') == (visited, expanded, clusters, plan)
    ensures !IsCore(g, s) ==> clusters' == clusters && plan' == plan
    // an unvisited dense report seeds exactly one new cluster
    ensures g.ids[s] !in visited && IsCore(g, s) ==>
              |plan'| == |plan| + 1 && plan'[..|plan|] == plan && plan'[|plan|].seed == s
    // with distinct ids the clusters stay closed under the dense members they took first
    ensures AllIdsDistinct(g) && FirstClosed(g, plan) ==> FirstClosed(g, plan')
  {
    visited', expanded', clusters', plan' := visited, expanded, clusters, plan;
    if g.ids[s] in visited {
      return;
    }
    ProgressMark(sp, g, s, visited, expanded, clusters, plan);
    visited' := visited + {g.ids[s]};
    expanded' := expanded + [s];
    if |g.nb[s]| + 1 < g.minimumEvents {
      CoverSkip(g, expanded, plan, s);
      return;
    }
    ghost var markedVisited := visited';
    ghost var marked := expanded';
    var members, parents;
    members, parents, visited', expanded' := ExpandCluster(g, s, visited', expanded');
    ShapeMeetsMinimum(g, s, members, parents);
    if |members| < g.minimumEvents {
      assert false;
    }
    PlansEmit(sp, g, s, markedVisited, clusters, plan, visited', members, parents);
    SeedsEmit(g, s, plan, Plan(s, members, parents));
    CoverEmit(g, expanded, s, expanded', plan, Plan(s, members, parents));
    if AllIdsDistinct(g) && FirstClosed(g, plan) {
      ClosedEmit(g, expanded, s, expanded', plan, members, parents);
    }
    clusters' := clusters + [BuildCluster(sp, members)];
    plan' := plan + [Plan(s, members, parents)];
  }

  /** The emitted clusters match their plans: each has the shape of a
      flood fill, is built from its members and reaches the minimum size. */
  ghost predicate ClustersFromPlans(sp: Space, clusters: seq<Cluster>, plan: seq<Plan>) {
    var g := NeighborGraph(sp);
    && |plan| == |clusters|
    && (forall k :: 0 <= k < |plan| ==>
          ClusterShape(g, plan[k].seed, plan[k].members, plan[k].parents)
          && clusters[k] == BuildCluster(sp, plan[k].members))
    && (forall k :: 0 <= k < |clusters| ==> |clusters[k].events| >= sp.minimumEvents)
  }

  /** Clusters are seeded in list order, never twice from one id. */
  ghost predicate SeededInOrder(sp: Space, plan: seq<Plan>) {
    forall k, l :: 0 <= k < l < |plan| ==>
      plan[k].seed < plan[l].seed < |sp.recent| && sp.recent[plan[k].seed].id != sp.recent[plan[l].seed].id
  }

  /** Every qualifying report's id is expanded, and no id twice. */
  ghost predicate ExpandsAll(sp: Space, expanded: seq<nat>) {
    var g := NeighborGraph(sp);
    && InRange(expanded, |sp.recent|) && DistinctIds(g, expanded)
    && (forall i :: 0 <= i < |sp.recent| ==> sp.recent[i].id in IdsAt(g, expanded))
  }

  ghost predicate DistinctReports(sp: Space) {
    forall a, b :: 0 <= a < b < |sp.recent| ==> sp.recent[a].id != sp.recent[b].id
  }

  /** Every dense qualifying report is a member of some cluster. */
  ghost predicate DenseClustered(sp: Space, plan: seq<Plan>) {
    forall i :: 0 <= i < |sp.recent| && IsCore(NeighborGraph(sp), i) ==>
      exists k :: 0 <= k < |plan| && i in plan[k].members
  }

  /** What the finished loop has established, in terms of the reports. */
  lemma FinishRun(sp: Space, g: Graph, visited: set<string>, expanded: seq<nat>,
                  clusters: seq<Cluster>, plan: seq<Plan>)
    requires g == NeighborGraph(sp)
    requires Progress(sp, g, |sp.recent|, visited, expanded, clusters, plan)
    requires Covered(g, expanded, plan)
    ensures ClustersFromPlans(sp, clusters, plan) && SeededInOrder(sp, plan) && ExpandsAll(sp, expanded)
    ensures DistinctReports(sp) ==> DenseClustered(sp, plan)
  {
    FinishPlans(sp, g, visited, clusters, plan);
    assert Bookkeeping(g, |sp.recent|, visited, expanded);
    if DistinctReports(sp) {
      CoverAll(g, expanded, plan);
    }
  }

  lemma FinishPlans(sp: Space, g: Graph, visited: set<string>, clusters: seq<Cluster>, plan: seq<Plan>)
    requires g == NeighborGraph(sp)
    requires PlansHold(sp, g, |sp.recent|, visited, clusters, plan) && SeedsOrdered(g, plan)
    ensures ClustersFromPlans(sp, clusters, plan) && SeededInOrder(sp, plan)
  {
  }

  /** `derivePickpocketClusters(events, options)` at time `now`.  Besides the
      clusters it returns each cluster's seed and member positions among
      the qualifying reports, and the positions in the order they were
      expanded. */
  method DerivePickpocketClusters(events: seq<Event>, now: int, dist: Distance, options: ClusterOptions)
    returns (clusters: seq<Cluster>, plan: seq<Plan>, expanded: seq<nat>)
    ensures var sp := Space(RecentReports(events, now, options.lookbackHours), dist,
                            options.proximityMeters, options.minimumEvents);
      && (|sp.recent| == 0 ==> clusters == [])
      && ClustersFromPlans(sp, clusters, plan)
      && SeededInOrder(sp, plan)
      && ExpandsAll(sp, expanded)
      && (DistinctReports(sp) ==> DenseClustered(sp, plan))
      // with distinct ids each cluster holds every neighbour of a dense
      // member that no earlier cluster took
      && (DistinctReports(sp) ==> FirstClosed(NeighborGraph(sp), plan))
  {
    var recent := RecentReports(events, now, options.lookbackHours);
    var sp := Space(recent, dist, options.proximityMeters, options.minimumEvents);
    var g := NeighborGraph(sp);
    clusters := [];
    plan := [];
    expanded := [];
    if |recent| == 0 {
      return;
    }
    var visited: set<string> := {};
    for s := 0 to |recent|
      invariant Progress(sp, g, s, visited, expanded, clusters, plan)
      invariant Covered(g, expanded, plan)
      invariant AllIdsDistinct(g) ==> FirstClosed(g, plan)
    {
      visited, expanded, clusters, plan := VisitReport(sp, g, s, visited, expanded, clusters, plan);
    }
    FinishRun(sp, g, visited, expanded, clusters, plan);
  }
}

=== FILE: jsnumbers.dfy ===
/** The JavaScript `number` values the request handlers inspect: a finite
    value, `NaN`, or one of the two infinities.  Finite values are exact
    reals; the model does not round to binary64. */
module JsNumbers {

  datatype JsNumber = Finite(value: real) | NaN | Infinity(positive: bool)

  /** `Math.round(x)` on a finite value: the nearest integer, halves rounded
      toward positive infinity. */
  function Round(x: real): (r: int)
    ensures r as real - 0.5 <= x < r as real + 0.5
  {
    (x + 0.5).Floor
  }

  /** The value counts as true in a condition (`if (x)`, `x || y`). */
  predicate Truthy(n: JsNumber) {
    match n
    case Finite(v) => v != 0.0
    case NaN => false
    case Infinity(_) => true
  }

  /** `x > 0`, which is false for `NaN`. */
  predicate Positive(n: JsNumber) {
    match n
    case Finite(v) => v > 0.0
    case NaN => false
    case Infinity(p) => p
  }

  /** `Math.max(lo, Math.min(x, hi))` on integers. */
  function ClampInt(x: int, lo: int, hi: int): (r: int)
    requires lo <= hi
    ensures lo <= r <= hi
    ensures lo <= x <= hi ==> r == x
    ensures x < lo ==> r == lo
    ensures x > hi ==> r == hi
  {
    if x < lo then lo else if x > hi then hi else x
  }
}

=== FILE: mock_api.dfy ===
/** The development mock of the events API: an in-memory list of events
    (which `getAllEvents` returns as it stands) that can be looked up by
    id, appended to and verified.  The simulated network delays are left
    out; the random id and the creation time of a new event are
    parameters. */
module MockApi {

  import opened Wrappers
  import opened Domain

  /** `getEventById`: the first event with the id, or null. */
  function EventById(store: seq<Event>, id: string): (r: Option<Event>)
    ensures r.None? <==> forall k :: 0 <= k < |store| ==> store[k].id != id
    ensures r.Some? ==> r.value in store && r.value.id == id
    ensures r.Some? ==> exists k :: 0 <= k < |store| && store[k] == r.value
                          && forall j :: 0 <= j < k ==> store[j].id != id
  {
    match FindIndex(store, id)
    case None => None
    case Some(k) => Some(store[k])
  }

  /** The fields a caller supplies for a new event. */
  datatype NewEvent = NewEvent(
    title: string,
    description: string,
    category: string,
    subcategory: Option<string>,
    location: Location,
    address: string,
    imageUrl: Option<string>,
    radiusMeters: Option<real>)

  /** `createEvent`: the input's fields with a fresh id, the current time,
      no verifications and the active flag, appended at the end. */
  function CreateEvent(store: seq<Event>, input: NewEvent, freshId: string, now: int): (r: (seq<Event>, Event))
    ensures r.0 == store + [r.1]
    ensures r.1.id == freshId && r.1.createdAt == Some(now)
    ensures r.1.verificationCount == 0 && r.1.isActive
    ensures r.1.title == input.title && r.1.description == input.description
    ensures r.1.category == input.category && r.1.subcategory == input.subcategory
    ensures r.1.location == input.location && r.1.address == input.address
    ensures r.1.imageUrl == input.imageUrl && r.1.radiusMeters == input.radiusMeters
  {
    var e := Event(freshId, input.title, input.description, input.category, input.subcategory,
                   input.location, input.address, Some(now), input.imageUrl, 0, true, input.radiusMeters);
    (store + [e], e)
  }

  /** An event with one more verification and nothing else changed. */
  function Verified(e: Event): (r: Event)
    ensures r.verificationCount == e.verificationCount + 1
    ensures r.(verificationCount := e.verificationCount) == e
  {
    e.(verificationCount := e.verificationCount + 1)
  }

  /** `verifyEvent`: the first event with the id gains one verification;
      an unknown id changes nothing. */
  function VerifyEvent(store: seq<Event>, id: string): (r: seq<Event>)
    ensures |r| == |store|
    ensures FindIndex(store, id).None? ==> r == store
    ensures FindIndex(store, id).Some? ==>
              var k := FindIndex(store, id).value;
              r == store[k := Verified(store[k])]
  {
    match FindIndex(store, id)
    case None => store
    case Some(k) => store[k := Verified(store[k])]
  }

  /** A new event can be looked up by its id when the id was fresh. */
  lemma CreatedEventIsFound(store: seq<Event>, input: NewEvent, freshId: string, now: int)
    requires forall k :: 0 <= k < |store| ==> store[k].id != freshId
    ensures EventById(CreateEvent(store, input, freshId, now).0, freshId) == Some(CreateEvent(store, input, freshId, now).1)
  {
    var (s, e) := CreateEvent(store, input, freshId, now);
    assert s[|store|] == e;
    assert FindIndex(s, freshId) == Some(|store|);
  }

  /** After a verification the lookup sees one more verification, and the
      other ids are looked up as before. */
  lemma VerifyThenLookup(store: seq<Event>, id: string, other: string)
    requires other != id
    ensures EventById(VerifyEvent(store, id), other) == EventById(store, other)
    ensures EventById(store, id).None? ==> EventById(VerifyEvent(store, id), id).None?
    ensures EventById(store, id).Some? ==>
              EventById(VerifyEvent(store, id), id)
              == Some(Verified(EventById(store, id).value))
  {
    var r := VerifyEvent(store, id);
    assert forall k :: 0 <= k < |r| ==> r[k].id == store[k].id;
    FindIndexSameIds(store, r, other);
    FindIndexSameIds(store, r, id);
    LookupOther(store, r, id, other);
    LookupVerified(store, r, id);
  }

  /** The lookup of the verified id sees one more verification. */
  lemma LookupVerified(store: seq<Event>, r: seq<Event>, id: string)
    requires r == VerifyEvent(store, id) && FindIndex(r, id) == FindIndex(store, id)
    ensures EventById(store, id).None? ==> EventById(r, id).None?
    ensures EventById(store, id).Some? ==>
              EventById(r, id) == Some(Verified(EventById(store, id).value))
  {
    match FindIndex(store, id)
    case None =>
      assert EventById(store, id).None?;
    case Some(k) =>
      VerifiedAt(store, id, k);
      LookupAt(store, id, k);
      LookupAt(r, id, k);
  }

  /** Verification bumps the count of the event at the first position
      holding the id. */
  lemma VerifiedAt(store: seq<Event>, id: string, k: nat)
    requires FindIndex(store, id) == Some(k)
    ensures VerifyEvent(store, id)[k] == Verified(store[k])
  {
  }

  /** The lookup is the event at the first position holding the id. */
  lemma LookupAt(store: seq<Event>, id: string, k: nat)
    requires FindIndex(store, id) == Some(k)
    ensures EventById(store, id) == Some(store[k])
  {
  }

  /** Lookups of another id see the unchanged event. */
  lemma LookupOther(store: seq<Event>, r: seq<Event>, id: string, other: string)
    requires other != id && r == VerifyEvent(store, id)
    requires FindIndex(r, other) == FindIndex(store, other)
    ensures EventById(r, other) == EventById(store, other)
  {
    match FindIndex(store, other)
    case None =>
    case Some(j) =>
      assert FindIndex(store, id).Some? ==> j != FindIndex(store, id).value;
      assert r[j] == store[j];
  }

  /** Lists with the same ids position by position have the same lookups. */
  lemma {:induction false} FindIndexSameIds(a: seq<Event>, b: seq<Event>, id: string)
    requires |a| == |b| && forall k :: 0 <= k < |a| ==> a[k].id == b[k].id
    ensures FindIndex(a, id) == FindIndex(b, id)
  {
    if |a| > 0 && a[0].id != id {
      assert forall k :: 0 <= k < |a[1..]| ==> a[1..][k].id == b[1..][k].id;
      FindIndexSameIds(a[1..], b[1..], id);
    }
  }
}

=== FILE: password_visibility.dfy ===
/** The show-password toggle: a single flag, hidden at first. */
module PasswordVisibility {

  const Initial: bool := false

  function Toggle(visible: bool): (r: bool)
    ensures r != visible
  {
    !visible
  }

  function Show(visible: bool): (r: bool)
    ensures r
  {
    true
  }

  function Hide(visible: bool): (r: bool)
    ensures !r
  {
    false
  }

  /** Two toggles restore the flag; showing or hiding twice is the same as
      once; a toggle from the initial state shows the password. */
  lemma VisibilityLaws(visible: bool)
    ensures Toggle(Toggle(visible)) == visible
    ensures Show(Show(visible)) == Show(visible) && Hide(Hide(visible)) == Hide(visible)
    ensures Toggle(Initial) == Show(Initial)
  {
  }
}

=== FILE: report_form.dfy ===
/** The incident report form: its schema (field lengths, the category
    list and the crime-alert subcategory refinement), the category picker's
    effect on the subcategory, and the payload handed to the submit
    callback.  The crime-alert subcategory list is the parameter `subs`. */
module ReportForm {

  import opened Wrappers
  import opened JsNumbers
  import opened Text

  /** The categories the form offers, in its own order. */
  const CategoryValues: seq<string> := ["danger", "blocked-path", "protest", "event", "crime-alert"]
  const CrimeAlert := "crime-alert"

  const MinTitle := 3
  const MinDescription := 10
  const MinAddress := 5

  const TitleMessage := "Title must be at least 3 characters"
  const DescriptionMessage := "Description must be at least 10 characters"
  const CategoryMessage := "Please select a category"
  const AddressMessage := "Address must be at least 5 characters"
  const SubcategoryMessage := "Please select a subcategory"
  /** The schema library's own text for a value outside the subcategory
      list; its wording is not modelled. */
  const InvalidSubcategoryMessage := "Invalid enum value"

  datatype Field = Title | Description | Category | Address | Subcategory

  /** The form values: the text inputs always hold strings; the category
      and subcategory may be unset. */
  datatype ReportData = ReportData(
    title: string,
    description: string,
    category: Option<string>,
    address: string,
    imageUrl: Option<string>,
    subcategory: Option<string>)

  /** The value-level reading of the schema: every rule the form states,
      lengths counted in UTF-16 code units as the schema library does. */
  predicate Acceptable(d: ReportData, subs: seq<string>) {
    && Utf16Length(d.title) >= MinTitle
    && Utf16Length(d.description) >= MinDescription
    && d.category.Some? && d.category.value in CategoryValues
    && Utf16Length(d.address) >= MinAddress
    && (d.subcategory.Some? ==> d.subcategory.value in subs)
    && (d.category == Some(CrimeAlert) ==> d.subcategory.Some?)
  }

  /** The first error the schema reports for each field.  A subcategory
      outside the list stops the refinement from running; otherwise a
      crime alert without a subcategory fails on the subcategory path. */
  function Validate(d: ReportData, subs: seq<string>): (r: map<Field, string>)
    ensures Title in r <==> Utf16Length(d.title) < MinTitle
    ensures Description in r <==> Utf16Length(d.description) < MinDescription
    ensures Category in r <==> !(d.category.Some? && d.category.value in CategoryValues)
    ensures Address in r <==> Utf16Length(d.address) < MinAddress
    ensures Subcategory in r <==>
              (d.subcategory.Some? && d.subcategory.value !in subs) || (d.category == Some(CrimeAlert) && d.subcategory.None?)
    ensures Title in r ==> r[Title] == TitleMessage
    ensures Description in r ==> r[Description] == DescriptionMessage
    ensures Category in r ==> r[Category] == CategoryMessage
    ensures Address in r ==> r[Address] == AddressMessage
    ensures d.subcategory.None? && Subcategory in r ==> r[Subcategory] == SubcategoryMessage
  {
    var m0: map<Field, string> := map[];
    var m1 := if Utf16Length(d.title) < MinTitle then m0[Title := TitleMessage] else m0;
    var m2 := if Utf16Length(d.description) < MinDescription then m1[Description := DescriptionMessage] else m1;
    var m3 := if d.category.Some? && d.category.value in CategoryValues then m2 else m2[Category := CategoryMessage];
    var m4 := if Utf16Length(d.address) < MinAddress then m3[Address := AddressMessage] else m3;
    if d.subcategory.Some? && d.subcategory.value !in subs then m4[Subcategory := InvalidSubcategoryMessage]
    else if d.category == Some(CrimeAlert) && d.subcategory.None? then m4[Subcategory := SubcategoryMessage]
    else m4
  }

  /** The schema accepts exactly the acceptable values. */
  lemma ValidateAcceptsExactly(d: ReportData, subs: seq<string>)
    ensures Validate(d, subs) == map[] <==> Acceptable(d, subs)
  {
    var r := Validate(d, subs);
    if !Acceptable(d, subs) {
      if Utf16Length(d.title) < MinTitle { assert Title in r; }
      else if Utf16Length(d.description) < MinDescription { assert Description in r; }
      else if !(d.category.Some? && d.category.value in CategoryValues) { assert Category in r; }
      else if Utf16Length(d.address) < MinAddress { assert Address in r; }
      else { assert Subcategory in r; }
    }
  }

  /** A title of two characters, the second outside the Basic Multilingual
      Plane, is three code units long and meets the minimum. */
  lemma AstralTitleIsLongEnough(d: ReportData, subs: seq<string>)
    ensures Title !in Validate(d.(title := "a" + "\U{1F600}"), subs)
  {
    Utf16LengthConcat("a", "\U{1F600}");
    Utf16LengthOfBmp("a");
    Utf16LengthOfAstral('\U{1F600}');
  }

  /** Categories other than crime alerts accept an absent subcategory. */
  lemma OtherCategoriesNeedNoSubcategory(d: ReportData, subs: seq<string>)
    requires d.category.Some? && d.category.value in CategoryValues && d.category.value != CrimeAlert
    requires d.subcategory.None?
    ensures Subcategory !in Validate(d, subs)
  {
  }

  /** `handleCategoryChange`: set the category; a crime alert gets the
      first subcategory, any other category none. */
  function ChangeCategory(d: ReportData, value: string, subs: seq<string>): (r: ReportData)
    requires |subs| >= 1
    ensures r.category == Some(value)
    ensures value == CrimeAlert ==> r.subcategory == Some(subs[0])
    ensures value != CrimeAlert ==> r.subcategory.None?
    ensures r.title == d.title && r.description == d.description && r.address == d.address && r.imageUrl == d.imageUrl
  {
    d.(category := Some(value), subcategory := if value == CrimeAlert then Some(subs[0]) else None)
  }

  /** A category chosen through the picker never leaves the subcategory in
      error, and picking an offered category clears the category error. */
  lemma ChangeCategorySatisfiesRefinement(d: ReportData, value: string, subs: seq<string>)
    requires |subs| >= 1
    ensures Subcategory !in Validate(ChangeCategory(d, value, subs), subs)
    ensures value in CategoryValues ==> Category !in Validate(ChangeCategory(d, value, subs), subs)
  {
  }

  /** What the form hands to its submit callback. */
  datatype Payload = Payload(
    title: string,
    description: string,
    category: string,
    address: string,
    imageUrl: Option<string>,
    subcategory: Option<string>,
    radiusMeters: Option<JsNumber>)

  /** `onFormSubmit`: the validated values, the uploaded image (which
      replaces any image URL among the values, even when there is none)
      and the radius only when it is a positive number. */
  function BuildPayload(d: ReportData, uploaded: Option<string>, radius: Option<JsNumber>): (r: Payload)
    requires d.category.Some?
    ensures r.title == d.title && r.description == d.description && r.address == d.address
    ensures r.category == d.category.value && r.subcategory == d.subcategory
    ensures r.imageUrl == uploaded
    ensures r.radiusMeters.Some? <==> radius.Some? && Positive(radius.value)
    ensures r.radiusMeters.Some? ==> r.radiusMeters == radius
  {
    var kept := if radius.Some? && Truthy(radius.value) && Positive(radius.value) then radius else None;
    Payload(d.title, d.description, d.category.value, d.address, uploaded, d.subcategory, kept)
  }

  /** A zero, negative or `NaN` radius is never sent. */
  lemma NonPositiveRadiusDropped(d: ReportData, uploaded: Option<string>, x: real)
    requires d.category.Some? && x <= 0.0
    ensures BuildPayload(d, uploaded, Some(Finite(x))).radiusMeters.None?
    ensures BuildPayload(d, uploaded, Some(NaN)).radiusMeters.None?
  {
  }
}

=== FILE: report_page.dfy ===
/** The report page's gate: whether the signed-in user may report, which
    notice explains why not, loading the reporter's ban from the profile,
    and the submit guard.  The clock and date parsing are parameters
    (`now` in milliseconds, `parse` from the stored text to milliseconds
    when it is a valid date). */
module ReportPage {

  import opened Wrappers
  import opened Domain
  import MockApi

  const ProfileErrorText := "We couldn't verify your reporting status. Please try again shortly."

  /** The page state the gate reads. */
  datatype Page = Page(signedIn: bool, banUntil: Option<string>, isProfileLoading: bool, profileError: Option<string>)

  predicate Present(s: Option<string>) {
    s.Some? && s.value != ""
  }

  /** `isBanActive`: a stored ban time that parses to a moment after now. */
  predicate BanActive(banUntil: Option<string>, parse: string -> Option<int>, now: int) {
    Present(banUntil) && parse(banUntil.value).Some? && parse(banUntil.value).value > now
  }

  /** `isReportingBlocked`. */
  predicate Blocked(p: Page, parse: string -> Option<int>, now: int) {
    !p.signedIn || p.isProfileLoading || BanActive(p.banUntil, parse, now) || Present(p.profileError)
  }

  /** The notices the page shows; a ban notice carries the ban's end, which
      the page prints with the locale's date format and a relative time. */
  datatype Notice = SignInRequired | CheckingStatus | BannedUntil(until: int) | BannedNow | ProfileProblem(message: string)

  /** `blockedMessage`: sign-in first, then the status check, then the ban,
      then the profile error; nothing when reporting is open. */
  function BlockedNotice(p: Page, parse: string -> Option<int>, now: int): (r: Option<Notice>)
    ensures !p.signedIn ==> r == Some(SignInRequired)
    ensures p.signedIn && p.isProfileLoading ==> r == Some(CheckingStatus)
    ensures p.signedIn && !p.isProfileLoading && BanActive(p.banUntil, parse, now) ==>
              r == Some(BannedUntil(parse(p.banUntil.value).value))
    ensures p.signedIn && !p.isProfileLoading && !BanActive(p.banUntil, parse, now) && Present(p.profileError) ==>
              r == Some(ProfileProblem(p.profileError.value))
  {
    if !p.signedIn then Some(SignInRequired)
    else if p.isProfileLoading then Some(CheckingStatus)
    else if BanActive(p.banUntil, parse, now) && Present(p.banUntil) then
      match parse(p.banUntil.value)
      case Some(t) => Some(BannedUntil(t))
      case None => Some(BannedNow)
    else if Present(p.profileError) then Some(ProfileProblem(p.profileError.value))
    else None
  }

  /** A notice is shown exactly when reporting is blocked, and the fallback
      ban notice without a date is never shown: an active ban always has a
      date that parses. */
  lemma NoticeIffBlocked(p: Page, parse: string -> Option<int>, now: int)
    ensures BlockedNotice(p, parse, now).Some? <==> Blocked(p, parse, now)
    ensures BlockedNotice(p, parse, now) != Some(BannedNow)
  {
  }

  /** How loading the profile's ban ends: no session, a failed query, or
      the row's ban column (absent for a missing row). */
  datatype ProfileLoad = NoSession | Failed | Loaded(banUntil: Option<string>)

  /** The start of the load: without a session everything is cleared;
      otherwise the page is marked loading and the old error dropped. */
  function StartLoad(p: Page, hasSession: bool): (r: Page)
    ensures r.signedIn == p.signedIn && r.profileError.None?
    ensures !hasSession ==> r.banUntil.None? && !r.isProfileLoading
    ensures hasSession ==> r.isProfileLoading && r.banUntil == p.banUntil
  {
    if !hasSession then p.(banUntil := None, profileError := None, isProfileLoading := false)
    else p.(isProfileLoading := true, profileError := None)
  }

  /** The end of the load: a failure shows its error and clears the ban;
      a row gives its ban. */
  function FinishLoad(p: Page, o: ProfileLoad): (r: Page)
    ensures r.signedIn == p.signedIn && !r.isProfileLoading
    ensures o.Failed? ==> r.profileError == Some(ProfileErrorText) && r.banUntil.None?
    ensures o.Loaded? ==> r.banUntil == o.banUntil && r.profileError == p.profileError
    ensures o.NoSession? ==> r.banUntil.None? && r.profileError.None?
  {
    match o
    case NoSession => p.(banUntil := None, profileError := None, isProfileLoading := false)
    case Failed => p.(profileError := Some(ProfileErrorText), banUntil := None, isProfileLoading := false)
    case Loaded(b) => p.(banUntil := b, isProfileLoading := false)
  }

  /** A failed load keeps a signed-in user blocked, with the error as the
      notice, although the ban it could not read is cleared. */
  lemma FailedLoadStillBlocks(p: Page, parse: string -> Option<int>, now: int)
    requires p.signedIn
    ensures var after := FinishLoad(StartLoad(p, true), Failed);
            Blocked(after, parse, now) && !BanActive(after.banUntil, parse, now)
            && BlockedNotice(after, parse, now) == Some(ProfileProblem(ProfileErrorText))
  {
  }

  /** While the profile loads, a signed-in user is blocked with the status
      check as the notice. */
  lemma LoadingBlocks(p: Page, parse: string -> Option<int>, now: int)
    requires p.signedIn
    ensures BlockedNotice(StartLoad(p, true), parse, now) == Some(CheckingStatus)
  {
  }

  /** `handleSubmit`: nothing without a picked location or while blocked;
      otherwise the form's data at the picked location, with the slider's
      radius only when it is above zero. */
  function Submit(p: Page, parse: string -> Option<int>, now: int, picked: Option<Location>,
                  radius: real, data: MockApi.NewEvent): (r: Option<MockApi.NewEvent>)
    ensures r.Some? <==> picked.Some? && !Blocked(p, parse, now)
    ensures r.Some? ==> r.value.location == picked.value && r.value.title == data.title
    ensures r.Some? ==> (r.value.radiusMeters.Some? <==> radius > 0.0)
    ensures r.Some? && radius > 0.0 ==> r.value.radiusMeters == Some(radius)
    // every field other than the location and the radius is the form's
    ensures r.Some? ==> r.value.(location := data.location, radiusMeters := data.radiusMeters) == data
  {
    if picked.None? || Blocked(p, parse, now) then None
    else Some(data.(radiusMeters := if radius > 0.0 then Some(radius) else None, location := picked.value))
  }
}

=== FILE: reporting.dfy ===
/** Reporter reputation and moderation: a change of an event's status
    becomes an incremental update of its reporter's score, report counts,
    level, ban tier, ban expiry and premium expiry
    (frontend/lib/reporting-service.ts).  The two tables are maps; "now" is
    a parameter; every store failure is an explicit input. */
module Reporting {

  import opened Wrappers
  import opened Domain

  datatype Status = Pending | Valid | Spam | False

  /** The status as the store spells it. */
  function StatusName(s: Status): string {
    match s
    case Pending => "pending"
    case Valid => "valid"
    case Spam => "spam"
    case False => "false"
  }

  /** Reputation points per status: pending 0, valid +1, spam and false -1. */
  function Points(s: Status): int {
    match s
    case Pending => 0
    case Valid => 1
    case Spam => -1
    case False => -1
  }

  predicate IsInvalid(s: Status) {
    s == Spam || s == False
  }

  function Indicator(b: bool): int {
    if b then 1 else 0
  }

  /** Reads a stored status; anything other than the four known spellings
      (including a missing value) counts as pending. */
  function CoerceStatus(raw: Option<string>): (r: Status)
    ensures forall s: Status :: raw == Some(StatusName(s)) ==> r == s
    ensures r == Pending || raw == Some(StatusName(r))
  {
    match raw
    case Some("valid") => Valid
    case Some("spam") => Spam
    case Some("false") => False
    case _ => Pending
  }

  /** A stored timestamp column: the instant it denotes, or text that does
      not parse as a date. */
  datatype Instant = At(ms: int) | Unparseable

  /** The expiry an instant-valued column denotes when it is still in the
      future; a null, unparseable or past value denotes none. */
  function LaterOfNow(stored: Option<Instant>, now: int): (base: int)
    ensures base >= now
    ensures stored.Some? && stored.value.At? && stored.value.ms > now ==> base == stored.value.ms
    ensures !(stored.Some? && stored.value.At? && stored.value.ms > now) ==> base == now
  {
    match stored
    case Some(At(t)) => if t > now then t else now
    case _ => now
  }

  datatype ProfileRow = ProfileRow(
    id: string,
    reportScore: Option<int>,
    reportLevel: Option<int>,
    totalValidReports: Option<int>,
    totalInvalidReports: Option<int>,
    reportBanUntil: Option<Instant>,
    reportBanTier: Option<int>,
    premiumUntil: Option<Instant>)

  /** The row an insert of `{ id }` produces: every metric column null. */
  function DefaultProfile(id: string): ProfileRow {
    ProfileRow(id, None, None, None, None, None, None, None)
  }

  const BanDurationsDays: seq<int> := [1, 2, 7]
  const PremiumDaysPerLevel: int := 7
  const PointsPerLevel: int := 20
  const InvalidReportsPerTier: int := 3

  function ClampNonNegative(v: int): (r: int)
    ensures r >= 0 && r >= v
    ensures v >= 0 ==> r == v
  {
    if v < 0 then 0 else v
  }

  /** The level a score earns: one per 20 points, never below zero. */
  function LevelOf(score: int): (level: int)
    ensures level >= 0
  {
    ClampNonNegative((if score < 0 then 0 else score) / PointsPerLevel)
  }

  /** Days of ban for a newly reached tier: 1, 2, then 7 for every tier from
      3 on.  A schedule index below zero falls back to the last entry. */
  function BanDurationDays(tier: int): (days: int)
    ensures days in BanDurationsDays
    ensures tier == 1 ==> days == 1
    ensures tier == 2 ==> days == 2
    ensures tier >= 3 || tier <= 0 ==> days == 7
  {
    var index := (if tier < |BanDurationsDays| then tier else |BanDurationsDays|) - 1;
    if 0 <= index then BanDurationsDays[index] else BanDurationsDays[|BanDurationsDays| - 1]
  }

  /** The stored ban tier and expiry after the tier moved from
      `previousTier` to `nextTier`. */
  function CalculateBanUntil(previousTier: int, nextTier: int, currentBanUntil: Option<Instant>, now: int)
    : (r: (int, Option<Instant>))
    // an escalation issues a ban stacked on the later of now and the current expiry
    ensures nextTier > previousTier ==>
              r.0 == nextTier
              && r.1 == Some(At(LaterOfNow(currentBanUntil, now) + BanDurationDays(nextTier) * DayMs))
    // without escalation a non-positive tier lifts the ban
    ensures nextTier <= previousTier && nextTier <= 0 ==> r == (0, None)
    // without escalation a positive tier keeps the stored expiry as it is
    ensures nextTier <= previousTier && nextTier > 0 ==> r == (nextTier, currentBanUntil)
  {
    if nextTier > previousTier then
      var base := LaterOfNow(currentBanUntil, now);
      (nextTier, Some(At(base + BanDurationDays(nextTier) * DayMs)))
    else if nextTier <= 0 then
      (0, None)
    else
      (nextTier, currentBanUntil)
  }

  /** Premium expiry after the level moved from `previousLevel` to
      `nextLevel`: a week per level gained, counted from the later of now
      and the current expiry; no gain leaves the column as it is. */
  function ExtendPremium(previousLevel: int, nextLevel: int, currentPremiumUntil: Option<Instant>, now: int)
    : (r: Option<Instant>)
    ensures nextLevel <= previousLevel ==> r == currentPremiumUntil
    ensures nextLevel > previousLevel ==>
              r == Some(At(LaterOfNow(currentPremiumUntil, now)
                           + (nextLevel - previousLevel) * PremiumDaysPerLevel * DayMs))
  {
    var levelsGained := if nextLevel - previousLevel > 0 then nextLevel - previousLevel else 0;
    if levelsGained == 0 then
      currentPremiumUntil
    else
      Some(At(LaterOfNow(currentPremiumUntil, now) + levelsGained * PremiumDaysPerLevel * DayMs))
  }

  /** The profile after one status transition of one of the reporter's
      events (applyReporterMetrics without the store round trips). */
  function ApplyMetrics(p: ProfileRow, previous: Status, next: Status, now: int): (q: ProfileRow)
    ensures q.id == p.id
    ensures q.reportScore.Some? && q.reportLevel.Some? && q.totalValidReports.Some?
            && q.totalInvalidReports.Some? && q.reportBanTier.Some?
  {
    var currentScore := p.reportScore.GetOr(0);
    var currentLevel := p.reportLevel.GetOr(0);
    var currentValid := p.totalValidReports.GetOr(0);
    var currentInvalid := p.totalInvalidReports.GetOr(0);
    var currentBanTier := p.reportBanTier.GetOr(0);

    var scoreDelta := Points(next) - Points(previous);
    var validDelta := Indicator(next == Valid) - Indicator(previous == Valid);
    var invalidDelta := Indicator(IsInvalid(next)) - Indicator(IsInvalid(previous));

    var nextScore := currentScore + scoreDelta;
    var nextValid := ClampNonNegative(currentValid + validDelta);
    var nextInvalid := ClampNonNegative(currentInvalid + invalidDelta);
    var nextLevel := LevelOf(nextScore);

    var ban := CalculateBanUntil(currentBanTier, nextInvalid / InvalidReportsPerTier, p.reportBanUntil, now);
    var premium := ExtendPremium(currentLevel, nextLevel, p.premiumUntil, now);

    ProfileRow(p.id, Some(nextScore), Some(nextLevel), Some(nextValid), Some(nextInvalid),
               ban.1, Some(ban.0), premium)
  }

  // -----------------------------------------------------------------------
  // Properties of one transition
  // -----------------------------------------------------------------------

  /** The score moves by exactly points(next) - points(previous), with no
      lower bound. */
  lemma ScoreDelta(p: ProfileRow, previous: Status, next: Status, now: int)
    ensures ApplyMetrics(p, previous, next, now).reportScore.value
            == p.reportScore.GetOr(0) + Points(next) - Points(previous)
    ensures p.reportScore.GetOr(0) == 0 && previous == Pending && IsInvalid(next) ==>
              ApplyMetrics(p, previous, next, now).reportScore.value < 0
  {
  }

  /** The report counts move by the change of the "is valid" and "is spam
      or false" indicators, floored at zero. */
  lemma CountDeltas(p: ProfileRow, previous: Status, next: Status, now: int)
    ensures var q := ApplyMetrics(p, previous, next, now);
      && q.totalValidReports.value
           == ClampNonNegative(p.totalValidReports.GetOr(0) + Indicator(next == Valid) - Indicator(previous == Valid))
      && q.totalInvalidReports.value
           == ClampNonNegative(p.totalInvalidReports.GetOr(0) + Indicator(IsInvalid(next)) - Indicator(IsInvalid(previous)))
      && q.totalValidReports.value >= 0 && q.totalInvalidReports.value >= 0
  {
  }

  /** The level is recomputed from the score alone: 19 points is level 0,
      20 is level 1, a negative score is level 0. */
  lemma LevelFromScore(score: int)
    ensures LevelOf(score) * PointsPerLevel <= (if score < 0 then 0 else score)
            < (LevelOf(score) + 1) * PointsPerLevel
    ensures LevelOf(19) == 0 && LevelOf(20) == 1 && LevelOf(-5) == 0
  {
  }

  /** A transition leaves the level equal to the level of the new score, and
      the tier equal to a third of the new invalid count. */
  lemma DerivedColumns(p: ProfileRow, previous: Status, next: Status, now: int)
    ensures var q := ApplyMetrics(p, previous, next, now);
      && q.reportLevel.value == LevelOf(q.reportScore.value)
      && q.reportBanTier.value == q.totalInvalidReports.value / InvalidReportsPerTier
  {
  }

  /** When the invalid count reaches a higher tier than stored, a new ban
      ends the schedule's duration after the later of now and the current
      expiry, so an active ban is never shortened. */
  lemma EscalationNeverShortensBan(p: ProfileRow, previous: Status, next: Status, now: int)
    requires var q := ApplyMetrics(p, previous, next, now);
             q.reportBanTier.value > p.reportBanTier.GetOr(0)
    ensures var q := ApplyMetrics(p, previous, next, now);
      && q.reportBanUntil.Some? && q.reportBanUntil.value.At?
      && q.reportBanUntil.value.ms >= now + DayMs
      && (p.reportBanUntil.Some? && p.reportBanUntil.value.At? && p.reportBanUntil.value.ms > now ==>
            q.reportBanUntil.value.ms >= p.reportBanUntil.value.ms + DayMs)
  {
  }

  /** Without escalation a tier of zero lifts the ban, and a positive tier
      keeps the stored expiry untouched. */
  lemma NonEscalationBan(p: ProfileRow, previous: Status, next: Status, now: int)
    requires var q := ApplyMetrics(p, previous, next, now);
             q.reportBanTier.value <= p.reportBanTier.GetOr(0)
    ensures var q := ApplyMetrics(p, previous, next, now);
      && (q.reportBanTier.value == 0 ==> q.reportBanUntil.None?)
      && (q.reportBanTier.value > 0 ==> q.reportBanUntil == p.reportBanUntil)
  {
  }

  /** Premium is touched only when the level rises, and then extended by a
      week per level gained from the later of now and the current expiry. */
  lemma PremiumOnlyOnLevelGain(p: ProfileRow, previous: Status, next: Status, now: int)
    ensures var q := ApplyMetrics(p, previous, next, now);
      && (q.reportLevel.value <= p.reportLevel.GetOr(0) ==> q.premiumUntil == p.premiumUntil)
      && (q.reportLevel.value > p.reportLevel.GetOr(0) ==>
            q.premiumUntil.Some? && q.premiumUntil.value.At?
            && q.premiumUntil.value.ms >= LaterOfNow(p.premiumUntil, now) + PremiumDaysPerLevel * DayMs)
  {
  }

  /** A transition to the same status changes none of the counters. */
  lemma SameStatusKeepsCounters(p: ProfileRow, s: Status, now: int)
    requires p.reportScore.Some? && p.totalValidReports.Some? && p.totalInvalidReports.Some?
    requires p.totalValidReports.value >= 0 && p.totalInvalidReports.value >= 0
    ensures var q := ApplyMetrics(p, s, s, now);
      && q.reportScore == p.reportScore
      && q.totalValidReports == p.totalValidReports
      && q.totalInvalidReports == p.totalInvalidReports
  {
  }

  /** Going a -> b and then b -> a restores the score exactly, and the counts
      too when neither step was clamped (the counts already include a). */
  lemma {:induction false} RoundTripRestores(p: ProfileRow, a: Status, b: Status, now1: int, now2: int)
    requires p.totalValidReports.GetOr(0) >= Indicator(a == Valid)
    requires p.totalInvalidReports.GetOr(0) >= Indicator(IsInvalid(a))
    ensures var q := ApplyMetrics(ApplyMetrics(p, a, b, now1), b, a, now2);
      && q.reportScore.value == p.reportScore.GetOr(0)
      && q.totalValidReports.value == p.totalValidReports.GetOr(0)
      && q.totalInvalidReports.value == p.totalInvalidReports.GetOr(0)
      && q.reportLevel.value == LevelOf(p.reportScore.GetOr(0))
  {
    var q1 := ApplyMetrics(p, a, b, now1);
    ScoreDelta(p, a, b, now1);
    CountDeltas(p, a, b, now1);
    ScoreDelta(q1, b, a, now2);
    CountDeltas(q1, b, a, now2);
  }

  // -----------------------------------------------------------------------
  // Incremental updates agree with a recomputation from the event statuses
  // -----------------------------------------------------------------------

  function TotalPoints(statuses: seq<Status>): int {
    if |statuses| == 0 then 0 else Points(statuses[0]) + TotalPoints(statuses[1..])
  }

  function CountValid(statuses: seq<Status>): nat {
    if |statuses| == 0 then 0 else Indicator(statuses[0] == Valid) + CountValid(statuses[1..])
  }

  function CountInvalid(statuses: seq<Status>): nat {
    if |statuses| == 0 then 0 else Indicator(IsInvalid(statuses[0])) + CountInvalid(statuses[1..])
  }

  /** The profile's counters are what a recomputation over the current
      statuses of all the reporter's events would give. */
  ghost predicate ConsistentWith(p: ProfileRow, statuses: seq<Status>) {
    && p.reportScore == Some(TotalPoints(statuses))
    && p.totalValidReports == Some(CountValid(statuses))
    && p.totalInvalidReports == Some(CountInvalid(statuses))
    && p.reportLevel == Some(LevelOf(TotalPoints(statuses)))
    && p.reportBanTier == Some(CountInvalid(statuses) / InvalidReportsPerTier)
  }

  lemma {:induction false} UpdateAt(statuses: seq<Status>, i: nat, x: Status)
    requires i < |statuses|
    ensures TotalPoints(statuses[i := x]) == TotalPoints(statuses) - Points(statuses[i]) + Points(x)
    ensures CountValid(statuses[i := x])
            == CountValid(statuses) - Indicator(statuses[i] == Valid) + Indicator(x == Valid)
    ensures CountInvalid(statuses[i := x])
            == CountInvalid(statuses) - Indicator(IsInvalid(statuses[i])) + Indicator(IsInvalid(x))
  {
    if i > 0 {
      UpdateAt(statuses[1..], i - 1, x);
      assert statuses[i := x][1..] == statuses[1..][i - 1 := x];
    } else {
      assert statuses[i := x][1..] == statuses[1..];
    }
  }

  lemma {:induction false} CountsBound(statuses: seq<Status>, i: nat)
    requires i < |statuses|
    ensures CountValid(statuses) >= Indicator(statuses[i] == Valid)
    ensures CountInvalid(statuses) >= Indicator(IsInvalid(statuses[i]))
  {
    if i > 0 {
      CountsBound(statuses[1..], i - 1);
    }
  }

  /** Applying the transition of event i to a consistent profile yields the
      profile consistent with the updated statuses: delta updates reach the
      same counters as a full recomputation. */
  lemma {:induction false} TransitionKeepsConsistency(p: ProfileRow, statuses: seq<Status>, i: nat, next: Status, now: int)
    requires i < |statuses|
    requires ConsistentWith(p, statuses)
    ensures ConsistentWith(ApplyMetrics(p, statuses[i], next, now), statuses[i := next])
  {
    UpdateAt(statuses, i, next);
    CountsBound(statuses, i);
  }

  lemma EmptyHistoryIsDefault(id: string)
    ensures var p := DefaultProfile(id).(reportScore := Some(0), reportLevel := Some(0),
                       totalValidReports := Some(0), totalInvalidReports := Some(0), reportBanTier := Some(0));
            ConsistentWith(p, [])
  {
  }

  // -----------------------------------------------------------------------
  // Transition sequences from a fresh profile
  // -----------------------------------------------------------------------

  /** Applies the transitions left to right, all at the same instant. */
  function ApplyAll(p: ProfileRow, transitions: seq<(Status, Status)>, now: int): ProfileRow
    decreases |transitions|
  {
    if |transitions| == 0 then p
    else ApplyAll(ApplyMetrics(p, transitions[0].0, transitions[0].1, now), transitions[1..], now)
  }

  function Repeat(t: (Status, Status), k: nat): (r: seq<(Status, Status)>)
    ensures |r| == k
  {
    if k == 0 then [] else [t] + Repeat(t, k - 1)
  }

  lemma {:induction false} ApplyAllSnoc(p: ProfileRow, ts: seq<(Status, Status)>, t: (Status, Status), now: int)
    ensures ApplyAll(p, ts + [t], now) == ApplyMetrics(ApplyAll(p, ts, now), t.0, t.1, now)
    decreases |ts|
  {
    if |ts| > 0 {
      assert (ts + [t])[1..] == ts[1..] + [t];
      ApplyAllSnoc(ApplyMetrics(p, ts[0].0, ts[0].1, now), ts[1..], t, now);
    }
  }

  lemma {:induction false} RepeatSnoc(t: (Status, Status), k: nat)
    ensures Repeat(t, k + 1) == Repeat(t, k) + [t]
  {
    if k > 0 {
      RepeatSnoc(t, k - 1);
    }
  }

  /** k pending -> valid transitions on a fresh profile: score and valid
      count k, level k / 20, and premium starting exactly when the score
      first reaches 20, for one week from now. */
  lemma {:induction false} ValidStreak(id: string, k: nat, now: int)
    requires k < 40
    ensures var q := ApplyAll(DefaultProfile(id), Repeat((Pending, Valid), k), now);
      && (k > 0 ==> q.reportScore == Some(k) && q.totalValidReports == Some(k)
                    && q.reportLevel == Some(k / 20) && q.totalInvalidReports == Some(0)
                    && q.reportBanTier == Some(0))
      && (k < 20 ==> q.premiumUntil.None?)
      && (k >= 20 ==> q.premiumUntil == Some(At(now + 7 * DayMs)))
      && q.reportBanUntil.None?
  {
    if k > 0 {
      ValidStreak(id, k - 1, now);
      RepeatSnoc((Pending, Valid), k - 1);
      ApplyAllSnoc(DefaultProfile(id), Repeat((Pending, Valid), k - 1), (Pending, Valid), now);
    }
  }

  /** Three pending -> spam transitions give tier 1 and a one-day ban from
      now; correcting one of them to valid then lifts the ban, moves the
      score by +2 and the invalid count back to 2. */
  lemma SpamThenCorrection(id: string, now: int)
    ensures var q := ApplyAll(DefaultProfile(id), Repeat((Pending, Spam), 3), now);
      && q.totalInvalidReports == Some(3) && q.reportScore == Some(-3)
      && q.reportBanTier == Some(1) && q.reportBanUntil == Some(At(now + DayMs))
    ensures var q := ApplyAll(DefaultProfile(id), Repeat((Pending, Spam), 3) + [(Spam, Valid)], now);
      && q.totalInvalidReports == Some(2) && q.totalValidReports == Some(1) && q.reportScore == Some(-1)
      && q.reportBanTier == Some(0) && q.reportBanUntil.None?
  {
    var p0 := DefaultProfile(id);
    var s := (Pending, Spam);
    RepeatSnoc(s, 0);
    RepeatSnoc(s, 1);
    RepeatSnoc(s, 2);
    ApplyAllSnoc(p0, Repeat(s, 0), s, now);
    SpamStep(p0, 0, now);
    ApplyAllSnoc(p0, Repeat(s, 1), s, now);
    SpamStep(ApplyAll(p0, Repeat(s, 1), now), 1, now);
    ApplyAllSnoc(p0, Repeat(s, 2), s, now);
    SpamStep(ApplyAll(p0, Repeat(s, 2), now), 2, now);
    ApplyAllSnoc(p0, Repeat(s, 3), (Spam, Valid), now);
    CorrectionStep(ApplyAll(p0, Repeat(s, 3), now), now);
  }

  /** Correcting one of three spam events to valid drops the tier to 0. */
  lemma CorrectionStep(p: ProfileRow, now: int)
    requires p.reportScore == Some(-3) && p.totalInvalidReports == Some(3)
    requires p.totalValidReports == Some(0) && p.reportLevel == Some(0) && p.reportBanTier == Some(1)
    ensures var q := ApplyMetrics(p, Spam, Valid, now);
      && q.totalInvalidReports == Some(2) && q.totalValidReports == Some(1) && q.reportScore == Some(-1)
      && q.reportBanTier == Some(0) && q.reportBanUntil.None?
  {
  }

  /** One more pending -> spam transition on a profile with k spam events
      and nothing else: the third one reaches tier 1. */
  lemma SpamStep(p: ProfileRow, k: int, now: int)
    requires 0 <= k < 3
    requires p.reportScore.GetOr(0) == -k && p.totalInvalidReports.GetOr(0) == k
    requires p.totalValidReports.GetOr(0) == 0 && p.reportLevel.GetOr(0) == 0
    requires p.reportBanTier.GetOr(0) == 0 && p.reportBanUntil.None? && p.premiumUntil.None?
    ensures var q := ApplyMetrics(p, Pending, Spam, now);
      && q.reportScore == Some(-k - 1) && q.totalInvalidReports == Some(k + 1)
      && q.totalValidReports == Some(0) && q.reportLevel == Some(0) && q.premiumUntil.None?
      && (k < 2 ==> q.reportBanTier == Some(0) && q.reportBanUntil.None?)
      && (k == 2 ==> q.reportBanTier == Some(1) && q.reportBanUntil == Some(At(now + DayMs)))
  {
  }

  // -----------------------------------------------------------------------
  // The moderation service over the two tables
  // -----------------------------------------------------------------------

  /** The columns of an event row the service reads or writes. */
  datatype EventRow = EventRow(id: string, status: Option<string>, reporterId: Option<string>)

  datatype Db = Db(events: map<string, EventRow>, profiles: map<string, ProfileRow>)

  datatype EventUpdateFault = NoUpdateFault | UpdateError(message: string) | NoRowReturned

  /** Which store calls fail in one run.  A lookup that reports "no rows"
      (code PGRST116) is not an error and is not represented here. */
  datatype Faults = Faults(
    eventFetch: Option<string>,
    eventUpdate: EventUpdateFault,
    profileLoad: bool,
    profileInsert: bool,
    profileUpdate: bool)

  const NoFaults: Faults := Faults(None, NoUpdateFault, false, false, false)

  /** The reporter's profile row, inserted with all metrics null when the
      table has none. */
  function EnsureProfileRow(db: Db, profileId: string, faults: Faults): (r: Result<(Db, ProfileRow), string>)
    ensures faults.profileLoad ==> r == Failure("Failed to load profile metrics.")
    ensures !faults.profileLoad && profileId in db.profiles ==> r == Success((db, db.profiles[profileId]))
    ensures !faults.profileLoad && profileId !in db.profiles && faults.profileInsert ==>
              r == Failure("Failed to initialize profile metrics.")
    ensures !faults.profileLoad && profileId !in db.profiles && !faults.profileInsert ==>
              r == Success((db.(profiles := db.profiles[profileId := DefaultProfile(profileId)]), DefaultProfile(profileId)))
  {
    if faults.profileLoad then Failure("Failed to load profile metrics.")
    else if profileId in db.profiles then Success((db, db.profiles[profileId]))
    else if faults.profileInsert then Failure("Failed to initialize profile metrics.")
    else
      var row := DefaultProfile(profileId);
      Success((db.(profiles := db.profiles[profileId := row]), row))
  }

  /** Loads (or creates) the reporter's profile, applies the transition and
      writes the profile back.  On failure the returned store still holds
      any row the load inserted. */
  function ApplyReporterMetrics(db: Db, reporterId: string, previous: Status, next: Status, now: int, faults: Faults)
    : (r: (Db, Outcome))
    ensures r.0.events == db.events
    ensures r.1 == Done ==>
              reporterId in r.0.profiles
              && r.0.profiles[reporterId]
                 == ApplyMetrics(if reporterId in db.profiles then db.profiles[reporterId] else DefaultProfile(reporterId),
                                 previous, next, now)
    ensures forall id :: id in db.profiles && id != reporterId ==> id in r.0.profiles && r.0.profiles[id] == db.profiles[id]
  {
    match EnsureProfileRow(db, reporterId, faults)
    case Failure(msg) => (db, Failed(msg))
    case Success((db1, profile)) =>
      if faults.profileUpdate then (db1, Failed("Failed to update reporter metrics."))
      else
        var updated := ApplyMetrics(profile, previous, next, now);
        (db1.(profiles := db1.profiles[reporterId := updated]), Done)
  }

  datatype Outcome = Done | Failed(message: string)

  /** A reporter id the service acts on: present and non-empty. */
  predicate HasReporter(row: EventRow) {
    row.reporterId.Some? && row.reporterId.value != ""
  }

  /** applyEventStatusUpdate: the store after the call and the row returned
      or the error thrown.  The event write and the profile write are two
      separate steps: a failing profile step leaves the status change in
      place. */
  function ApplyEventStatusUpdate(db: Db, eventId: string, next: Status, now: int, faults: Faults)
    : (r: (Db, Result<EventRow, string>))
    // guards: fetch failure, missing event, unchanged status
    ensures faults.eventFetch.Some? ==> r == (db, Failure(faults.eventFetch.value))
    ensures faults.eventFetch.None? && eventId !in db.events ==> r == (db, Failure("Event not found."))
    ensures (faults.eventFetch.None? && eventId in db.events
             && CoerceStatus(db.events[eventId].status) == next) ==> r == (db, Success(db.events[eventId]))
    // a successful call stores the new status on the event and nothing else in the events table
    ensures r.1.Success? ==>
              eventId in db.events && eventId in r.0.events
              && CoerceStatus(r.0.events[eventId].status) == next
              && r.0.events == db.events[eventId := r.1.value]
    // the profiles table changes only at the reporter's row
    ensures forall id :: id in db.profiles && !(eventId in db.events && HasReporter(db.events[eventId])
                                                && id == db.events[eventId].reporterId.value) ==>
              id in r.0.profiles && r.0.profiles[id] == db.profiles[id]
  {
    if faults.eventFetch.Some? then
      (db, Failure(faults.eventFetch.value))
    else if eventId !in db.events then
      (db, Failure("Event not found."))
    else
      var current := db.events[eventId];
      var previous := CoerceStatus(current.status);
      if previous == next then
        (db, Success(current))
      else
        match faults.eventUpdate
        case UpdateError(msg) => (db, Failure(msg))
        case NoRowReturned => (db, Failure("Failed to update event status."))
        case NoUpdateFault =>
          var updated := current.(status := Some(StatusName(next)));
          var db1 := db.(events := db.events[eventId := updated]);
          if HasReporter(current) then
            var (db2, outcome) := ApplyReporterMetrics(db1, current.reporterId.value, previous, next, now, faults);
            match outcome
            case Failed(msg) => (db2, Failure(msg))
            case Done => (db2, Success(updated))
          else
            (db1, Success(updated))
  }

  /** With no failures, a real status change stores the new status and
      applies exactly one metrics transition, from the coerced previous
      status, to the reporter's existing or freshly created profile. */
  lemma ServiceAppliesMetricsOnce(db: Db, eventId: string, next: Status, now: int)
    requires eventId in db.events
    requires CoerceStatus(db.events[eventId].status) != next
    ensures var (db', res) := ApplyEventStatusUpdate(db, eventId, next, now, NoFaults);
      var row := db.events[eventId];
      && res == Success(row.(status := Some(StatusName(next))))
      && (HasReporter(row) ==>
            var rid := row.reporterId.value;
            rid in db'.profiles
            && db'.profiles[rid] == ApplyMetrics(if rid in db.profiles then db.profiles[rid] else DefaultProfile(rid),
                                                 CoerceStatus(row.status), next, now))
      && (!HasReporter(row) ==> db'.profiles == db.profiles)
  {
  }

  /** A stored status outside the four known spellings is treated as
      pending, so moving such an event to pending writes nothing. */
  lemma UnknownStatusCountsAsPending(db: Db, eventId: string, now: int, faults: Faults)
    requires faults.eventFetch.None? && eventId in db.events
    requires db.events[eventId].status == Some("archived")
    ensures ApplyEventStatusUpdate(db, eventId, Pending, now, faults) == (db, Success(db.events[eventId]))
  {
  }

  /** A profile write that fails after the event write leaves the new status
      stored while the profile keeps its old counters. */
  lemma ProfileFailureIsNotRolledBack(db: Db, eventId: string, next: Status, now: int)
    requires eventId in db.events && HasReporter(db.events[eventId])
    requires CoerceStatus(db.events[eventId].status) != next
    requires db.events[eventId].reporterId.value in db.profiles
    ensures var faults := NoFaults.(profileUpdate := true);
      var (db', res) := ApplyEventStatusUpdate(db, eventId, next, now, faults);
      && res == Failure("Failed to update reporter metrics.")
      && db'.events[eventId].status == Some(StatusName(next))
      && db'.profiles == db.profiles
  {
  }
}

=== FILE: safety_advisor.dfy ===
/** The safety advisor's system prompt: a fixed template whose eight
    `{placeholder}` slots are filled, one `String.prototype.replace` call
    each, from the request context; plus the JSON payload of the events
    the prompt embeds.  The template's prose between the slots is a
    parameter, and number and JSON formatting are supplied as functions. */
module SafetyAdvisor {

  import opened Wrappers
  import opened Text
  import opened Domain
  import opened JsNumbers

  // ---------------------------------------------------------------------
  // Quote escaping
  // ---------------------------------------------------------------------

  function CountChar(s: string, c: char): (n: nat)
    ensures n <= |s|
  {
    if |s| == 0 then 0 else (if s[0] == c then 1 else 0) + CountChar(s[1..], c)
  }

  /** `input.replace(/"/g, '\\"')`: a backslash goes in front of every
      double quote.  Every quote of the result is escaped, so the result
      can sit between the template's own quotes. */
  function EscapeQuotes(s: string): (r: string)
    ensures |r| == |s| + CountChar(s, '"')
    ensures forall k :: 0 <= k < |r| && r[k] == '"' ==> k > 0 && r[k - 1] == '\\'
  {
    if |s| == 0 then ""
    else
      var rest := EscapeQuotes(s[1..]);
      if s[0] == '"' then
        var r := "\\\"" + rest;
        assert forall k :: 2 <= k < |r| ==> r[k] == rest[k - 2];
        r
      else
        var r := [s[0]] + rest;
        assert forall k :: 1 <= k < |r| ==> r[k] == rest[k - 1];
        r
  }

  /** Reading an escaped text back: `\"` stands for `"`, every other
      character for itself. */
  function UnescapeQuotes(s: string): (r: string)
    ensures |r| <= |s|
  {
    if |s| == 0 then ""
    else if |s| >= 2 && s[0] == '\\' && s[1] == '"' then "\"" + UnescapeQuotes(s[2..])
    else [s[0]] + UnescapeQuotes(s[1..])
  }

  /** Escaping loses nothing: reading the result back gives the input. */
  lemma {:induction false} EscapeRoundTrip(s: string)
    ensures UnescapeQuotes(EscapeQuotes(s)) == s
  {
    if |s| > 0 {
      var rest := EscapeQuotes(s[1..]);
      EscapeRoundTrip(s[1..]);
      if s[0] == '"' {
        var r := "\\\"" + rest;
        assert EscapeQuotes(s) == r;
        assert r[2..] == rest;
      } else {
        var r := [s[0]] + rest;
        assert EscapeQuotes(s) == r;
        assert r[1..] == rest;
        if |rest| > 0 {
          assert rest[0] != '"';
        }
      }
      assert s == [s[0]] + s[1..];
    }
  }

  // ---------------------------------------------------------------------
  // String.prototype.replace with a string pattern
  // ---------------------------------------------------------------------

  predicate OccursAt(s: string, pat: string, i: nat) {
    i + |pat| <= |s| && s[i..i + |pat|] == pat
  }

  lemma OccursShift(s: string, pat: string, j: nat)
    requires |s| > 0
    ensures OccursAt(s[1..], pat, j) <==> OccursAt(s, pat, j + 1)
  {
    if j + 1 + |pat| <= |s| {
      assert s[1..][j..j + |pat|] == s[j + 1..j + 1 + |pat|];
    }
  }

  /** The position of the first occurrence of `pat` in `s`. */
  function Find(s: string, pat: string): (r: Option<nat>)
    ensures r.Some? ==> OccursAt(s, pat, r.value)
    ensures r.Some? ==> forall j :: 0 <= j < r.value ==> !OccursAt(s, pat, j)
    ensures r.None? ==> forall j :: 0 <= j <= |s| ==> !OccursAt(s, pat, j)
    decreases |s|
  {
    if |pat| > |s| then None
    else if s[..|pat|] == pat then Some(0)
    else
      match Find(s[1..], pat)
      case None =>
        assert forall j :: 1 <= j <= |s| ==> !OccursAt(s, pat, j) by {
          forall j | 1 <= j <= |s| ensures !OccursAt(s, pat, j) {
            OccursShift(s, pat, j - 1);
          }
        }
        None
      case Some(i) =>
        assert forall j :: 1 <= j <= i ==> !OccursAt(s, pat, j) by {
          forall j | 1 <= j <= i ensures !OccursAt(s, pat, j) {
            OccursShift(s, pat, j - 1);
          }
        }
        OccursShift(s, pat, i);
        Some(i + 1)
  }

  /** A pattern whose first character does not occur in `a` is found right
      after `a`. */
  lemma {:induction false} FindAfter(a: string, pat: string, b: string)
    requires |pat| >= 1 && pat[0] !in a
    ensures Find(a + pat + b, pat) == Some(|a|)
  {
    var s := a + pat + b;
    assert s[|a|..|a| + |pat|] == pat;
    if |a| > 0 {
      assert s[..|pat|][0] == a[0];
      assert a[1..] + pat + b == s[1..];
      assert pat[0] !in a[1..] by {
        assert forall k :: 0 <= k < |a[1..]| ==> a[1..][k] == a[k + 1];
      }
      FindAfter(a[1..], pat, b);
    }
  }

  /** The replacement text of a match, with the special `$` patterns of
      the GetSubstitution operation of ECMAScript (section 22.1.3.19.1 of
      ECMA-262) expanded: `$$` is `$`, `$&` the matched text, `` $` `` the
      text before the match and `$'` the text after it.  A string pattern
      has no capture groups, so every other `$` stays as it is. */
  function Expand(repl: string, matched: string, before: string, after: string): (r: string)
    decreases |repl|
  {
    if |repl| == 0 then ""
    else if |repl| >= 2 && repl[0] == '$' && repl[1] == '$' then "$" + Expand(repl[2..], matched, before, after)
    else if |repl| >= 2 && repl[0] == '$' && repl[1] == '&' then matched + Expand(repl[2..], matched, before, after)
    else if |repl| >= 2 && repl[0] == '$' && repl[1] == '`' then before + Expand(repl[2..], matched, before, after)
    else if |repl| >= 2 && repl[0] == '$' && repl[1] == '\'' then after + Expand(repl[2..], matched, before, after)
    else [repl[0]] + Expand(repl[1..], matched, before, after)
  }

  /** Without a `$` the replacement text is inserted as it is. */
  lemma {:induction false} ExpandLiteral(repl: string, matched: string, before: string, after: string)
    requires '$' !in repl
    ensures Expand(repl, matched, before, after) == repl
    decreases |repl|
  {
    if |repl| > 0 {
      assert repl[0] in repl;
      assert '$' !in repl[1..] by {
        assert forall k :: 0 <= k < |repl[1..]| ==> repl[1..][k] == repl[k + 1];
      }
      ExpandLiteral(repl[1..], matched, before, after);
      assert repl == [repl[0]] + repl[1..];
    }
  }

  /** `s.replace(pat, repl)`: only the first occurrence is replaced, and
      the replacement's `$` patterns are expanded; without an occurrence
      the text is unchanged. */
  function ReplaceFirst(s: string, pat: string, repl: string): (r: string)
    ensures Find(s, pat).None? ==> r == s
    ensures Find(s, pat).Some? ==>
              var i := Find(s, pat).value;
              r == s[..i] + Expand(repl, pat, s[..i], s[i + |pat|..]) + s[i + |pat|..]
  {
    match Find(s, pat)
    case None => s
    case Some(i) => s[..i] + Expand(repl, pat, s[..i], s[i + |pat|..]) + s[i + |pat|..]
  }

  /** The replacement with the value inserted verbatim, as a replacer
      function `() => value` would do. */
  function ReplaceFirstLiteral(s: string, pat: string, value: string): (r: string)
    ensures Find(s, pat).None? ==> r == s
    ensures Find(s, pat).Some? ==>
              var i := Find(s, pat).value;
              r == s[..i] + value + s[i + |pat|..]
  {
    match Find(s, pat)
    case None => s
    case Some(i) => s[..i] + value + s[i + |pat|..]
  }

  /** The two replacements agree on a value without `$`. */
  lemma ReplaceAgreesWithoutDollar(s: string, pat: string, value: string)
    requires '$' !in value
    ensures ReplaceFirst(s, pat, value) == ReplaceFirstLiteral(s, pat, value)
  {
    if Find(s, pat).Some? {
      var i := Find(s, pat).value;
      ExpandLiteral(value, pat, s[..i], s[i + |pat|..]);
    }
  }

  // ---------------------------------------------------------------------
  // Filling the template
  // ---------------------------------------------------------------------

  const Placeholders: seq<string> := [
    "{request_type}", "{user_query}", "{area_name}", "{lat}", "{lng}",
    "{timeframe}", "{filter_summary}", "{event_data_json}"]

  /** The number of placeholders, so that callers need not count them. */
  const SlotCount: nat := 8

  lemma PlaceholderCount()
    ensures |Placeholders| == SlotCount
  {
  }

  /** `prose[0] + xs[0] + prose[1] + ... + xs[n-1] + prose[n]`: the template
      with `xs` in its slots. */
  function Interleave(prose: seq<string>, xs: seq<string>): (r: string)
    requires |prose| == |xs| + 1
    decreases |xs|
  {
    if |xs| == 0 then prose[0]
    else prose[0] + xs[0] + Interleave(prose[1..], xs[1..])
  }

  /** One `.replace` call, `$`-expanding or verbatim. */
  function Replace(s: string, pat: string, value: string, literal: bool): string {
    if literal then ReplaceFirstLiteral(s, pat, value) else ReplaceFirst(s, pat, value)
  }

  /** The chain of `.replace` calls: the first placeholder with the first
      value, then the next, in this fixed order; `literal` selects the
      verbatim insertion instead of the `$`-expanding one. */
  function FillAll(s: string, phs: seq<string>, vals: seq<string>, literal: bool): string
    requires |phs| == |vals|
    decreases |phs|
  {
    if |phs| == 0 then s
    else FillAll(Replace(s, phs[0], vals[0], literal), phs[1..], vals[1..], literal)
  }

  ghost predicate SlotsOpenWithBrace(phs: seq<string>) {
    forall k :: 0 <= k < |phs| ==> |phs[k]| >= 1 && phs[k][0] == '{'
  }

  ghost predicate BraceFree(xs: seq<string>) {
    forall k :: 0 <= k < |xs| ==> '{' !in xs[k]
  }

  ghost predicate DollarFree(xs: seq<string>) {
    forall k :: 0 <= k < |xs| ==> '$' !in xs[k]
  }

  lemma BraceFreeConcat(a: string, b: string)
    requires '{' !in a && '{' !in b
    ensures '{' !in a + b
  {
  }

  /** A placeholder that follows brace-free text is replaced in place. */
  lemma StepReplaces(a: string, pat: string, value: string, rest: string, literal: bool)
    requires |pat| >= 1 && pat[0] == '{' && '{' !in a
    requires !literal ==> '$' !in value
    ensures Replace(a + pat + rest, pat, value, literal) == a + value + rest
  {
    var s := a + pat + rest;
    FindAfter(a, pat, rest);
    assert s[..|a|] == a && s[|a| + |pat|..] == rest;
    if !literal {
      ReplaceAgreesWithoutDollar(s, pat, value);
    }
  }

  /** When neither the prose nor any value but the last contains `{`, each
      call finds its placeholder in the template's own slot, and the
      chain puts every value in its slot; with verbatim insertion, or
      values without `$`, the result is the template with the values in
      place. */
  lemma {:induction false} FillInterleaved(done: string, prose: seq<string>, phs: seq<string>, vals: seq<string>, literal: bool)
    requires |prose| == |phs| + 1 && |phs| == |vals|
    requires |phs| > 0 ==> '{' !in done
    requires BraceFree(prose) && SlotsOpenWithBrace(phs)
    requires |vals| == 0 || BraceFree(vals[..|vals| - 1])
    requires !literal ==> DollarFree(vals)
    ensures FillAll(done + Interleave(prose, phs), phs, vals, literal) == done + Interleave(prose, vals)
    decreases |phs|
  {
    if |phs| > 0 {
      var a := done + prose[0];
      assert '{' !in prose[0];
      BraceFreeConcat(done, prose[0]);
      InterleaveCons(done, prose, phs);
      assert !literal ==> '$' !in vals[0];
      StepReplaces(a, phs[0], vals[0], Interleave(prose[1..], phs[1..]), literal);
      TailReady(a, prose, phs, vals, literal);
      FillInterleaved(a + vals[0], prose[1..], phs[1..], vals[1..], literal);
      InterleaveCons(done, prose, vals);
    }
  }

  /** The template up to its first slot, and the rest. */
  lemma InterleaveCons(done: string, prose: seq<string>, xs: seq<string>)
    requires |prose| == |xs| + 1 && |xs| > 0
    ensures done + Interleave(prose, xs) == ((done + prose[0]) + xs[0]) + Interleave(prose[1..], xs[1..])
  {
  }

  /** After the first slot is filled, the rest of the template still meets
      the conditions of the fill. */
  lemma TailReady(a: string, prose: seq<string>, phs: seq<string>, vals: seq<string>, literal: bool)
    requires |prose| == |phs| + 1 && |phs| == |vals| && |phs| > 0
    requires '{' !in a
    requires BraceFree(prose) && SlotsOpenWithBrace(phs)
    requires BraceFree(vals[..|vals| - 1])
    requires !literal ==> DollarFree(vals)
    ensures |phs| > 1 ==> '{' !in a + vals[0]
    ensures BraceFree(prose[1..]) && SlotsOpenWithBrace(phs[1..])
    ensures |vals[1..]| == 0 || BraceFree(vals[1..][..|vals[1..]| - 1])
    ensures !literal ==> DollarFree(vals[1..])
  {
    if |phs| > 1 {
      assert vals[..|vals| - 1][0] == vals[0];
      BraceFreeConcat(a, vals[0]);
      assert vals[1..][..|vals[1..]| - 1] == vals[..|vals| - 1][1..];
    }
  }

  // ---------------------------------------------------------------------
  // The context and its slot values
  // ---------------------------------------------------------------------

  /** The formatting the prompt relies on: `x.toFixed(6)`, `String(x)` and
      `JSON.stringify(payload, null, 2)`. */
  datatype Formatters = Formatters(
    fixed6: real -> string,
    numberText: real -> string,
    stringify: seq<Entry> -> string)

  datatype Context = Context(
    requestType: string,
    userQuery: string,
    areaName: Option<string>,
    coordinates: Option<Location>,
    timeframeMonths: Option<JsNumber>,
    filterSummary: Option<string>,
    events: seq<Event>)

  const NotSpecified := "Not specified"
  const NotProvided := "Not provided"
  const NoFilters := "No additional filters applied."
  const EntireHistory := "Entire available event history"

  /** The timeframe line: "Last N months" for a positive number, the whole
      history otherwise (absent, `NaN`, zero or negative). */
  function TimeframeLabel(months: Option<JsNumber>, numberText: real -> string): (r: string)
    ensures months.Some? && Positive(months.value) ==> StartsWith(r, "Last ") && EndsWith(r, " months")
    ensures !(months.Some? && Positive(months.value)) ==> r == EntireHistory
  {
    if months.Some? && Positive(months.value) then
      var n := match months.value
        case Finite(x) => numberText(x)
        case _ => "Infinity";
      "Last " + n + " months"
    else EntireHistory
  }

  /** The two labels can be told apart: a label names a number of months
      exactly when the timeframe is a positive number. */
  lemma TimeframeLabelDistinguishes(months: Option<JsNumber>, numberText: real -> string)
    ensures TimeframeLabel(months, numberText) != EntireHistory <==> months.Some? && Positive(months.value)
  {
    if months.Some? && Positive(months.value) {
      var r := TimeframeLabel(months, numberText);
      assert r[..5] == "Last ";
      assert EntireHistory[..5] == "Entir";
    }
  }

  /** The eight slot values in placeholder order. */
  function SlotValues(c: Context, f: Formatters): (r: seq<string>)
    ensures |r| == SlotCount
    ensures r[0] == c.requestType
    // the query goes in escaped, and unescaping it gives the query back
    ensures r[1] == EscapeQuotes(c.userQuery) && UnescapeQuotes(r[1]) == c.userQuery
    ensures r[2] == (if c.areaName.Some? then c.areaName.value else NotSpecified)
    ensures c.coordinates.None? ==> r[3] == NotProvided && r[4] == NotProvided
    ensures c.coordinates.Some? ==> r[3] == f.fixed6(c.coordinates.value.lat) && r[4] == f.fixed6(c.coordinates.value.lng)
    ensures r[5] == TimeframeLabel(c.timeframeMonths, f.numberText)
    ensures r[6] == (if c.filterSummary.Some? then c.filterSummary.value else NoFilters)
    ensures r[7] == f.stringify(EventDataPayload(c.events))
  {
    EscapeRoundTrip(c.userQuery);
    [c.requestType, EscapeQuotes(c.userQuery), AreaSlot(c), LatSlot(c, f), LngSlot(c, f),
     TimeframeLabel(c.timeframeMonths, f.numberText), FilterSlot(c), f.stringify(EventDataPayload(c.events))]
  }

  // The optional slots fall back to a fixed label when the value is absent.
  function AreaSlot(c: Context): string { if c.areaName.Some? then c.areaName.value else NotSpecified }
  function FilterSlot(c: Context): string { if c.filterSummary.Some? then c.filterSummary.value else NoFilters }
  function LatSlot(c: Context, f: Formatters): string { if c.coordinates.Some? then f.fixed6(c.coordinates.value.lat) else NotProvided }
  function LngSlot(c: Context, f: Formatters): string { if c.coordinates.Some? then f.fixed6(c.coordinates.value.lng) else NotProvided }

  /** `buildSafetyAdvisorSystemPrompt` as written: the template, given as
      its nine stretches of prose, run through the eight `.replace` calls. */
  function SystemPromptAsWritten(prose: seq<string>, c: Context, f: Formatters): string
    requires |prose| == SlotCount + 1
  {
    PlaceholderCount();
    FillAll(Interleave(prose, Placeholders), Placeholders, SlotValues(c, f), false)
  }

  /** The prompt with every value inserted verbatim. */
  function SystemPrompt(prose: seq<string>, c: Context, f: Formatters): string
    requires |prose| == SlotCount + 1
  {
    PlaceholderCount();
    FillAll(Interleave(prose, Placeholders), Placeholders, SlotValues(c, f), true)
  }

  lemma PlaceholdersOpenWithBrace()
    ensures SlotsOpenWithBrace(Placeholders)
  {
    assert Placeholders[0][0] == '{' && Placeholders[1][0] == '{';
    assert Placeholders[2][0] == '{' && Placeholders[3][0] == '{';
    assert Placeholders[4][0] == '{' && Placeholders[5][0] == '{';
    assert Placeholders[6][0] == '{' && Placeholders[7][0] == '{';
  }

  /** Every slot of the template receives its own value: when the prose has
      no `{` and no value before the event data has one, the prompt is the
      template with the context's values in its slots. */
  lemma SystemPromptFillsSlots(prose: seq<string>, c: Context, f: Formatters)
    requires |prose| == SlotCount + 1 && BraceFree(prose)
    requires BraceFree(SlotValues(c, f)[..7])
    ensures SystemPrompt(prose, c, f) == Interleave(prose, SlotValues(c, f))
  {
    PlaceholderCount();
    PlaceholdersOpenWithBrace();
    FillInterleaved("", prose, Placeholders, SlotValues(c, f), true);
    assert "" + Interleave(prose, Placeholders) == Interleave(prose, Placeholders);
    assert "" + Interleave(prose, SlotValues(c, f)) == Interleave(prose, SlotValues(c, f));
  }

  /** As written the chain does the same, as long as no value has a `$`. */
  lemma AsWrittenFillsSlotsWithoutDollar(prose: seq<string>, c: Context, f: Formatters)
    requires |prose| == SlotCount + 1 && BraceFree(prose)
    requires BraceFree(SlotValues(c, f)[..7]) && DollarFree(SlotValues(c, f))
    ensures SystemPromptAsWritten(prose, c, f) == Interleave(prose, SlotValues(c, f))
  {
    PlaceholderCount();
    PlaceholdersOpenWithBrace();
    FillInterleaved("", prose, Placeholders, SlotValues(c, f), false);
    assert "" + Interleave(prose, Placeholders) == Interleave(prose, Placeholders);
    assert "" + Interleave(prose, SlotValues(c, f)) == Interleave(prose, SlotValues(c, f));
  }

  /** As written, a value `$&` is replaced by the matched placeholder: the
      slot keeps showing the placeholder instead of the value, where the
      verbatim replacement shows the value. */
  lemma DollarValueIsExpanded(a: string, p: string, b: string)
    requires |p| >= 1 && p[0] == '{' && '{' !in a
    ensures ReplaceFirst(a + p + b, p, "$&") == a + p + b
    ensures ReplaceFirstLiteral(a + p + b, p, "$&") == a + "$&" + b
  {
    FindAfter(a, p, b);
    SliceAround(a, p, b);
    ExpandMatched(p, a, b);
  }

  lemma SliceAround(a: string, p: string, b: string)
    ensures (a + p + b)[..|a|] == a && (a + p + b)[|a| + |p|..] == b
  {
  }

  lemma ExpandMatched(p: string, a: string, b: string)
    ensures Expand("$&", p, a, b) == p
  {
    assert Expand("$&", p, a, b) == p + Expand("", p, a, b);
  }

  /** A text without quotes is escaped to itself. */
  lemma {:induction false} EscapeWithoutQuotes(s: string)
    requires '"' !in s
    ensures EscapeQuotes(s) == s
  {
    if |s| > 0 {
      assert s[0] in s;
      assert '"' !in s[1..] by {
        assert forall k :: 0 <= k < |s[1..]| ==> s[1..][k] == s[k + 1];
      }
      EscapeWithoutQuotes(s[1..]);
      assert s == [s[0]] + s[1..];
    }
  }

  /** The user query `$&` in the prompt's query line: the escaped query is
      `$&` itself, and the line keeps `"{user_query}"`. */
  lemma DollarQueryIsExpanded()
    ensures ReplaceFirst("Q: \"{user_query}\"", "{user_query}", EscapeQuotes("$&")) == "Q: \"{user_query}\""
  {
    EscapedDollar();
    QueryLine();
    DollarValueIsExpanded("Q: \"", "{user_query}", "\"");
  }

  lemma EscapedDollar()
    ensures EscapeQuotes("$&") == "$&"
  {
    assert '"' !in "$&";
    EscapeWithoutQuotes("$&");
  }

  lemma QueryLine()
    ensures "Q: \"" + "{user_query}" + "\"" == "Q: \"{user_query}\""
    ensures '{' !in "Q: \""
  {
  }

  /** Because the search for a placeholder starts at the beginning of the
      text, a value that spells a later placeholder receives that later
      value, and the template's own slot keeps the placeholder. */
  lemma ValueCapturesLaterSlot(q: string, n: string, mid: string, v: string)
    requires |q| >= 1 && q[0] == '{' && |n| >= 1 && n[0] == '{' && '{' !in mid
    ensures FillAll(q + mid + n, [q, n], [n, v], true) == v + mid + n
  {
    var tail := mid + n;
    FillTwo(q + mid + n, q, n, n, v);
    Regroup(q, mid, n);
    StepReplaces("", q, n, tail, true);
    Regroup(n, mid, n);
    StepReplaces("", n, v, tail, true);
    Regroup(v, mid, n);
  }

  lemma FillTwo(s: string, p1: string, p2: string, v1: string, v2: string)
    ensures FillAll(s, [p1, p2], [v1, v2], true) == Replace(Replace(s, p1, v1, true), p2, v2, true)
  {
    assert [p1, p2][1..] == [p2] && [v1, v2][1..] == [v2];
    var t := Replace(s, p1, v1, true);
    assert FillAll(t, [p2], [v2], true) == FillAll(Replace(t, p2, v2, true), [], [], true);
  }

  lemma Regroup(x: string, y: string, z: string)
    ensures "" + x + (y + z) == x + y + z
  {
  }

  // ---------------------------------------------------------------------
  // Event payload
  // ---------------------------------------------------------------------

  /** One event as the prompt's JSON lists it. */
  datatype Entry = Entry(
    id: string,
    title: string,
    description: string,
    category: string,
    address: string,
    createdAt: Option<int>,
    location: Location,
    verificationCount: int,
    radiusMeters: Option<real>,
    isActive: bool)

  /** `n / 10^6` nearest to a non-negative `y`, ties upward. */
  function HalfUp6(y: real): (r: real)
    requires y >= 0.0
    ensures r >= 0.0
    ensures y - 1.0 / 2000000.0 <= r <= y + 1.0 / 2000000.0
  {
    Round(y * 1000000.0) as real / 1000000.0
  }

  /** `Number(x.toFixed(6))`: `x` rounded to six decimals, halves away from
      zero; from 10^21 on, `toFixed` prints the number itself. */
  function Fixed6(x: real): (r: real)
    ensures -1.0 / 2000000.0 <= r - x <= 1.0 / 2000000.0
  {
    if x >= 1000000000000000000000.0 || x <= -1000000000000000000000.0 then x
    else if x < 0.0 then -HalfUp6(-x)
    else HalfUp6(x)
  }

  lemma HalfUp6OfGrid(n: int)
    requires n >= 0
    ensures HalfUp6(n as real / 1000000.0) == n as real / 1000000.0
  {
    assert (n as real / 1000000.0) * 1000000.0 == n as real;
    assert Round(n as real) == n;
  }

  /** Rounding an already rounded coordinate changes nothing. */
  lemma Fixed6Idempotent(x: real)
    ensures Fixed6(Fixed6(x)) == Fixed6(x)
  {
    var r := Fixed6(x);
    if !(x >= 1000000000000000000000.0 || x <= -1000000000000000000000.0) {
      if x < 0.0 {
        var n := Round(-x * 1000000.0);
        assert n >= 0;
        assert r == -(n as real / 1000000.0);
        HalfUp6OfGrid(n);
        if r < 0.0 && r > -1000000000000000000000.0 {
          assert -r == n as real / 1000000.0;
        }
      } else {
        var n := Round(x * 1000000.0);
        assert n >= 0;
        HalfUp6OfGrid(n);
      }
    }
  }

  /** The payload entry of one event: its fields, the rounded coordinates,
      and `radiusMeters` null when absent. */
  function EntryOf(e: Event): (r: Entry)
    ensures r.id == e.id && r.createdAt == e.createdAt && r.isActive == e.isActive
    ensures r.title == e.title && r.description == e.description
    ensures r.category == e.category && r.address == e.address
    ensures r.verificationCount == e.verificationCount
    ensures r.radiusMeters == e.radiusMeters
    ensures r.location == Location(Fixed6(e.location.lat), Fixed6(e.location.lng))
  {
    Entry(e.id, e.title, e.description, e.category, e.address, e.createdAt,
          Location(Fixed6(e.location.lat), Fixed6(e.location.lng)),
          e.verificationCount, e.radiusMeters, e.isActive)
  }

  /** `buildEventDataJson` before stringifying: one entry per event, in
      order. */
  function EventDataPayload(events: seq<Event>): (r: seq<Entry>)
    ensures |r| == |events|
    ensures forall i :: 0 <= i < |r| ==> r[i] == EntryOf(events[i])
  {
    seq(|events|, i requires 0 <= i < |events| => EntryOf(events[i]))
  }

  /** The payload of consecutive lists is the consecutive payloads. */
  lemma PayloadOfConcat(a: seq<Event>, b: seq<Event>)
    ensures EventDataPayload(a + b) == EventDataPayload(a) + EventDataPayload(b)
  {
    var l := EventDataPayload(a + b);
    var r := EventDataPayload(a) + EventDataPayload(b);
    assert |l| == |r|;
    forall i | 0 <= i < |l| ensures l[i] == r[i] {
      if i < |a| {
        assert (a + b)[i] == a[i];
      } else {
        assert (a + b)[i] == b[i - |a|];
      }
    }
  }
}

=== FILE: safety_chat.dfy ===
/** The advisor chat panel: a submit appends the user's message and a
    "working" placeholder, sends the history to the endpoint, and then
    replaces only the placeholder with the answer or an apology.  Message
    ids are parameters and timestamps are left out. */
module SafetyChat {

  import opened Wrappers
  import opened Text
  import opened Domain
  import JsNumbers
  import AiChatRoute

  datatype Role = User | Assistant

  datatype ChatMessage = ChatMessage(id: string, role: Role, content: string, isStreaming: bool)

  datatype Panel = Panel(messages: seq<ChatMessage>, input: string, isSubmitting: bool, error: Option<string>)

  const WorkingText := "Working on your safety summary..."
  const ApologyText := "Unable to generate a safety summary right now. Please try again shortly."
  const FetchFailed := "Failed to fetch AI response"
  const EmptyAnswer := "AI response was empty"
  const GenericError := "Something went wrong"
  const DefaultRequestType := "BROAD_AREA_SAFETY_GUIDANCE"

  /** The history sent with a request: role and content of each message. */
  datatype Turn = Turn(role: Role, content: string)

  /** The posted body: the fixed request type, no timeframe, the query,
      the user's location when known, and the history. */
  datatype Request = Request(requestType: string, timeframeMonths: Option<int>, userQuery: string,
                             coordinates: Option<Location>, history: seq<Turn>)

  function Turns(ms: seq<ChatMessage>): (r: seq<Turn>)
    ensures |r| == |ms|
    ensures forall i :: 0 <= i < |r| ==> r[i] == Turn(ms[i].role, ms[i].content)
  {
    seq(|ms|, i requires 0 <= i < |ms| => Turn(ms[i].role, ms[i].content))
  }

  /** `handleSubmit` up to the request: nothing for a blank input or while
      a submission runs; otherwise the trimmed message and the placeholder
      are appended, the input is cleared, the error reset, and the request
      carries the fixed request type, no timeframe, the panel's `location`
      and the earlier messages followed by the new one. */
  function Submit(p: Panel, location: Option<Location>, userId: string, placeholderId: string)
    : (r: (Panel, Option<Request>))
    ensures IsBlank(p.input) || p.isSubmitting ==> r == (p, None)
    ensures !(IsBlank(p.input) || p.isSubmitting) ==>
              && r.0.messages == p.messages + [ChatMessage(userId, User, Trim(p.input), false),
                                               ChatMessage(placeholderId, Assistant, WorkingText, true)]
              && r.0.input == "" && r.0.isSubmitting && r.0.error.None?
              && r.1 == Some(Request(DefaultRequestType, None, Trim(p.input), location,
                                     Turns(p.messages) + [Turn(User, Trim(p.input))]))
  {
    if IsBlank(p.input) || p.isSubmitting then (p, None)
    else
      var trimmed := Trim(p.input);
      var user := ChatMessage(userId, User, trimmed, false);
      var placeholder := ChatMessage(placeholderId, Assistant, WorkingText, true);
      var history := Turns(p.messages + [user]);
      assert history == Turns(p.messages) + [Turn(User, trimmed)];
      (Panel(p.messages + [user, placeholder], "", true, None),
       Some(Request(DefaultRequestType, None, trimmed, location, history)))
  }

  /** How the request settles: a response that is not OK (with the error
      member of its body, if any), an OK response (with its message
      member, if any), or a thrown error (with its message when it is an
      `Error`). */
  datatype Outcome = NotOk(bodyError: Option<string>) | Ok(message: Option<string>) | Threw(errorMessage: Option<string>)

  /** The messages with every message of the id given `content` and no
      longer marked as streaming. */
  function Finish(ms: seq<ChatMessage>, id: string, content: string): (r: seq<ChatMessage>)
    ensures |r| == |ms|
    ensures forall i :: 0 <= i < |r| && ms[i].id != id ==> r[i] == ms[i]
    ensures forall i :: 0 <= i < |r| && ms[i].id == id ==>
              r[i] == ChatMessage(id, ms[i].role, content, false)
  {
    seq(|ms|, i requires 0 <= i < |ms| => if ms[i].id == id then ms[i].(content := content, isStreaming := false) else ms[i])
  }

  /** The error a failed request reports. */
  function FailureMessage(o: Outcome): (r: Option<string>)
    ensures o.Ok? && o.message.Some? && o.message.value != "" <==> r.None?
    // the text shown for each failure
    ensures o.NotOk? && o.bodyError.Some? ==> r == o.bodyError
    ensures o.NotOk? && o.bodyError.None? ==> r == Some(FetchFailed)
    ensures o.Ok? && r.Some? ==> r == Some(EmptyAnswer)
    ensures o.Threw? && o.errorMessage.Some? ==> r == o.errorMessage
    ensures o.Threw? && o.errorMessage.None? ==> r == Some(GenericError)
  {
    match o
    case NotOk(bodyError) => Some(if bodyError.Some? then bodyError.value else FetchFailed)
    case Ok(message) => if message.Some? && message.value != "" then None else Some(EmptyAnswer)
    case Threw(errorMessage) => Some(if errorMessage.Some? then errorMessage.value else GenericError)
  }

  /** The end of `handleSubmit`: the placeholder becomes the answer, or the
      apology with the error set; the submission ends either way. */
  function Settle(p: Panel, placeholderId: string, o: Outcome): (r: Panel)
    ensures !r.isSubmitting && r.input == p.input && |r.messages| == |p.messages|
    ensures FailureMessage(o).None? ==>
              r.error == p.error && r.messages == Finish(p.messages, placeholderId, o.message.value)
    ensures FailureMessage(o).Some? ==>
              r.error == FailureMessage(o) && r.messages == Finish(p.messages, placeholderId, ApologyText)
  {
    match FailureMessage(o)
    case None => p.(messages := Finish(p.messages, placeholderId, o.message.value), isSubmitting := false)
    case Some(e) => p.(messages := Finish(p.messages, placeholderId, ApologyText), error := Some(e), isSubmitting := false)
  }

  /** A whole exchange with fresh ids: the messages end with the user's
      message and the answer (or the apology) in the placeholder's place,
      and the earlier messages are untouched. */
  lemma ExchangeReplacesOnlyPlaceholder(p: Panel, location: Option<Location>, userId: string, placeholderId: string, o: Outcome)
    requires !IsBlank(p.input) && !p.isSubmitting
    requires userId != placeholderId
    requires forall i :: 0 <= i < |p.messages| ==> p.messages[i].id != placeholderId
    ensures var after := Settle(Submit(p, location, userId, placeholderId).0, placeholderId, o);
            var content := if FailureMessage(o).None? then o.message.value else ApologyText;
            after.messages == p.messages + [ChatMessage(userId, User, Trim(p.input), false),
                                            ChatMessage(placeholderId, Assistant, content, false)]
            && !after.isSubmitting && after.input == ""
  {
    var user := ChatMessage(userId, User, Trim(p.input), false);
    var placeholder := ChatMessage(placeholderId, Assistant, WorkingText, true);
    var mid := Submit(p, location, userId, placeholderId).0;
    assert mid.messages == p.messages + [user, placeholder];
    var content := if FailureMessage(o).None? then o.message.value else ApologyText;
    FinishOnlyPlaceholder(p.messages, user, placeholder, content);
  }

  /** Finishing the placeholder at the end of a list changes nothing
      before it. */
  lemma FinishOnlyPlaceholder(ms: seq<ChatMessage>, user: ChatMessage, placeholder: ChatMessage, content: string)
    requires user.id != placeholder.id
    requires forall i :: 0 <= i < |ms| ==> ms[i].id != placeholder.id
    ensures Finish(ms + [user, placeholder], placeholder.id, content)
            == ms + [user, ChatMessage(placeholder.id, placeholder.role, content, false)]
  {
    var l := Finish(ms + [user, placeholder], placeholder.id, content);
    var r := ms + [user, ChatMessage(placeholder.id, placeholder.role, content, false)];
    forall i | 0 <= i < |r| ensures l[i] == r[i] {
      if i < |ms| {
        assert (ms + [user, placeholder])[i] == ms[i];
      } else if i == |ms| {
        assert (ms + [user, placeholder])[i] == user;
      } else {
        assert (ms + [user, placeholder])[i] == placeholder;
      }
    }
  }

  /** A second submit while the first runs changes nothing and sends
      nothing. */
  lemma NoSubmitWhileSubmitting(p: Panel, location: Option<Location>, userId: string, placeholderId: string, nextUser: string, nextPlaceholder: string)
    requires !IsBlank(p.input) && !p.isSubmitting
    ensures var mid := Submit(p, location, userId, placeholderId).0;
            Submit(mid, location, nextUser, nextPlaceholder) == (mid, None)
  {
  }

  function RoleName(r: Role): string {
    if r == User then "user" else "assistant"
  }

  /** The posted body as the chat route reads it: no area name, and a
      missing timeframe as JSON `null`. */
  function RouteBody(q: Request): AiChatRoute.Body {
    AiChatRoute.Body(
      Some(q.userQuery),
      Some(seq(|q.history|, i requires 0 <= i < |q.history| =>
                 AiChatRoute.ChatMessage(RoleName(q.history[i].role), q.history[i].content))),
      Some(q.requestType),
      if q.timeframeMonths.Some? then AiChatRoute.Number(JsNumbers.Finite(q.timeframeMonths.value as real))
      else AiChatRoute.Null,
      None,
      q.coordinates)
  }

  /** The chat route accepts every request the panel sends: the query is
      not blank, the request type is set and the timeframe is null, so with
      a key the plan is the panel's query and location with no timeframe. */
  lemma SubmittedRequestIsAccepted(p: Panel, location: Option<Location>, userId: string, placeholderId: string,
                                   key: string)
    requires !IsBlank(p.input) && !p.isSubmitting && key != ""
    ensures Submit(p, location, userId, placeholderId).1.Some?
    ensures var q := Submit(p, location, userId, placeholderId).1.value;
            var v := AiChatRoute.Validate(AiChatRoute.Request(Some(key), Some(RouteBody(q))));
            && v.Success?
            && v.value.userQuery == Trim(p.input)
            && v.value.timeframeMonths.None?
            && v.value.coordinates == location
  {
  }
}

=== FILE: seqs.dfy ===
/** Sequence helpers shared by the list operations: `Array.prototype.filter`
    and the order-preserving subsequence relation it establishes. */
module Seqs {

  /** `r` can be obtained from `s` by deleting elements. */
  predicate IsSubsequence<T(==)>(r: seq<T>, s: seq<T>)
    decreases |s|
  {
    if |r| == 0 then true
    else if |s| == 0 then false
    else if r[0] == s[0] then IsSubsequence(r[1..], s[1..])
    else IsSubsequence(r, s[1..])
  }

  /** `s.filter(p)`: the elements satisfying `p`, in their order in `s`. */
  function Filter<T(==,!new)>(p: T -> bool, s: seq<T>): (r: seq<T>)
    ensures |r| <= |s|
    ensures forall x :: x in r <==> x in s && p(x)
    ensures forall i :: 0 <= i < |r| ==> p(r[i])
  {
    if |s| == 0 then []
    else
      var rest := Filter(p, s[1..]);
      assert forall x :: x in s <==> x == s[0] || x in s[1..];
      if p(s[0]) then [s[0]] + rest else rest
  }

  lemma {:induction false} FilterIsSubsequence<T(!new)>(p: T -> bool, s: seq<T>)
    ensures IsSubsequence(Filter(p, s), s)
  {
    if |s| > 0 {
      FilterIsSubsequence(p, s[1..]);
      if p(s[0]) {
        assert ([s[0]] + Filter(p, s[1..]))[1..] == Filter(p, s[1..]);
      } else {
        SubsequenceSkip(Filter(p, s[1..]), s[1..], s[0]);
        assert [s[0]] + s[1..] == s;
      }
    }
  }

  /** Prepending an element to the longer sequence keeps a subsequence. */
  lemma {:induction false} SubsequenceRefl<T>(s: seq<T>)
    ensures IsSubsequence(s, s)
  {
    if |s| > 0 {
      SubsequenceRefl(s[1..]);
    }
  }

  lemma {:induction false} SubsequenceSkip<T>(r: seq<T>, s: seq<T>, x: T)
    requires IsSubsequence(r, s)
    ensures IsSubsequence(r, [x] + s)
    decreases |s|, 1
  {
    assert ([x] + s)[1..] == s;
    if |r| > 0 && r[0] == x {
      SubsequenceDrop(r, s);
    }
  }

  /** A subsequence of `s` stays one after dropping its own first element. */
  lemma {:induction false} SubsequenceDrop<T>(r: seq<T>, s: seq<T>)
    requires |r| > 0 && IsSubsequence(r, s)
    ensures IsSubsequence(r[1..], s)
    decreases |s|, 0
  {
    assert |s| > 0;
    assert [s[0]] + s[1..] == s;
    if r[0] == s[0] {
      SubsequenceSkip(r[1..], s[1..], s[0]);
    } else {
      SubsequenceDrop(r, s[1..]);
      SubsequenceSkip(r[1..], s[1..], s[0]);
    }
  }

  /** Filtering with a predicate every element satisfies is the identity. */
  lemma {:induction false} FilterAll<T(!new)>(p: T -> bool, s: seq<T>)
    requires forall i :: 0 <= i < |s| ==> p(s[i])
    ensures Filter(p, s) == s
  {
    if |s| > 0 {
      FilterAll(p, s[1..]);
      assert [s[0]] + s[1..] == s;
    }
  }

  /** Filtering keeps every copy of a kept element and no copy of the
      others. */
  lemma {:induction false} FilterCounts<T(!new)>(p: T -> bool, s: seq<T>)
    ensures forall x :: multiset(Filter(p, s))[x] == if p(x) then multiset(s)[x] else 0
  {
    if |s| > 0 {
      FilterCounts(p, s[1..]);
      assert s == [s[0]] + s[1..];
      assert multiset(s) == multiset{s[0]} + multiset(s[1..]);
    }
  }

  lemma {:induction false} FilterSnoc<T(!new)>(p: T -> bool, s: seq<T>, x: T)
    ensures Filter(p, s + [x]) == Filter(p, s) + (if p(x) then [x] else [])
  {
    if |s| == 0 {
      assert s + [x] == [x];
    } else {
      assert (s + [x])[0] == s[0];
      assert (s + [x])[1..] == s[1..] + [x];
      FilterSnoc(p, s[1..], x);
    }
  }

  ghost predicate NoDuplicates<T>(s: seq<T>) {
    forall i, j :: 0 <= i < j < |s| ==> s[i] != s[j]
  }

  /** `s.indexOf(x)` for an element that occurs: its first position. */
  function IndexOf<T(==)>(s: seq<T>, x: T): (r: nat)
    requires x in s
    ensures r < |s| && s[r] == x && x !in s[..r]
  {
    if s[0] == x then 0
    else
      var r := 1 + IndexOf(s[1..], x);
      assert s[..r] == [s[0]] + s[1..][..r - 1];
      r
  }

  lemma IndexOfPrefix<T>(s: seq<T>, n: nat, x: T)
    requires n <= |s| && x in s[..n]
    ensures x in s && IndexOf(s, x) == IndexOf(s[..n], x)
  {
    var i := IndexOf(s[..n], x);
    assert s[..n][..i] == s[..i];
    var j := IndexOf(s, x);
    assert s[i] == x && s[j] == x;
    assert forall k :: 0 <= k < j ==> s[..j][k] == s[k];
    assert forall k :: 0 <= k < i ==> s[..i][k] == s[k];
  }

  /** `Array.from(new Set(s))`: the first occurrence of every element, in
      order of first occurrence. */
  function Dedupe<T(==,!new)>(s: seq<T>): (r: seq<T>)
    ensures NoDuplicates(r)
    ensures forall x :: x in r <==> x in s
    ensures forall i, j :: 0 <= i < j < |r| ==> IndexOf(s, r[i]) < IndexOf(s, r[j])
  {
    if |s| == 0 then []
    else
      var init := s[..|s| - 1];
      var x := s[|s| - 1];
      var d := Dedupe(init);
      assert s == init + [x];
      forall y | y in d ensures IndexOf(s, y) == IndexOf(init, y) < |init| {
        IndexOfPrefix(s, |init|, y);
      }
      if x in d then d
      else
        assert IndexOf(s, x) == |init|;
        d + [x]
  }

  /** A sequence without duplicates is its own deduplication. */
  lemma {:induction false} DedupeOfDistinct<T(!new)>(s: seq<T>)
    requires NoDuplicates(s)
    ensures Dedupe(s) == s
  {
    if |s| > 0 {
      var init := s[..|s| - 1];
      DedupeOfDistinct(init);
      assert s == init + [s[|s| - 1]];
    }
  }

  /** Deduplicating twice is deduplicating once. */
  lemma DedupeIdempotent<T(!new)>(s: seq<T>)
    ensures Dedupe(Dedupe(s)) == Dedupe(s)
  {
    DedupeOfDistinct(Dedupe(s));
  }

  /** Filtering keeps the relative order of first occurrences. */
  lemma {:induction false} FilterIndexOrder<T(!new)>(p: T -> bool, s: seq<T>, x: T, y: T)
    requires x in s && y in s && p(x) && p(y)
    ensures x in Filter(p, s) && y in Filter(p, s)
    ensures IndexOf(Filter(p, s), x) < IndexOf(Filter(p, s), y) <==> IndexOf(s, x) < IndexOf(s, y)
  {
    var f := Filter(p, s);
    if s[0] != x && s[0] != y {
      var rest := Filter(p, s[1..]);
      assert x in s[1..] && y in s[1..];
      FilterIndexOrder(p, s[1..], x, y);
      if p(s[0]) {
        assert f == [s[0]] + rest && f[1..] == rest;
      }
    }
  }

  /** Filtering with a predicate no element satisfies gives nothing. */
  lemma FilterNone<T(!new)>(p: T -> bool, s: seq<T>)
    requires forall i :: 0 <= i < |s| ==> !p(s[i])
    ensures Filter(p, s) == []
  {
  }
}

=== FILE: sorting.dfy ===
/** The two sorts the application relies on, as `Array.prototype.sort`
    performs them: a stable sort by a numeric key (the recency orderings of
    events and chat messages) and the default sort of strings by UTF-16
    code units (cluster identifiers). */
module Sorting {

  // ---------------------------------------------------------------------
  // Stable sort by an integer key, largest key first
  // ---------------------------------------------------------------------

  ghost predicate SortedDesc<T>(s: seq<T>, key: T -> int) {
    forall i, j :: 0 <= i < j < |s| ==> key(s[i]) >= key(s[j])
  }

  /** The elements of `s` whose key is `k`, in their order in `s`.  A sort
      is stable exactly when it keeps every such subsequence unchanged. */
  function WithKey<T>(s: seq<T>, key: T -> int, k: int): seq<T> {
    if |s| == 0 then []
    else (if key(s[0]) == k then [s[0]] else []) + WithKey(s[1..], key, k)
  }

  lemma WithKeyCons<T>(x: T, s: seq<T>, key: T -> int, k: int)
    ensures WithKey([x] + s, key, k) == (if key(x) == k then [x] else []) + WithKey(s, key, k)
  {
    assert ([x] + s)[0] == x;
    assert ([x] + s)[1..] == s;
  }

  /** Places `x` in front of the first element whose key does not exceed its
      own, so `x` precedes every element of equal key. */
  function InsertDesc<T>(x: T, s: seq<T>, key: T -> int): (r: seq<T>)
    requires SortedDesc(s, key)
    ensures |r| == |s| + 1
    ensures SortedDesc(r, key)
    ensures multiset(r) == multiset(s) + multiset{x}
    ensures forall k :: WithKey(r, key, k) == (if key(x) == k then [x] else []) + WithKey(s, key, k)
  {
    if |s| == 0 || key(s[0]) <= key(x) then
      FrontWithKey(x, s, key);
      [x] + s
    else
      var rest := InsertDesc(x, s[1..], key);
      BehindWithKey(x, s, rest, key);
      [s[0]] + rest
  }

  lemma FrontWithKey<T>(x: T, s: seq<T>, key: T -> int)
    requires SortedDesc(s, key)
    requires |s| == 0 || key(s[0]) <= key(x)
    ensures SortedDesc([x] + s, key)
    ensures forall k :: WithKey([x] + s, key, k) == (if key(x) == k then [x] else []) + WithKey(s, key, k)
  {
    forall k ensures WithKey([x] + s, key, k) == (if key(x) == k then [x] else []) + WithKey(s, key, k) {
      WithKeyCons(x, s, key, k);
    }
  }

  lemma BehindWithKey<T>(x: T, s: seq<T>, rest: seq<T>, key: T -> int)
    requires SortedDesc(s, key) && |s| > 0 && key(s[0]) > key(x)
    requires SortedDesc(rest, key)
    requires multiset(rest) == multiset(s[1..]) + multiset{x}
    requires forall k :: WithKey(rest, key, k) == (if key(x) == k then [x] else []) + WithKey(s[1..], key, k)
    ensures SortedDesc([s[0]] + rest, key)
    ensures multiset([s[0]] + rest) == multiset(s) + multiset{x}
    ensures forall k :: WithKey([s[0]] + rest, key, k) == (if key(x) == k then [x] else []) + WithKey(s, key, k)
  {
    BehindSorted(x, s, rest, key);
    forall k ensures WithKey([s[0]] + rest, key, k) == (if key(x) == k then [x] else []) + WithKey(s, key, k) {
      BehindWithKeyAt(x, s, rest, key, k);
    }
  }

  lemma BehindSorted<T>(x: T, s: seq<T>, rest: seq<T>, key: T -> int)
    requires SortedDesc(s, key) && |s| > 0 && key(s[0]) > key(x)
    requires SortedDesc(rest, key)
    requires multiset(rest) == multiset(s[1..]) + multiset{x}
    ensures SortedDesc([s[0]] + rest, key)
    ensures multiset([s[0]] + rest) == multiset(s) + multiset{x}
  {
    forall j | 0 <= j < |rest| ensures key(rest[j]) <= key(s[0]) {
      assert rest[j] in multiset(rest);
    }
    assert s == [s[0]] + s[1..];
  }

  lemma BehindWithKeyAt<T>(x: T, s: seq<T>, rest: seq<T>, key: T -> int, k: int)
    requires |s| > 0 && key(s[0]) > key(x)
    requires WithKey(rest, key, k) == (if key(x) == k then [x] else []) + WithKey(s[1..], key, k)
    ensures WithKey([s[0]] + rest, key, k) == (if key(x) == k then [x] else []) + WithKey(s, key, k)
  {
    WithKeyCons(s[0], rest, key, k);
    WithKeyCons(s[0], s[1..], key, k);
    assert [s[0]] + s[1..] == s;
    if key(x) == k {
      assert key(s[0]) != k;
    }
  }

  /** `[...s].sort((a, b) => key(b) - key(a))`: the stable sort, largest
      key first.  The result is a permutation of `s`, ordered by key, and
      elements of equal key keep their relative order. */
  function SortDesc<T>(s: seq<T>, key: T -> int): (r: seq<T>)
    ensures |r| == |s|
    ensures SortedDesc(r, key)
    ensures multiset(r) == multiset(s)
    ensures forall k :: WithKey(r, key, k) == WithKey(s, key, k)
  {
    if |s| == 0 then []
    else
      var r := InsertDesc(s[0], SortDesc(s[1..], key), key);
      assert s == [s[0]] + s[1..];
      forall k ensures WithKey(r, key, k) == WithKey(s, key, k) {
        WithKeyCons(s[0], s[1..], key, k);
      }
      r
  }

  lemma {:induction false} WithKeyMembership<T>(s: seq<T>, key: T -> int, k: int, x: T)
    ensures x in WithKey(s, key, k) <==> x in s && key(x) == k
  {
    if |s| > 0 {
      WithKeyMembership(s[1..], key, k, x);
      assert s == [s[0]] + s[1..];
    }
  }

  lemma HeadHasKey<T>(s: seq<T>, key: T -> int)
    requires |s| > 0
    ensures WithKey(s, key, key(s[0])) != []
  {
  }

  /** A sorted sequence is determined by its equal-key subsequences: two
      sorted sequences that agree on every key are equal. */
  lemma {:induction false} SortedStableUnique<T>(a: seq<T>, b: seq<T>, key: T -> int)
    requires SortedDesc(a, key) && SortedDesc(b, key)
    requires forall k :: WithKey(a, key, k) == WithKey(b, key, k)
    ensures a == b
  {
    if |a| == 0 && |b| > 0 {
      HeadHasKey(b, key);
      assert false;
    } else if |a| > 0 && |b| == 0 {
      HeadHasKey(a, key);
      assert false;
    } else if |a| > 0 {
      var m := key(a[0]);
      var n := key(b[0]);
      assert m == n by {
        WithKeyMembership(a, key, n, b[0]);
        WithKeyMembership(b, key, m, a[0]);
        assert b[0] in WithKey(a, key, n);
        assert a[0] in WithKey(b, key, m);
      }
      assert a[0] == b[0] by {
        assert WithKey(a, key, m) == [a[0]] + WithKey(a[1..], key, m);
        assert WithKey(b, key, m) == [b[0]] + WithKey(b[1..], key, m);
        assert WithKey(a, key, m) == WithKey(b, key, m);
        assert WithKey(a, key, m)[0] == a[0];
        assert WithKey(b, key, m)[0] == b[0];
      }
      forall k ensures WithKey(a[1..], key, k) == WithKey(b[1..], key, k) {
        assert WithKey(a, key, k) == WithKey(b, key, k);
        assert WithKey(a, key, k) == (if m == k then [a[0]] else []) + WithKey(a[1..], key, k);
        assert WithKey(b, key, k) == (if m == k then [b[0]] else []) + WithKey(b[1..], key, k);
        if m == k {
          assert WithKey(a[1..], key, k) == WithKey(a, key, k)[1..];
          assert WithKey(b[1..], key, k) == WithKey(b, key, k)[1..];
        } else {
          assert WithKey(a[1..], key, k) == WithKey(a, key, k);
          assert WithKey(b[1..], key, k) == WithKey(b, key, k);
        }
      }
      SortedStableUnique(a[1..], b[1..], key);
      assert a == [a[0]] + a[1..];
      assert b == [b[0]] + b[1..];
    }
  }

  /** Sorting an already sorted sequence changes nothing. */
  lemma SortDescOfSorted<T>(s: seq<T>, key: T -> int)
    requires SortedDesc(s, key)
    ensures SortDesc(s, key) == s
  {
    SortedStableUnique(SortDesc(s, key), s, key);
  }

  // ---------------------------------------------------------------------
  // Default string sort (lexicographic on code units)
  // ---------------------------------------------------------------------

  /** The position of a character in UTF-16 code-unit order.  A character
      outside the Basic Multilingual Plane is written as a surrogate pair
      whose leading unit lies in 0xD800..0xDBFF, so it sorts after the
      characters below 0xD800 and before those from 0xE000 up; two such
      characters compare as their code points do. */
  function CodeUnitRank(c: char): int {
    if c as int < 0xD800 then c as int
    else if c as int < 0x1_0000 then c as int + 0x11_0000
    else c as int
  }

  /** `a` sorts no later than `b` under the default comparison, which
      compares UTF-16 code units. */
  predicate StrLe(a: string, b: string)
    decreases |a|
  {
    if |a| == 0 then true
    else if |b| == 0 then false
    else if a[0] != b[0] then CodeUnitRank(a[0]) < CodeUnitRank(b[0])
    else StrLe(a[1..], b[1..])
  }

  /** Code-unit order is not code-point order: U+10000 sorts before U+E000. */
  lemma AstralBeforePrivateUse()
    ensures StrLe("\U{10000}", "\U{E000}") && !StrLe("\U{E000}", "\U{10000}")
  {
    assert "\U{10000}"[0] != "\U{E000}"[0];
  }

  lemma {:induction false} StrLeReflexive(a: string)
    ensures StrLe(a, a)
    decreases |a|
  {
    if |a| > 0 {
      StrLeReflexive(a[1..]);
    }
  }

  lemma {:induction false} StrLeTotal(a: string, b: string)
    ensures StrLe(a, b) || StrLe(b, a)
    decreases |a|
  {
    if |a| > 0 && |b| > 0 {
      if a[0] == b[0] {
        StrLeTotal(a[1..], b[1..]);
      }
    }
  }

  lemma {:induction false} StrLeAntisymmetric(a: string, b: string)
    requires StrLe(a, b) && StrLe(b, a)
    ensures a == b
    decreases |a|
  {
    if |a| > 0 {
      StrLeAntisymmetric(a[1..], b[1..]);
      assert a == [a[0]] + a[1..];
      assert b == [b[0]] + b[1..];
    }
  }

  lemma {:induction false} StrLeTransitive(a: string, b: string, c: string)
    requires StrLe(a, b) && StrLe(b, c)
    ensures StrLe(a, c)
    decreases |a|
  {
    if |a| > 0 && |b| > 0 && |c| > 0 && a[0] == b[0] && b[0] == c[0] {
      StrLeTransitive(a[1..], b[1..], c[1..]);
    }
  }

  ghost predicate StrSorted(s: seq<string>) {
    forall i, j :: 0 <= i < j < |s| ==> StrLe(s[i], s[j])
  }

  function InsertStr(x: string, s: seq<string>): (r: seq<string>)
    requires StrSorted(s)
    ensures StrSorted(r)
    ensures multiset(r) == multiset(s) + multiset{x}
  {
    if |s| == 0 || StrLe(x, s[0]) then
      forall j | 0 <= j < |s| ensures StrLe(x, s[j]) {
        if j > 0 { StrLeTransitive(x, s[0], s[j]); }
      }
      [x] + s
    else
      StrLeTotal(x, s[0]);
      var rest := InsertStr(x, s[1..]);
      forall j | 0 <= j < |rest| ensures StrLe(s[0], rest[j]) {
        assert rest[j] in multiset(rest);
      }
      assert s == [s[0]] + s[1..];
      [s[0]] + rest
  }

  /** `[...s].sort()` on strings. */
  function SortStrings(s: seq<string>): (r: seq<string>)
    ensures StrSorted(r)
    ensures multiset(r) == multiset(s)
  {
    if |s| == 0 then []
    else
      assert s == [s[0]] + s[1..];
      InsertStr(s[0], SortStrings(s[1..]))
  }

  /** Two sorted sequences holding the same strings are the same sequence. */
  lemma {:induction false} SortedUnique(a: seq<string>, b: seq<string>)
    requires StrSorted(a) && StrSorted(b)
    requires multiset(a) == multiset(b)
    ensures a == b
    decreases |a|
  {
    if |a| > 0 {
      SortedHeadsEqual(a, b);
      TailMultiset(a);
      TailMultiset(b);
      SortedUnique(a[1..], b[1..]);
      assert a == [a[0]] + a[1..];
      assert b == [b[0]] + b[1..];
    }
  }

  /** Two non-empty sorted sequences holding the same strings start alike. */
  lemma SortedHeadsEqual(a: seq<string>, b: seq<string>)
    requires StrSorted(a) && StrSorted(b)
    requires multiset(a) == multiset(b) && |a| > 0
    ensures |b| == |a| && a[0] == b[0]
  {
    assert |b| == |multiset(b)| == |multiset(a)| == |a|;
    assert a[0] in multiset(b);
    var j :| 0 <= j < |b| && b[j] == a[0];
    assert b[0] in multiset(a);
    var i :| 0 <= i < |a| && a[i] == b[0];
    StrLeReflexive(a[0]);
    StrLeReflexive(b[0]);
    assert StrLe(b[0], a[0]) by { if j > 0 { assert StrLe(b[0], b[j]); } }
    assert StrLe(a[0], b[0]) by { if i > 0 { assert StrLe(a[0], a[i]); } }
    StrLeAntisymmetric(a[0], b[0]);
  }

  lemma TailMultiset<T>(s: seq<T>)
    requires |s| > 0
    ensures multiset(s[1..]) == multiset(s) - multiset{s[0]}
  {
    assert s == [s[0]] + s[1..];
  }

  /** Sorting depends only on which strings (with multiplicity) are given. */
  lemma SortStringsDependsOnMultiset(a: seq<string>, b: seq<string>)
    requires multiset(a) == multiset(b)
    ensures SortStrings(a) == SortStrings(b)
  {
    SortedUnique(SortStrings(a), SortStrings(b));
  }
}

=== FILE: text.dfy ===
/** String helpers with the semantics of the ECMAScript built-ins the
    application calls (`trim`, `split`, `join`, `startsWith`, number
    formatting).  A `char` is a Unicode scalar value; `Utf16Length` gives
    the length JavaScript reports, which counts UTF-16 code units. */
module Text {

  import opened Wrappers

  /** The ECMAScript WhiteSpace and LineTerminator code points: what `trim`
      strips and what the regular-expression class `\s` matches. */
  predicate IsWhitespace(c: char) {
    || c == ' ' || c == '\t' || c == '\n' || c == '\r'
    || c == '\U{000B}' || c == '\U{000C}' || c == '\U{00A0}' || c == '\U{1680}'
    || ('\U{2000}' <= c <= '\U{200A}')
    || c == '\U{2028}' || c == '\U{2029}' || c == '\U{202F}' || c == '\U{205F}'
    || c == '\U{3000}' || c == '\U{FEFF}'
  }

  ghost predicate AllWhitespace(s: string) {
    forall i :: 0 <= i < |s| ==> IsWhitespace(s[i])
  }

  /** `s.trimStart()`: drops the leading whitespace and nothing else. */
  function TrimStart(s: string): (r: string)
    ensures |r| <= |s| && r == s[|s| - |r|..]
    ensures AllWhitespace(s[..|s| - |r|])
    ensures r == [] || !IsWhitespace(r[0])
  {
    if |s| > 0 && IsWhitespace(s[0]) then
      var r := TrimStart(s[1..]);
      assert s[1..][..|s[1..]| - |r|] == s[1..|s| - |r|];
      r
    else
      s
  }

  /** `s.trimEnd()`: drops the trailing whitespace and nothing else. */
  function TrimEnd(s: string): (r: string)
    ensures |r| <= |s| && r == s[..|r|]
    ensures AllWhitespace(s[|r|..])
    ensures r == [] || !IsWhitespace(r[|r| - 1])
  {
    if |s| > 0 && IsWhitespace(s[|s| - 1]) then
      var r := TrimEnd(s[..|s| - 1]);
      assert s[..|s| - 1][|r|..] == s[|r|..|s| - 1];
      assert s[|r|..] == s[|r|..|s| - 1] + [s[|s| - 1]];
      r
    else
      s
  }

  /** No whitespace at either end. */
  predicate IsTrimmed(s: string) {
    s == [] || (!IsWhitespace(s[0]) && !IsWhitespace(s[|s| - 1]))
  }

  /** `s.trim()`: the longest infix of `s` that neither starts nor ends with
      whitespace, everything outside it being whitespace. */
  function Trim(s: string): (r: string)
    ensures |r| <= |s|
    ensures IsTrimmed(r)
  {
    TrimEnd(TrimStart(s))
  }

  /** `r` sits at offset `i` of `s` with only whitespace around it. */
  ghost predicate InfixAt(s: string, r: string, i: int) {
    0 <= i <= |s| - |r| && r == s[i..i + |r|]
    && AllWhitespace(s[..i]) && AllWhitespace(s[i + |r|..])
  }

  /** What `trim` removes is whitespace on both sides of the result. */
  lemma TrimIsInfix(s: string)
    ensures exists i :: InfixAt(s, Trim(s), i)
  {
    var a := TrimStart(s);
    var r := TrimEnd(a);
    var i := |s| - |a|;
    SuffixSlices(s, a, i, |r|);
    assert s[i + |r|..] == a[|r|..];
    assert r == Trim(s);
    assert InfixAt(s, Trim(s), i);
  }

  /** Slices of a suffix are slices of the whole. */
  lemma SuffixSlices(s: string, a: string, i: nat, n: nat)
    requires i <= |s| && a == s[i..] && n <= |a|
    ensures a[..n] == s[i..i + n] && a[n..] == s[i + n..]
  {
  }

  lemma TrimStartWhitespaceCons(c: char, s: string)
    requires IsWhitespace(c)
    ensures TrimStart([c] + s) == TrimStart(s)
  {
    assert ([c] + s)[1..] == s;
  }

  lemma TrimStartNoWhitespace(s: string)
    requires s == [] || !IsWhitespace(s[0])
    ensures TrimStart(s) == s
  {
  }

  lemma TrimEndWhitespaceSnoc(s: string, c: char)
    requires IsWhitespace(c)
    ensures TrimEnd(s + [c]) == TrimEnd(s)
  {
    assert (s + [c])[..|s|] == s;
  }

  /** A string with no whitespace at either end is its own trimmed form. */
  lemma TrimOfTrimmed(s: string)
    requires IsTrimmed(s)
    ensures Trim(s) == s
  {
    assert TrimStart(s) == s;
  }

  /** Trimming is idempotent. */
  lemma TrimIdempotent(s: string)
    ensures Trim(Trim(s)) == Trim(s)
  {
    TrimOfTrimmed(Trim(s));
  }

  /** A value whose trimmed form is empty: JavaScript's `!value.trim()`. */
  predicate IsBlank(s: string) {
    Trim(s) == []
  }

  lemma BlankIffAllWhitespace(s: string)
    ensures IsBlank(s) <==> AllWhitespace(s)
  {
    var r := Trim(s);
    TrimIsInfix(s);
    var i :| InfixAt(s, r, i);
    if r == [] {
      forall k | 0 <= k < |s| ensures IsWhitespace(s[k]) {
        if k < i { assert s[..i][k] == s[k]; } else { assert s[i..][k - i] == s[k]; }
      }
    }
  }

  predicate StartsWith(s: string, prefix: string) {
    |prefix| <= |s| && s[..|prefix|] == prefix
  }

  predicate EndsWith(s: string, suffix: string) {
    |suffix| <= |s| && s[|s| - |suffix|..] == suffix
  }

  /** `parts.join(sep)`. */
  function Join(parts: seq<string>, sep: string): string {
    if |parts| == 0 then ""
    else if |parts| == 1 then parts[0]
    else parts[0] + sep + Join(parts[1..], sep)
  }

  /** A join of pieces begins with the first piece. */
  lemma {:induction false} JoinStartsWith(parts: seq<string>, sep: string)
    requires |parts| >= 1
    ensures StartsWith(Join(parts, sep), parts[0])
  {
    if |parts| > 1 {
      assert Join(parts, sep) == parts[0] + (sep + Join(parts[1..], sep));
    }
  }

  /** Index of the first occurrence of `c` in `s`, if any. */
  function IndexOfChar(s: string, c: char): (r: Option<nat>)
    ensures r.None? <==> c !in s
    ensures r.Some? ==> r.value < |s| && s[r.value] == c && c !in s[..r.value]
  {
    if |s| == 0 then None
    else if s[0] == c then Some(0)
    else
      match IndexOfChar(s[1..], c)
      case None => None
      case Some(i) => assert s[..i + 1] == [s[0]] + s[1..][..i]; Some(i + 1)
  }

  /** `s.split(sep)` for a one-character separator: the pieces between the
      separators, so `""` splits into `[""]`. */
  function Split(s: string, sep: char): (r: seq<string>)
    ensures |r| >= 1
    ensures forall k :: 0 <= k < |r| ==> sep !in r[k]
    decreases |s|
  {
    match IndexOfChar(s, sep)
    case None => [s]
    case Some(i) => [s[..i]] + Split(s[i + 1..], sep)
  }

  /** Joining the pieces of a split with the separator gives back the input. */
  lemma {:induction false} JoinSplit(s: string, sep: char)
    ensures Join(Split(s, sep), [sep]) == s
    decreases |s|
  {
    match IndexOfChar(s, sep)
    case None =>
    case Some(i) =>
      JoinSplit(s[i + 1..], sep);
      var rest := Split(s[i + 1..], sep);
      assert Split(s, sep) == [s[..i]] + rest;
      assert ([s[..i]] + rest)[1..] == rest;
      assert s == s[..i] + [sep] + s[i + 1..];
  }

  lemma {:induction false} IndexOfFirstSeparator(a: string, b: string, c: char)
    requires c !in a
    ensures IndexOfChar(a + [c] + b, c) == Some(|a|)
  {
    if |a| > 0 {
      IndexOfFirstSeparator(a[1..], b, c);
      assert (a + [c] + b)[1..] == a[1..] + [c] + b;
    }
  }

  /** Splitting a join of separator-free pieces gives the pieces back. */
  lemma {:induction false} SplitJoin(parts: seq<string>, sep: char)
    requires |parts| >= 1
    requires forall k :: 0 <= k < |parts| ==> sep !in parts[k]
    ensures Split(Join(parts, [sep]), sep) == parts
  {
    if |parts| > 1 {
      var s := Join(parts, [sep]);
      var rest := Join(parts[1..], [sep]);
      assert s == parts[0] + [sep] + rest;
      IndexOfFirstSeparator(parts[0], rest, sep);
      assert s[..|parts[0]|] == parts[0];
      assert s[|parts[0]| + 1..] == rest;
      assert Split(s, sep) == [parts[0]] + Split(rest, sep);
      SplitJoin(parts[1..], sep);
      assert parts == [parts[0]] + parts[1..];
    }
  }

  /** The UTF-16 code units of one character: two for a character outside
      the Basic Multilingual Plane, one otherwise. */
  function CodeUnits(c: char): nat {
    if c as int < 0x1_0000 then 1 else 2
  }

  /** `s.length`: the number of UTF-16 code units of `s`. */
  function Utf16Length(s: string): (n: nat)
    ensures |s| <= n <= 2 * |s|
  {
    if |s| == 0 then 0 else CodeUnits(s[0]) + Utf16Length(s[1..])
  }

  /** Code units add up over a concatenation. */
  lemma {:induction false} Utf16LengthConcat(a: string, b: string)
    ensures Utf16Length(a + b) == Utf16Length(a) + Utf16Length(b)
  {
    if |a| > 0 {
      assert (a + b)[1..] == a[1..] + b;
      Utf16LengthConcat(a[1..], b);
    } else {
      assert a + b == b;
    }
  }

  /** Text inside the Basic Multilingual Plane has one code unit per
      character. */
  lemma {:induction false} Utf16LengthOfBmp(s: string)
    requires forall k :: 0 <= k < |s| ==> s[k] as int < 0x1_0000
    ensures Utf16Length(s) == |s|
  {
    if |s| > 0 {
      Utf16LengthOfBmp(s[1..]);
    }
  }

  /** A character outside the Basic Multilingual Plane counts twice. */
  lemma Utf16LengthOfAstral(c: char)
    requires c as int >= 0x1_0000
    ensures Utf16Length([c]) == 2
  {
    assert [c][1..] == [];
  }

  /** Decimal digits of a natural number, as `String(n)` prints it. */
  function NatToString(n: nat): (r: string)
    ensures |r| >= 1
    ensures forall k :: 0 <= k < |r| ==> '0' <= r[k] <= '9'
  {
    var d := ['0' + (n % 10) as char];
    if n < 10 then d else NatToString(n / 10) + d
  }

  /** Decimal text of an integer, with a leading `-` when negative. */
  function IntToString(n: int): string {
    if n < 0 then "-" + NatToString(-n) else NatToString(n)
  }

  /** ASCII `toUpperCase` of one character. */
  function UpperChar(c: char): (r: char)
    ensures 'a' <= c <= 'z' ==> 'A' <= r <= 'Z'
    ensures !('a' <= c <= 'z') ==> r == c
  {
    if 'a' <= c <= 'z' then (c as int - 32) as char else c
  }

}

=== FILE: use_event_search.dfy ===
/** The search hook behind the search box: the query, a debounce timer,
    numbered requests of which only the latest may update the state, and
    the results, error and dropdown flags.  Timers and the database query
    are replaced by explicit steps: arming the timer on a query change,
    the timer firing (which issues a request) and a response arriving. */
module EventSearchHook {

  import opened Wrappers
  import opened Text
  import opened Domain
  import Seqs

  // ---------------------------------------------------------------------
  // Search pattern
  // ---------------------------------------------------------------------

  /** `s.replace(/\s+/g, "%")`: every maximal run of whitespace becomes a
      single `%`.  `afterRun` says whether the previous character was
      whitespace. */
  function CollapseRuns(s: string, afterRun: bool): (r: string)
    ensures forall k :: 0 <= k < |r| ==> !IsWhitespace(r[k])
    ensures |r| <= |s|
  {
    if |s| == 0 then ""
    else if IsWhitespace(s[0]) then
      (if afterRun then "" else "%") + CollapseRuns(s[1..], true)
    else [s[0]] + CollapseRuns(s[1..], false)
  }

  /** The `ilike` pattern for a trimmed query: `%`, the query with its
      whitespace runs turned into `%`, and `%`. */
  function Pattern(trimmed: string): (r: string)
    ensures |r| >= 2 && r[0] == '%' && r[|r| - 1] == '%'
    ensures forall k :: 0 <= k < |r| ==> !IsWhitespace(r[k])
  {
    "%" + CollapseRuns(trimmed, false) + "%"
  }

  predicate NotWildcard(c: char) {
    c != '%'
  }

  predicate NotSpace(c: char) {
    !IsWhitespace(c)
  }

  /** The pattern keeps exactly the query's non-whitespace characters, in
      order: dropping its `%` signs gives the query without whitespace
      (for a query that has no `%` of its own). */
  lemma {:induction false} CollapseKeepsText(s: string, afterRun: bool)
    requires '%' !in s
    ensures Seqs.Filter(NotWildcard, CollapseRuns(s, afterRun)) == Seqs.Filter(NotSpace, s)
  {
    if |s| > 0 {
      assert '%' !in s[1..] by {
        assert forall k :: 0 <= k < |s[1..]| ==> s[1..][k] == s[k + 1];
      }
      CollapseKeepsText(s[1..], IsWhitespace(s[0]));
      var rest := CollapseRuns(s[1..], IsWhitespace(s[0]));
      assert Seqs.Filter(NotWildcard, rest) == Seqs.Filter(NotSpace, s[1..]);
      if IsWhitespace(s[0]) {
        assert Seqs.Filter(NotSpace, s) == Seqs.Filter(NotSpace, s[1..]);
        if !afterRun {
          var r := "%" + rest;
          assert CollapseRuns(s, afterRun) == r;
          assert r[0] == '%' && r[1..] == rest;
          assert Seqs.Filter(NotWildcard, r) == Seqs.Filter(NotWildcard, rest);
        } else {
          assert CollapseRuns(s, afterRun) == rest;
        }
      } else {
        var r := [s[0]] + rest;
        assert CollapseRuns(s, afterRun) == r;
        assert r[0] == s[0] && r[1..] == rest;
        assert s[0] != '%' by { assert s[0] in s; }
        assert Seqs.Filter(NotWildcard, r) == [s[0]] + Seqs.Filter(NotWildcard, rest);
        assert Seqs.Filter(NotSpace, s) == [s[0]] + Seqs.Filter(NotSpace, s[1..]);
      }
    }
  }

  /** A query without whitespace is searched as a plain substring. */
  lemma PatternOfWord(t: string)
    requires forall k :: 0 <= k < |t| ==> !IsWhitespace(t[k])
    ensures Pattern(t) == "%" + t + "%"
  {
    NoRunsUnchanged(t);
  }

  lemma {:induction false} NoRunsUnchanged(t: string)
    requires forall k :: 0 <= k < |t| ==> !IsWhitespace(t[k])
    ensures CollapseRuns(t, false) == t
  {
    if |t| > 0 {
      NoRunsUnchanged(t[1..]);
      assert [t[0]] + t[1..] == t;
    }
  }

  // ---------------------------------------------------------------------
  // State machine
  // ---------------------------------------------------------------------

  /** `armed` holds the trimmed query while the debounce timer runs;
      `latest` is the number of the newest request. */
  datatype Search = Search(
    query: string,
    results: seq<Event>,
    isLoading: bool,
    error: Option<string>,
    open: bool,
    latest: nat,
    armed: Option<string>)

  const Initial := Search("", [], false, None, false, 0, None)

  datatype Request = Request(id: nat, pattern: string)

  /** How a request settles: rows, an error reported by the database, or
      an exception. */
  datatype Outcome = Rows(events: seq<Event>) | FetchFailed | Threw

  const FetchFailedMessage := "We couldn't complete the search. Please try again."
  const ThrewMessage := "Something went wrong. Please try again."

  /** The query-change effect as written: a blank query resets the results,
      flags and timer; any other query arms the timer and shows loading.
      In-flight requests are left valid. */
  function SetQueryAsWritten(s: Search, q: string): (r: Search)
    ensures r.query == q && r.latest == s.latest
    ensures IsBlank(q) ==> r.results == [] && !r.isLoading && r.error.None? && !r.open && r.armed.None?
    ensures !IsBlank(q) ==> r.isLoading && r.error.None? && r.armed == Some(Trim(q))
    ensures !IsBlank(q) ==> r.results == s.results && r.open == s.open
  {
    if IsBlank(q) then s.(query := q, results := [], isLoading := false, error := None, open := false, armed := None)
    else s.(query := q, isLoading := true, error := None, armed := Some(Trim(q)))
  }

  /** The debounce timer fires: the next request number is issued for the
      armed query. */
  function TimerFires(s: Search): (r: (Search, Request))
    requires s.armed.Some?
    ensures r.1.id == s.latest + 1 && r.0.latest == r.1.id
    ensures r.1.pattern == Pattern(s.armed.value)
    ensures r.0 == s.(latest := s.latest + 1, armed := None)
  {
    var id := s.latest + 1;
    (s.(latest := id, armed := None), Request(id, Pattern(s.armed.value)))
  }

  /** A response for request `id`: ignored unless it is the latest;
      otherwise rows become the results, a failure empties them and shows
      its message, the dropdown opens and loading stops. */
  function Respond(s: Search, id: nat, o: Outcome): (r: Search)
    ensures id != s.latest ==> r == s
    ensures id == s.latest ==> r.open && !r.isLoading && r.query == s.query && r.latest == s.latest
    ensures id == s.latest && o.Rows? ==> r.results == o.events && r.error == s.error
    ensures id == s.latest && o.FetchFailed? ==> r.results == [] && r.error == Some(FetchFailedMessage)
    ensures id == s.latest && o.Threw? ==> r.results == [] && r.error == Some(ThrewMessage)
  {
    if id != s.latest then s
    else
      match o
      case Rows(events) => s.(results := events, open := true, isLoading := false)
      case FetchFailed => s.(results := [], error := Some(FetchFailedMessage), open := true, isLoading := false)
      case Threw => s.(results := [], error := Some(ThrewMessage), open := true, isLoading := false)
  }

  /** `clear` as written: the query, results, error, dropdown and timer are
      reset (and the blank query stops loading); in-flight requests are
      left valid. */
  function ClearAsWritten(s: Search): (r: Search)
    ensures r.query == "" && r.results == [] && r.error.None? && !r.open && !r.isLoading && r.armed.None?
    ensures r.latest == s.latest
  {
    s.(query := "", results := [], error := None, open := false, isLoading := false, armed := None)
  }

  /** `closeDropdown`: only the dropdown flag changes. */
  function CloseDropdown(s: Search): (r: Search)
    ensures !r.open && r == s.(open := false)
  {
    s.(open := false)
  }

  /** As written, a response to a request issued before a clear still
      lands: the cleared box reopens its dropdown on the old results. */
  lemma StaleResponseAfterClear(e: Event)
    ensures var (fired, req) := TimerFires(SetQueryAsWritten(Initial, "abc"));
            var after := Respond(ClearAsWritten(fired), req.id, Rows([e]));
            after.query == "" && after.open && after.results == [e]
  {
    TypedAbc();
  }

  /** Typing `abc` into the idle box arms the timer for `abc`. */
  lemma TypedAbc()
    ensures SetQueryAsWritten(Initial, "abc") == Initial.(query := "abc", isLoading := true, armed := Some("abc"))
  {
    TrimOfTrimmed("abc");
  }

  /** The same happens when the query is erased to blank. */
  lemma StaleResponseAfterErase(e: Event)
    ensures var (fired, req) := TimerFires(SetQueryAsWritten(Initial, "abc"));
            var after := Respond(SetQueryAsWritten(fired, ""), req.id, Rows([e]));
            after.query == "" && after.open && after.results == [e]
  {
    AbcArms();
    ErasedResponseLands(SetQueryAsWritten(Initial, "abc"), e);
  }

  /** `abc` is not blank, so typing it arms the timer. */
  lemma AbcArms()
    ensures SetQueryAsWritten(Initial, "abc").armed.Some?
  {
    TypedAbc();
  }

  /** Whatever was armed, a response to the request the timer issued
      still lands after the query is erased. */
  lemma ErasedResponseLands(s: Search, e: Event)
    requires s.armed.Some?
    ensures var (fired, req) := TimerFires(s);
            var after := Respond(SetQueryAsWritten(fired, ""), req.id, Rows([e]));
            after.query == "" && after.open && after.results == [e]
  {
    ErasedQuery(TimerFires(s).0);
  }

  /** Erasing the query resets the results, flags and timer. */
  lemma ErasedQuery(s: Search)
    ensures SetQueryAsWritten(s, "") == s.(query := "", results := [], isLoading := false, error := None, open := false, armed := None)
  {
    assert IsBlank("");
  }

  /** The query-change effect with every earlier request invalidated. */
  function SetQuery(s: Search, q: string): (r: Search)
    ensures r.latest == s.latest + 1
    ensures r.(latest := s.latest) == SetQueryAsWritten(s, q)
  {
    SetQueryAsWritten(s, q).(latest := s.latest + 1)
  }

  /** `clear` with every earlier request invalidated. */
  function Clear(s: Search): (r: Search)
    ensures r.latest == s.latest + 1
    ensures r.(latest := s.latest) == ClearAsWritten(s)
  {
    ClearAsWritten(s).(latest := s.latest + 1)
  }

  /** With invalidation, no request issued before a query change or a
      clear can touch the state afterwards. */
  lemma EarlierRequestsIgnored(s: Search, q: string, id: nat, o: Outcome)
    requires id <= s.latest
    ensures Respond(Clear(s), id, o) == Clear(s)
    ensures Respond(SetQuery(s, q), id, o) == SetQuery(s, q)
  {
  }

  /** With invalidation, the dropdown of a cleared box stays closed
      whatever earlier request settles. */
  lemma ClearedStaysClosed(s: Search, id: nat, o: Outcome)
    requires id <= s.latest
    ensures !Respond(Clear(s), id, o).open && Respond(Clear(s), id, o).query == ""
  {
  }

  /** A request issued after the change is still applied. */
  lemma LaterRequestApplied(s: Search, q: string, o: Outcome)
    requires !IsBlank(q)
    ensures var (fired, req) := TimerFires(SetQuery(s, q));
            Respond(fired, req.id, o).open && !Respond(fired, req.id, o).isLoading
  {
  }
}

=== FILE: wrappers.dfy ===
/** Failure-compatible wrappers shared by every module of the model:
    `Option` stands for TypeScript's `null`/`undefined`, `Result` for a
    value-or-thrown-error outcome. */
module Wrappers {

  datatype Option<+T> = None | Some(value: T) {

    /** The value, or `default` when absent (the `??` operator). */
    function GetOr(default: T): T {
      match this
      case Some(v) => v
      case None => default
    }
  }

  datatype Result<+R, +E> = Success(value: R) | Failure(error: E) {

    predicate IsFailure() {
      Failure?
    }

    function PropagateFailure<U>(): Result<U, E>
      requires Failure?
    {
      Failure(error)
    }

    function Extract(): R
      requires Success?
    {
      value
    }
  }
}
